=== FILE: README.md ===
# docu-talk in Dafny

docu-talk turns a set of PDF documents into a chatbot. A signed-in user
uploads documents, and the backend streams the chatbot's creation: a title
and description, an icon, suggested prompts, and finally the stored
chatbot's id. Each generation step is followed by a credit event that
reports what it cost. The user then asks questions, and the backend streams
the answer followed by one more credit event. Every call is billed in
credits: one dollar is worth a thousand credits, and the client shows the
balance left for the period.

This project models the logic of that core, in these modules:

- **Server side** (`backend/`):
  - `Access` and `Settings`: who may call a chatbot endpoint (`check_user_access`), and the settings endpoints that add documents under the limits or request public sharing.
  - `CreationServer`: the page total of uploaded documents and the order of the creation stream (object lines, usage stored, credit events, chatbot stored before its id).
  - `AskServer`: the answer stream, the messages it stores, and the sources answer.
  - `Sse`: the credit event both streams send, in server-sent-event syntax (WHATWG HTML Living Standard, section 9.2.5).
  - `PyJson`: Python's `json.dumps` for the dictionaries streamed.
  - `Passwords`: `generate_password`.
- **Client side** (`frontend/src/`):
  - `Json`: values as `JSON.parse` builds them, with JavaScript property reads and truthiness.
  - `CreationScanner`: the brace scanner the create page runs over its buffer.
  - `CreationClient`: the file list, the create guards, and the stream consumer.
  - `CreationFlow` and `AskFlow`: server and client composed end to end.
  - `AskClient`: the chat page's stream reader and its submit, prompt, send and clear actions.
  - `Credits`: the balance kept by `UserContext` and its display.
  - `Login`: form validation.
  - `MessageList`, `TypeWriter`, `Dashboard`, `DocumentSelector`, `MainSettings`, `DocumentsTab`, `FileUploader`: the decisions these components make.

`JSON.parse` is a parameter, `parse: string -> Option<Json>`. The
end-to-end lemmas assume two facts about it, stated as predicates:

- it reads back what `json.dumps` wrote, after any JSON whitespace (`AcceptsDumps`);
- a text ending in `}` that parses starts, after whitespace, with `{` (`ObjectsOnlyFromBrace`, from RFC 8259 sections 2 and 4).

The model follows the code as written; in particular:

- The creation scanner is neither nesting-aware nor string-aware. It cuts at every `}`.
- Neither client flushes a half-read object at the end of the stream.
- The create page sets the step from the latest object, so the step can move backwards.
- Nothing stops a second conversation from being created while one is being created.

Three results tie the halves together. Each holds under the hypotheses listed with it.

- `CreationFlow.CreationShowsStored`: however the network cuts an unbroken creation stream into reads, the page ends up showing what the server stored. Hypotheses:
  - the parser satisfies `AcceptsDumps` and `ObjectsOnlyFromBrace`;
  - the generated title, description and prompts hold no brace;
  - the title, description, icon and chatbot id are non-empty;
  - at least one file is chosen, the credits are positive, and the documents have at most 200 pages in all.
- `AskFlow.AnswerShowsStored`: when every send arrives as one read and nothing is left to flush, the chat page shows exactly the stored answer and one credit notice: a toast with the billed amount, then a credit refresh. Hypotheses:
  - the parser satisfies `AcceptsDumps`;
  - no answer chunk contains the text `event: credits` (`Unmarked`).
- `AskFlow.SubmitShowsStored`: a question submitted from the chat page ends with the question followed by the answer the server stores under the conversation's id, one more credit notice (toast and refresh), and the loading flag off. Hypotheses:
  - those of `AskFlow.AnswerShowsStored`, and the answer has at least one chunk;
  - the input is not blank and the remaining credits are positive;
  - a token is stored and the route names a chatbot, both truthy;
  - the page has a truthy conversation id, or a non-empty one was just created;
  - the stream is not broken.

## Model

| member | source | states |
|---|---|---|
| Access.CheckUserAccess | backend/config/config.py:63-103 | Passes exactly when the user has an entry for the chatbot and, when admin is asked, that entry is "Admin"; a missing entry gives the 403 access error, a non-admin role the 403 admin error |
| Access.AdminPassesAll | backend/config/config.py:89-103 | The admin check passes iff the role is "Admin", and passing it implies passing the plain check |
| Access.MissingEntryFirst | backend/config/config.py:89-94 | Without an entry the error is the access error, whether or not admin was asked |
| Access.AnyRolePasses | backend/routers/chatbots.py:55-58 | Any role with an entry passes the plain check and the endpoint returns its work |
| Settings.TotalPagesAppend | backend/routers/chatbot_settings.py:270-285 | The page total of two document lists is the sum of their totals |
| Settings.AddDocuments | backend/routers/chatbot_settings.py:224-302 | The admin check comes first, then the document count limit, then the page limit; when all pass, the new documents follow the existing ones in upload order |
| Settings.AddAllOrNothing | backend/routers/chatbot_settings.py:262-301 | Adding succeeds iff both totals are within the limits, and then the list is the old documents followed by all new ones |
| Settings.LimitsAreInclusive | backend/routers/chatbot_settings.py:262-291 | A request that lands exactly on both limits is accepted |
| Settings.RequestPublic | backend/routers/chatbot_settings.py:189-221 | Only an admin can request it; the chatbot's access becomes "pending_public_request" and every other chatbot keeps its access |
| CreationServer.CollectDocuments | backend/routers/create_chatbot.py:205-219 | Every uploaded document is kept in upload order with its page count, and the total is the sum of the page counts |
| CreationServer.SevenYields | backend/routers/create_chatbot.py:98-174 | The stream sends seven texts: three object lines each followed by a credit event, then the id line |
| CreationServer.BilledThenFramed | backend/routers/create_chatbot.py:103-113 | Each usage stored, at four times the model's usage, is followed directly by that step's credit event |
| CreationServer.PersistBeforeId | backend/routers/create_chatbot.py:161-174 | The chatbot is stored once, private and with the streamed title, description and prompts, just before its id is sent last |
| AskServer.StreamAnswer | backend/routers/chatbots.py:232-235 | Every chunk is sent as it arrives, and the stored answer is the concatenation of what was sent |
| AskServer.AskSends | backend/routers/chatbots.py:232-250 | The stream sends the answer's chunks in order and then exactly one credit event |
| AskServer.AskOrder | backend/routers/chatbots.py:237-268 | After the last chunk come the bill at four times the usage, the credit event, the stored question and the stored answer; nothing is stored before the credit event |
| AskServer.SourcesAnswer | backend/routers/chatbots.py:398-406 | The sources text is "No sources found" iff there are no sources, and otherwise starts with the first source's part; a single source gives exactly its part, and `AskServer.SourcesAnswerAppend` gives each further one |
| AskServer.SourcesAnswerAppend | backend/routers/chatbots.py:402-406 | Each further source adds a blank line and its own part at the end |
| AskServer.LastMessageSources | backend/routers/chatbots.py:398-424 | The usage is billed at four times the model's, the answer is stored as an assistant message, and the reply carries the billed credits |
| AskServer.AskChatbot | backend/routers/chatbots.py:280-335 | Without access the request fails with the access error; with any role the answer stream runs |
| AskServer.GetLastMessageSources | backend/routers/chatbots.py:338-440 | Without access the request fails with the access error; otherwise the answer is the sources text |
| Sse.CreditFrame | backend/routers/chatbots.py:247-250 | The credit event opens with `event: credits` and is the event, id and data lines followed by the blank line that ends it |
| Sse.ReadNotice | frontend/src/pages/Chat.tsx:179-193 | A notice is read only from a text that has a line starting with `data: ` |
| Sse.FrameNotice | frontend/src/pages/Chat.tsx:179-193 | The credit event the server sends, read by itself, gives back exactly the billed amount |
| Sse.NoticeOfFrame | frontend/src/pages/CreateChatbot.tsx:338-351 | The notice read from an event is `consumed_credits` of its parsed data line |
| Sse.PayloadCredits | backend/routers/chatbots.py:245-249 | The payload read back holds the amount, in hundredths, under `consumed_credits` |
| PyJson.EscapeChar | backend/routers/create_chatbot.py:98-101 | An escaped character holds a brace iff it is one, and never a newline |
| PyJson.Dumps | backend/routers/create_chatbot.py:98-101 | `json.dumps` output is one object literal, opening with `{` and closing with `}` |
| PyJson.DumpsBody | backend/routers/create_chatbot.py:98-101 | The members of a dictionary whose keys and strings hold no brace are written without a brace |
| Json.Lookup | frontend/src/pages/CreateChatbot.tsx:305-329 | A property read finds nothing iff no member has the key; otherwise it gives the value of the last member with that key |
| CreationScanner.Scan | frontend/src/pages/CreateChatbot.tsx:300-335 | The scan never accepts a `null` (its property read throws and the scan steps on) |
| CreationScanner.ScanRest | frontend/src/pages/CreateChatbot.tsx:353 | The buffer kept is all of the text when it has no `}`, and otherwise the text after its last `}` |
| CreationScanner.ScanPrefix | frontend/src/pages/CreateChatbot.tsx:291-353 | Scanning `x + y` is scanning `x`, then scanning what it kept followed by `y`, so keeping the tail between reads changes nothing |
| CreationScanner.ScanWithoutBrace | frontend/src/pages/CreateChatbot.tsx:300 | Text with no `}` gives no value and is kept whole |
| CreationScanner.SegmentScan | frontend/src/pages/CreateChatbot.tsx:300-335 | After brace-free text, a `json.dumps` object is accepted whole and the scan goes on after it |
| CreationScanner.DumpsClosesOnce | backend/routers/create_chatbot.py:98-101 | `json.dumps` output with brace-free members has its only `}` at the end |
| CreationScanner.ScanPieces | frontend/src/pages/CreateChatbot.tsx:300-335 | A stream of brace-free pieces scans to exactly their objects in order, and keeps the text after the last one |
| CreationClient.PdfOnly | frontend/src/pages/CreateChatbot.tsx:176-193 | Keeps exactly the PDF files, and keeps all of them iff every file is a PDF |
| CreationClient.PdfOnlyAppend | frontend/src/pages/CreateChatbot.tsx:176-193 | The PDF filter keeps the order of the files |
| CreationClient.HandleNewFiles | frontend/src/pages/CreateChatbot.tsx:176-193 | Over 20 files in all, the list is kept and the count toast is shown; otherwise the PDFs are appended, and a toast is shown iff some file is not a PDF |
| CreationClient.PageLimitPop | frontend/src/pages/CreateChatbot.tsx:124-134 | Above 200 pages the last file of the list is dropped; otherwise the list stays |
| CreationClient.RemoveFile | frontend/src/pages/CreateChatbot.tsx:200-206 | `splice(index, 1)`: removes the entry at the index, counts a negative index from the end, and removes nothing past the end |
| CreationClient.RemoveFileKeepsOthers | frontend/src/pages/CreateChatbot.tsx:200-206 | Removing keeps every other file in order |
| CreationClient.StageOf | frontend/src/pages/CreateChatbot.tsx:305-329 | An object is classified by the first truthy case: title and description, then icon, then suggested prompts, then chatbot id |
| CreationClient.ClassifyAllAppend | frontend/src/pages/CreateChatbot.tsx:300-335 | Applying two runs of objects is applying the first, then the second |
| CreationClient.ObjectEffects | frontend/src/pages/CreateChatbot.tsx:314-328 | Objects cause at most one user refresh each and nothing else |
| CreationClient.CreditEffects | frontend/src/pages/CreateChatbot.tsx:338-351 | At most one credit notice per read, and only when the buffer holds `event: credits` |
| CreationClient.FrameReadNotice | frontend/src/pages/CreateChatbot.tsx:338-351 | A buffer holding the server's credit event shows the billed amount once |
| CreationClient.Read | frontend/src/pages/CreateChatbot.tsx:291-353 | One read keeps the text after the last `}`, and adds at most one effect per object plus one credit notice |
| CreationClient.ChunkInvariance | frontend/src/pages/CreateChatbot.tsx:291-354 | However the stream is cut into reads, the page and the buffer end as after one scan of the whole text |
| CreationClient.TailRetained | frontend/src/pages/CreateChatbot.tsx:295-353 | A read that brings no `}` only grows the buffer |
| CreationClient.FinalStep | frontend/src/pages/CreateChatbot.tsx:305-329 | The step shown is the one the last classified object sets |
| CreationClient.StepMovesBackward | frontend/src/pages/CreateChatbot.tsx:305-321 | A prompts object followed by a title object takes the step from 3 back to 1 |
| CreationClient.CompleteIffId | frontend/src/pages/CreateChatbot.tsx:314-328 | Creation completes iff some object carries a chatbot id; otherwise the page stays in its creating state |
| CreationClient.HandleCreateChatbot | frontend/src/pages/CreateChatbot.tsx:240-359 | Refused iff there are no files, no positive credits or too many pages, in that order; an error status ends with the failure toast; a stream leaves the page as one scan of the whole text, and a broken one ends with the failure toast |
| CreationFlow.CreationShowsStored | backend/routers/create_chatbot.py:61-175 | However the stream is cut into reads, the page ends at step 4, no longer creating, showing the title, description, prompts and id the server stored |
| CreationFlow.StreamScan | frontend/src/pages/CreateChatbot.tsx:300-335 | The scanner finds the stream's four objects with the three credit payloads between them, and keeps only the final newline |
| CreationFlow.ClassifyStream | frontend/src/pages/CreateChatbot.tsx:305-329 | The page applies the four objects in turn and passes over the credit payloads |
| CreationFlow.PayloadIgnored | frontend/src/pages/CreateChatbot.tsx:305-329 | A credit payload matches no stage |
| AskClient.ShowBot | frontend/src/pages/Chat.tsx:202-210 | The answer overwrites a bot message at the end, or else is pushed after a user message; nothing else changes |
| AskClient.ShowBotTwice | frontend/src/pages/Chat.tsx:202-210 | Showing the answer twice is showing the later text once |
| AskClient.OverwriteBot | frontend/src/pages/Chat.tsx:161-170 | The final flush only overwrites a bot message and never pushes one |
| AskClient.Receive | frontend/src/pages/Chat.tsx:179-211 | A chunk holding the marker only adds a notice, when its data line reads: one credits toast followed by one `refreshCredits` call; any other chunk is appended and starts typing, and the first one clears loading |
| AskClient.Finish | frontend/src/pages/Chat.tsx:144-172 | An empty flush changes nothing, and the flush never changes the typing or loading flags |
| AskClient.ReceiveAllText | frontend/src/pages/Chat.tsx:196-211 | Over any run of chunks, the answer grows by exactly the chunks without the marker, in order |
| AskClient.ReceiveAllNotices | frontend/src/pages/Chat.tsx:179-193 | The notices, each a toast then a credit refresh, grow by one per marker chunk whose data line reads |
| AskClient.ReceiveAllShows | frontend/src/pages/Chat.tsx:196-211 | Typing has started iff some chunk was appended, and the page shows at most one bot message for the answer |
| AskClient.RespondFacts | frontend/src/pages/Chat.tsx:131-213 | A whole answer is the appended chunks plus the flush unless it starts with the marker; loading clears iff something was appended; at most one message is added |
| AskClient.AnswerAfterQuestion | frontend/src/pages/Chat.tsx:196-211 | The answer never changes the question or anything before it |
| AskClient.SpokenAppend | frontend/src/pages/Chat.tsx:196-211 | The appended text of two runs of chunks is that of the first followed by that of the second |
| AskClient.ModelFor | frontend/src/pages/Chat.tsx:289 | The premium model is used iff premium is on |
| AskClient.SendMessage | frontend/src/pages/Chat.tsx:282-334 | Without a truthy token or chatbot id the page navigates home and nothing else changes, the loading flag included. Otherwise a truthy conversation id is used as it is; otherwise a failed creation shows the error and sends nothing, and a new id is kept and used only when non-empty; loading ends cleared. Once a question is sent, a streamed reply's messages and toasts are what reading the body gives, and an error status or a broken read adds the error |
| AskClient.IdReused | frontend/src/pages/Chat.tsx:297-307 | Once set, the conversation id is used for every later question that is sent |
| AskClient.HandleSubmit | frontend/src/pages/Chat.tsx:360-386 | A blank input does nothing; without positive credits only the error is shown; without a token or chatbot id the question is shown, nothing is sent and the page navigates home; a sent question is the input, after which the input and prompts are cleared. With an id to send under, the question goes with the chosen model and the page ends with what reading the reply after the question gives |
| AskClient.HandlePromptClick | frontend/src/pages/Chat.tsx:336-358 | Like a submit of the prompt, without the blank check: with credits loading ends cleared, and the page navigates home iff the token or chatbot id is missing |
| AskClient.Ask | frontend/src/pages/Chat.tsx:364-379 | With credits the question is added as a user message after the earlier ones and loading ends cleared; without a token or chatbot id nothing is sent and the page navigates home, otherwise it is sent and a streamed reply is read after the question |
| AskClient.AnswerKeepsQuestion | frontend/src/pages/Chat.tsx:282-334 | Sending keeps every message already shown and adds at most the answer |
| AskClient.ClearedThenNewConversation | frontend/src/pages/Chat.tsx:473-485 | After a clear, the next question sent creates and uses a new conversation |
| AskClient.PromptsHideThenReturn | frontend/src/pages/Chat.tsx:91-96 | A question sent with credits hides the suggested prompts, and a clear shows them again |
| AskFlow.AnswerShowsStored | backend/routers/chatbots.py:232-268 | The page's answer is the assistant message stored last, with exactly one toast carrying the billed amount |
| AskFlow.PageShowsStored | frontend/src/pages/Chat.tsx:196-211 | After the question, the stored answer is the one bot message shown, and loading is off |
| AskFlow.SubmitShowsStored | frontend/src/pages/Chat.tsx:282-386 | A submitted question with credits, a token, the chatbot's id and a conversation id ends with the question, then the answer the server stores last under that id, one more credit notice and loading off |
| AskFlow.ReadsFacts | frontend/src/pages/Chat.tsx:131-213 | Answer chunks followed by the credit event read as exactly the answer and one toast |
| AskFlow.SharedReadLosesText | frontend/src/pages/Chat.tsx:179-193 | A read holding the marker is never appended, so text sharing a read with the credit event is lost |
| AskFlow.CoalescedLastChunk | frontend/src/pages/Chat.tsx:179-193 | When the last chunk and the credit event share a read, the page shows the answer without that chunk |
| Credits.TotalCredits | frontend/src/components/auth/UserContext.tsx:111 | The total is the floor of a thousand times the dollar amount |
| Credits.ConsumedCredits | frontend/src/components/auth/UserContext.tsx:112 | Consumed credits are the floor of a thousand times the price, with `null` counted as 0 |
| Credits.ErrorMessage | frontend/src/components/auth/UserContext.tsx:116-128 | A 401 or a session-expired detail gives the session message; another detail is shown as is; a failure without a response gives the generic message |
| Credits.FetchUserData | frontend/src/components/auth/UserContext.tsx:65-132 | Without a token everything is cleared; a thrown failure clears user and credits and sets an error; otherwise there is no error; loading always ends |
| Credits.RemainingFormula | frontend/src/components/auth/UserContext.tsx:106-115 | With both replies, the remaining credits are the total minus what was consumed, without clamping, and negative iff more was consumed |
| Credits.AbsentPriceKeepsRemaining | frontend/src/components/auth/UserContext.tsx:109-113 | A reply without `consumed_price` leaves the remaining credits as they were |
| Credits.FirstFailureWins | frontend/src/components/auth/UserContext.tsx:77-104 | When both requests throw, the one that fails first decides the message |
| Credits.SessionExpiredNeverShown | frontend/src/components/auth/UserContext.tsx:116-128 | The session message appears only when a server sends it as a detail, since each request handles its own 401 |
| Credits.UpdateAgreesWithFetch | frontend/src/components/auth/UserContext.tsx:143-156 | An update with the fetched price leaves the fetched ledger unchanged |
| Credits.CreditsUnauthorizedShowsFullBalance | frontend/src/components/auth/UserContext.tsx:95-114 | As written, a 401 on the credits request alone leaves the user signed in with the whole period's credits |
| Credits.FetchUserDataIntended | frontend/src/components/auth/UserContext.tsx:82-103 | A 401 on either request ends with no user and no credits, and otherwise agrees with the code |
| Credits.IntendedBalanceNeedsUser | frontend/src/components/auth/UserContext.tsx:82-103 | With the intended handling, a 401 never shows a balance, and a new balance comes with the user's record |
| Credits.Label | frontend/src/components/ui/CreditsDisplay.tsx:34-36 | "Loading..." iff the credits are unknown, otherwise the remaining credits, then " / " |
| Credits.LabelReadsBack | frontend/src/components/ui/CreditsDisplay.tsx:34-36 | Two labels are equal exactly when their remaining credits and their totals are: the label determines both |
| Credits.ShownBalance | frontend/src/components/ui/CreditsDisplay.tsx:14-36 | After a fetch where both requests answer, the label shows the credits left against the period's total |
| Login.MatchesEmailIsPattern | frontend/src/pages/Login.tsx:129 | The direct email check agrees with the regular expression in both directions |
| Login.EmailError | frontend/src/pages/Login.tsx:127-131 | No error iff the email is non-empty and matches the pattern; the required message iff it is empty |
| Login.PasswordError | frontend/src/pages/Login.tsx:133-137 | No error iff the password has at least 8 UTF-16 code units; the required message iff it is empty |
| Login.NameError | frontend/src/pages/Login.tsx:139-145 | A name field is reported iff the form has it and it is empty |
| Login.ValidateForm | frontend/src/pages/Login.tsx:124-149 | The form is valid iff no field has an error, and each field's error is its own check |
| Login.ValidIff | frontend/src/pages/Login.tsx:124-149 | Valid iff the email matches, the password is long enough and no name field present is empty |
| Login.LoginFormNeverNames | frontend/src/pages/Login.tsx:181 | The sign-in form never reports name errors |
| Login.EightIsEnough | frontend/src/pages/Login.tsx:133-137 | Eight characters pass and seven do not |
| Login.PatternExamples | frontend/src/pages/Login.tsx:129 | The pattern ignores case and needs at least two top-level letters and a local part |
| Login.EditChangesOnlyItsField | frontend/src/pages/Login.tsx:151-153 | An edit leaves every other field as it was |
| Login.TypedThenLogin | frontend/src/pages/Login.tsx:341-361 | Typing an email and a password and signing in sends exactly what was typed, and does so iff both pass their checks and no name field present is empty |
| Login.HandleSignUp | frontend/src/pages/Login.tsx:363-368 | The four fields are sent iff the form is valid, and then both names are non-empty |
| Passwords.Draw | backend/utils/auth.py:31-37 | One character is drawn from each of the four sets in turn, then from the pool, up to `max(length, 4)` |
| Passwords.Shuffle | backend/utils/auth.py:39-41 | The shuffle keeps the length and the same characters |
| Passwords.GeneratePassword | backend/utils/auth.py:7-41 | The password has `max(length, 4)` characters, all from the pool, at least one from each set, and is a rearrangement of those drawn |
| Passwords.DefaultPassword | backend/utils/auth.py:7 | The default password has twelve characters |
| MessageList.AtMostOneSourceButton | frontend/src/components/chat/MessageList.tsx:211-215 | At most one message shows the sources button |
| MessageList.SourceButtonOnLastBot | frontend/src/components/chat/MessageList.tsx:211-215 | The button is only on the last message, and is there iff the callback exists and the text cites nothing |
| MessageList.ClearedHidesButtons | frontend/src/components/chat/MessageList.tsx:284 | Right after a clear, no clear button, sources button or bot header is shown |
| MessageList.AnswerGetsButton | frontend/src/components/chat/MessageList.tsx:133 | An answer without a citation after a question gets the header and the sources button |
| TypeWriter.TypedIsPrefix | frontend/src/components/ui/TypeWriter.tsx:20-43 | After n ticks from a reset, the first min(n, length) characters are shown |
| TypeWriter.Completes | frontend/src/components/ui/TypeWriter.tsx:20-32 | After as many ticks as the text is long, all of it is shown and every tick completes |
| TypeWriter.NoEarlyCompletion | frontend/src/components/ui/TypeWriter.tsx:20-32 | Completion is never reported before the whole text is shown |
| Dashboard.Private | frontend/src/components/dashboard/ChatbotsSection.tsx:48 | Holds exactly the chatbots whose access is not "public" |
| Dashboard.Public | frontend/src/components/dashboard/ChatbotsSection.tsx:49 | Holds exactly the chatbots whose access is "public" |
| Dashboard.Partition | frontend/src/components/dashboard/ChatbotsSection.tsx:48-49 | The two columns together hold each chatbot exactly as often as the list does |
| Dashboard.PrivateKeepsOrder | frontend/src/components/dashboard/ChatbotsSection.tsx:48 | The private filter keeps the list's order |
| Dashboard.PublicKeepsOrder | frontend/src/components/dashboard/ChatbotsSection.tsx:49 | The public filter keeps the list's order |
| Dashboard.PendingIsPrivate | frontend/src/components/dashboard/ChatbotsSection.tsx:48-49 | A chatbot waiting for public approval stays in the private column |
| Dashboard.OneCardEach | frontend/src/components/dashboard/ChatbotsSection.tsx:48-254 | Every chatbot has a card in the column its access decides |
| DocumentSelector.Label | frontend/src/components/chat/DocumentSelector.tsx:44-46 | "Available Documents" iff all documents are selected; otherwise the count selected, then " of " |
| DocumentSelector.LabelReadsBack | frontend/src/components/chat/DocumentSelector.tsx:44-46 | A partial selection's label gives back both counts |
| DocumentSelector.SelectAll | frontend/src/components/chat/DocumentSelector.tsx:87 | Selects every document's id, one per document in the documents' order, and nothing else |
| DocumentSelector.ClearAll | frontend/src/components/chat/DocumentSelector.tsx:94 | Selects nothing |
| DocumentSelector.FooterLabels | frontend/src/components/chat/DocumentSelector.tsx:44-94 | After "Select All" the label is "Available Documents"; after "Clear All" it counts none of n, unless there are no documents |
| MainSettings.PicksKeepIconFit | frontend/src/components/chatbot-settings/MainSettingsTab.tsx:58-79 | However many files are picked, no icon over 2 MiB is ever kept: the icon is the first one or one of the picks, and the title, description and errors never change |
| MainSettings.IconLimit | frontend/src/components/chatbot-settings/MainSettingsTab.tsx:61-70 | Exactly 2 MiB is accepted and one byte more is refused |
| MainSettings.Submit | frontend/src/components/chatbot-settings/MainSettingsTab.tsx:81-110 | The update is sent iff neither field is blank after trimming, with the fields as typed; otherwise only the errors change, one per blank field |
| MainSettings.StaleTitleError | frontend/src/components/chatbot-settings/MainSettingsTab.tsx:83-97 | A saved submit keeps an earlier title error shown |
| MainSettings.SentUntrimmed | frontend/src/components/chatbot-settings/MainSettingsTab.tsx:97 | Fields are checked trimmed but sent as typed |
| DocumentsTab.KeepSmall | frontend/src/components/chatbot-settings/DocumentsTab.tsx:57-69 | Keeps exactly the files of at most 10 MiB, never more files than were chosen |
| DocumentsTab.TooLarge | frontend/src/components/chatbot-settings/DocumentsTab.tsx:57-69 | Reports exactly the files over 10 MiB |
| DocumentsTab.KeepSmallAppend | frontend/src/components/chatbot-settings/DocumentsTab.tsx:57-69 | The kept files are in the order they were chosen |
| DocumentsTab.TooLargeAppend | frontend/src/components/chatbot-settings/DocumentsTab.tsx:57-69 | The files left out are reported in the order they were chosen |
| DocumentsTab.FilterPartitions | frontend/src/components/chatbot-settings/DocumentsTab.tsx:57-69 | Every chosen file is either kept or reported, as often as it was chosen |
| DocumentsTab.HandleFileChange | frontend/src/components/chatbot-settings/DocumentsTab.tsx:53-71 | Choosing nothing changes nothing; otherwise the selection becomes the small files chosen, in the order chosen, with one toast per file left out, in order |
| DocumentsTab.LargeChoiceEmptiesSelection | frontend/src/components/chatbot-settings/DocumentsTab.tsx:57-70 | A choice of only large files empties the earlier selection |
| DocumentsTab.UploadRetry | frontend/src/components/chatbot-settings/DocumentsTab.tsx:98-114 | A failed upload can be retried with the same files; a successful one leaves nothing to send |
| DocumentsTab.Find | frontend/src/components/chatbot-settings/DocumentsTab.tsx:131-134 | Finds a document with the id iff one exists, and then the first one |
| DocumentsTab.HandleDelete | frontend/src/components/chatbot-settings/DocumentsTab.tsx:120-174 | Ignored iff a truthy id is pending; otherwise nothing is pending afterwards, a missing token redirects to login, and an unknown document gives "Document not found" |
| DocumentsTab.EmptyIdDoesNotBlock | frontend/src/components/chatbot-settings/DocumentsTab.tsx:121 | A pending empty id does not block another delete, a non-empty one does |
| DocumentsTab.RemoveAt | frontend/src/components/chatbot-settings/DocumentsTab.tsx:239 | Removes the file at the index, and nothing when the index is out of range |
| DocumentsTab.RemoveAtOne | frontend/src/components/chatbot-settings/DocumentsTab.tsx:239 | Exactly one occurrence of the chosen file is removed |
| FileUploader.Warnings | frontend/src/components/create-chatbot/FileUploader.tsx:89-108 | No warning iff both limits hold; otherwise one line per limit exceeded, the file count first |
| FileUploader.RemovingExcessClears | frontend/src/components/create-chatbot/FileUploader.tsx:98-101 | Removing the number of files the message names clears the warning, and one fewer does not |
| FileUploader.NoCountWarningAfterAdding | frontend/src/components/create-chatbot/FileUploader.tsx:98-101 | A list grown by drops and picks never shows the count warning |
| FileUploader.PagesWarningThenRefused | frontend/src/components/create-chatbot/FileUploader.tsx:103-106 | With the pages warning shown the button stays enabled, and pressing it is refused for the pages |
| FileUploader.CardAfterCreate | frontend/src/components/create-chatbot/FileUploader.tsx:79-81 | After an unbroken create stream the card is locked; after an error status it takes input again; after a broken stream it does iff no chatbot id arrived |
| FileUploader.SizeMb | frontend/src/components/create-chatbot/FileUploader.tsx:188 | The size shown is the whole number of MiB rounded up, and 0 only for an empty file |
| FileUploader.SizeMbSteps | frontend/src/components/create-chatbot/FileUploader.tsx:188 | One byte over a whole number of MiB shows one more |

## Left out

- Byte decoding: chunks are the text `TextDecoder` produced. The chat page's final `decode()` flush is the `tail` parameter; the create page drops it.
- `JSON.parse`: a parameter. The end-to-end lemmas assume the two facts named above. That `JSON.parse` reads back what `json.dumps` wrote is this assumption (`AcceptsDumps`), not a proved result; `PyJson.DumpsParses` only instantiates it with no leading whitespace.
- `refreshCredits` on the chat page: each credit notice stands for the toast and the refresh call after it. What the refresh fetches and how `updateCredits` applies it is `Credits.UpdateCredits`, which is not composed with the chat page here.
- Network, database, generation model, pricing and clock: their results are parameters (`Answer`, `Generation`, `Bill`, the access table, the page counts).
- Configured limits (`MAX_NB_DOC_PER_CHATBOT` and `MAX_NB_PAGES_PER_CHATBOT`): they live in a configuration file that is not part of this model, so `Settings.AddDocuments` takes them as parameters.
- Randomness: `secrets.choice` and `random.shuffle` choose by indices given as parameters.
- Floating point: money is exact reals on the client and hundredths on the server. The rounding of `price * rate` and Python's exponent form of floats from 1e16 up are not modelled, and neither are the progress bar's percentage, the estimated durations or `NaN` amounts.
- Authentication plumbing: JWT tokens, bcrypt, OAuth and `localStorage`. Only whether a token is present matters here.
- Toasts, navigation, icons and previews: base64 encoding of icons, `FileReader` previews and layout. Toasts are kept as messages, and navigation as a flag or an effect naming where the page goes.
- React scheduling: effects, stale closures and batched state updates are not modelled. Each handler is a function of the state it reads.
- Timers: `TypeWriter` is modelled as ticks, and the interval and its speed are left out.
- Chakra's `CheckboxGroup` toggling of single documents, and the selector's open state: only the two footer buttons and the label are modelled.
- `refreshUserData`: its internals are not modelled; it appears as an effect.
- Presentation-only components (headers, layout, tips, terms, feedback) are not part of this model.
- Credits.FetchUserData: the order in which the two concurrent requests fail is the `userFailsFirst` parameter, not a model of scheduling.
- CreationScanner.Scan: its own contract states only that no `null` is accepted. What it accepts and keeps is stated by `ScanRest`, `ScanPrefix` and `ScanPieces`.
- Sse.ReadNotice: its contract states only that a notice needs a data line. What it reads from a server event is stated by `FrameNotice` and `NoticeOfFrame`.
- Passwords.Shuffle: stated as a permutation with the same length. Which permutation results from the swaps is not stated.

## Findings

| source | as written | input that shows it | evidently intended | confidence | as-written member | corrected member |
|---|---|---|---|---|---|---|
| frontend/src/components/auth/UserContext.tsx:95-114 | The 401 handler of each request clears the user and the credits, then returns empty data. The credits handler returns a `null` price, which still counts as present, and `null * 1000` is 0. So the balance is computed after all. | The user request succeeds with 2.5 dollars and the credits request fails with 401: the user stays signed in with 2500 credits. If instead the user request fails with 401 and the credits reply is positive, the total is 0 and the balance is negative. | A 401 on either request ends with no user and no credits | not executed | Credits.FetchUserData, Credits.CreditsUnauthorizedShowsFullBalance | Credits.FetchUserDataIntended, Credits.IntendedBalanceNeedsUser |

=== FILE: access.dfy ===
/**
 * Who may call a chatbot endpoint (`check_user_access` in
 * backend/config/config.py), and the settings endpoints that change a
 * chatbot (backend/routers/chatbot_settings.py). The access table of a user
 * maps chatbot ids to a role name; it is read from the database, so it is a
 * parameter here, and so are the configured limits.
 */
module Access {
  import opened Wrappers

  datatype HttpError = HttpError(status: nat, detail: string)

  const NoAccess := HttpError(403, "You don't have access to this chatbot")
  const NotAdmin := HttpError(403, "You don't have admin access to this chatbot")
  const AdminRole := "Admin"

  /** `check_user_access`: `None` when it returns, the exception it raises otherwise. */
  function CheckUserAccess(accesses: map<string, string>, chatbotId: string, checkAdmin: bool): (r: Option<HttpError>)
    ensures chatbotId !in accesses ==> r == Some(NoAccess)
    ensures chatbotId in accesses && checkAdmin && accesses[chatbotId] != AdminRole ==> r == Some(NotAdmin)
    ensures r.None? <==> chatbotId in accesses && (!checkAdmin || accesses[chatbotId] == AdminRole)
  {
    if chatbotId !in accesses then Some(NoAccess)
    else if checkAdmin && accesses[chatbotId] != AdminRole then Some(NotAdmin)
    else None
  }

  /** An endpoint body run only once the access check has passed: what it produces, or the check's error. */
  function Guarded<T>(accesses: map<string, string>, chatbotId: string, checkAdmin: bool, work: T): (r: Result<T, HttpError>)
    ensures r.Success? <==> CheckUserAccess(accesses, chatbotId, checkAdmin).None?
    ensures r.Success? ==> r.value == work
    ensures r.Failure? ==> r.error == CheckUserAccess(accesses, chatbotId, checkAdmin).value
  {
    match CheckUserAccess(accesses, chatbotId, checkAdmin)
    case Some(e) => Failure(e)
    case None => Success(work)
  }

  /** Admins pass every check; a user who passes the admin check passes the plain one. */
  lemma AdminPassesAll(accesses: map<string, string>, chatbotId: string)
    ensures CheckUserAccess(accesses, chatbotId, true).None?
            <==> chatbotId in accesses && accesses[chatbotId] == AdminRole
    ensures CheckUserAccess(accesses, chatbotId, true).None? ==> CheckUserAccess(accesses, chatbotId, false).None?
  {
  }

  /** The access check comes first: without an entry the error is the access error, whatever is asked. */
  lemma MissingEntryFirst<T>(accesses: map<string, string>, chatbotId: string, checkAdmin: bool, work: T)
    requires chatbotId !in accesses
    ensures Guarded(accesses, chatbotId, checkAdmin, work) == Failure(NoAccess)
  {
  }

  /** Any role with an entry passes the plain check, and the work is what the endpoint returns. */
  lemma AnyRolePasses<T>(accesses: map<string, string>, chatbotId: string, work: T)
    requires chatbotId in accesses
    ensures Guarded(accesses, chatbotId, false, work) == Success(work)
  {
  }
}

/**
 * The settings endpoints of backend/routers/chatbot_settings.py that
 * decide something: adding documents under the configured limits, and the
 * request to share a chatbot publicly. All of them require the admin role.
 */
module Settings {
  import opened Wrappers
  import opened Access

  const TooManyDocuments := HttpError(400, "You have reached the maximum number of documents per chatbot")
  const TooManyPagesPerChatbot := HttpError(400, "You have reached the maximum number of pages per chatbot")
  const PendingPublic := "pending_public_request"

  /** A document of a chatbot, with the page count read from its PDF. */
  datatype StoredDocument = StoredDocument(filename: string, pages: nat)

  function TotalPages(docs: seq<StoredDocument>): nat
    decreases |docs|
  {
    if |docs| == 0 then 0 else TotalPages(docs[..|docs| - 1]) + docs[|docs| - 1].pages
  }

  lemma {:induction false} TotalPagesAppend(a: seq<StoredDocument>, b: seq<StoredDocument>)
    ensures TotalPages(a + b) == TotalPages(a) + TotalPages(b)
    decreases |b|
  {
    if |b| == 0 {
      assert a + b == a;
    } else {
      assert (a + b)[..|a + b| - 1] == a + b[..|b| - 1];
      TotalPagesAppend(a, b[..|b| - 1]);
    }
  }

  /**
   * `add_documents`, after the admin check: the count limit is checked
   * before any file is read, then the page total of the existing and new
   * documents; either every new document is added, in upload order, or
   * none is. Both limits allow a total equal to the limit.
   */
  method AddDocuments(accesses: map<string, string>, chatbotId: string, existing: seq<StoredDocument>,
                      uploads: seq<StoredDocument>, maxDocs: nat, maxPages: nat)
    returns (r: Result<seq<StoredDocument>, HttpError>)
    ensures CheckUserAccess(accesses, chatbotId, true).Some? ==> r == Failure(CheckUserAccess(accesses, chatbotId, true).value)
    ensures CheckUserAccess(accesses, chatbotId, true).None? && |existing| + |uploads| > maxDocs ==> r == Failure(TooManyDocuments)
    ensures CheckUserAccess(accesses, chatbotId, true).None? && |existing| + |uploads| <= maxDocs
            ==> r == (if TotalPages(existing) + TotalPages(uploads) > maxPages then Failure(TooManyPagesPerChatbot)
                      else Success(existing + uploads))
    ensures CheckUserAccess(accesses, chatbotId, true).None? ==> r == AddOutcome(existing, uploads, maxDocs, maxPages)
  {
    var denied := CheckUserAccess(accesses, chatbotId, true);
    if denied.Some? {
      return Failure(denied.value);
    }
    if |uploads| + |existing| > maxDocs {
      return Failure(TooManyDocuments);
    }
    var total := TotalPages(existing);
    var added: seq<StoredDocument> := [];
    var i := 0;
    while i < |uploads|
      invariant 0 <= i <= |uploads|
      invariant added == uploads[..i]
      invariant total == TotalPages(existing) + TotalPages(uploads[..i])
    {
      assert uploads[..i + 1][..i] == uploads[..i];
      added := added + [uploads[i]];
      total := total + uploads[i].pages;
      i := i + 1;
    }
    assert uploads[..|uploads|] == uploads;
    TotalPagesAppend(existing, uploads);
    if total > maxPages {
      return Failure(TooManyPagesPerChatbot);
    }
    r := Success(existing + added);
  }

  /** The outcome of `add_documents` as a function of the counts and totals alone. */
  function AddOutcome(existing: seq<StoredDocument>, uploads: seq<StoredDocument>, maxDocs: nat, maxPages: nat): Result<seq<StoredDocument>, HttpError> {
    if |existing| + |uploads| > maxDocs then Failure(TooManyDocuments)
    else if TotalPages(existing + uploads) > maxPages then Failure(TooManyPagesPerChatbot)
    else Success(existing + uploads)
  }

  /** All or nothing: the chatbot ends with all its documents and all the new ones, or the request fails and the list is as it was. */
  lemma AddAllOrNothing(existing: seq<StoredDocument>, uploads: seq<StoredDocument>, maxDocs: nat, maxPages: nat)
    ensures var r := AddOutcome(existing, uploads, maxDocs, maxPages);
            r.Success? <==> |existing| + |uploads| <= maxDocs && TotalPages(existing) + TotalPages(uploads) <= maxPages
    ensures var r := AddOutcome(existing, uploads, maxDocs, maxPages);
            r.Success? ==> |r.value| == |existing| + |uploads| && r.value[..|existing|] == existing && r.value[|existing|..] == uploads
  {
    TotalPagesAppend(existing, uploads);
    var all := existing + uploads;
    assert all[..|existing|] == existing;
    assert all[|existing|..] == uploads;
  }

  /** A request that reaches exactly the limits is accepted. */
  lemma LimitsAreInclusive(existing: seq<StoredDocument>, uploads: seq<StoredDocument>, maxPages: nat)
    requires TotalPages(existing) + TotalPages(uploads) == maxPages
    ensures AddOutcome(existing, uploads, |existing| + |uploads|, maxPages) == Success(existing + uploads)
  {
    TotalPagesAppend(existing, uploads);
  }

  /** `request_public`: the chatbot's access becomes pending; other chatbots keep theirs. */
  function RequestPublic(accesses: map<string, string>, chatbotId: string, chatbots: map<string, string>): (r: Result<map<string, string>, HttpError>)
    ensures r.Success? <==> chatbotId in accesses && accesses[chatbotId] == AdminRole
    ensures r.Success? ==> r.value.Keys == chatbots.Keys && forall c :: c in chatbots && c != chatbotId ==> r.value[c] == chatbots[c]
    ensures r.Success? && chatbotId in chatbots ==> r.value[chatbotId] == PendingPublic
  {
    var updated := if chatbotId in chatbots then chatbots[chatbotId := PendingPublic] else chatbots;
    Guarded(accesses, chatbotId, true, updated)
  }
}

=== FILE: ask_client.dfy ===
/**
 * The chat page (frontend/src/pages/Chat.tsx): how it reads the answer
 * stream chunk by chunk, how it gates a question on a conversation id, and
 * the submit, prompt-click and clear actions around it. Chunks are the text
 * `TextDecoder` produced; the decoder's final flush is the `tail` parameter.
 */
module AskClient {
  import opened Wrappers
  import opened Strings
  import opened Json
  import opened Sse

  datatype Message = Message(text: string, isUser: bool)

  /**
   * The answer being read: its text so far, whether typing started, the
   * loading flag, the messages, and the credit notices. Each notice is one
   * credits toast showing `consumed_credits` (`None` is `undefined`) followed
   * by one awaited `refreshCredits` call, which catches its own failures.
   */
  datatype Reply = Reply(bot: string, started: bool, loading: bool, messages: seq<Message>, notices: seq<Option<Json>>)

  /** The state `processStreamResponse` starts from, after `sendMessage` set the loading flag. */
  function Initial(messages: seq<Message>): Reply {
    Reply("", false, true, messages, [])
  }

  /**
   * The bot message after an appended chunk: the last message is
   * overwritten when it is a bot message, otherwise a bot message is pushed.
   */
  function ShowBot(messages: seq<Message>, text: string): (r: seq<Message>)
    ensures 0 < |r| && |messages| <= |r| <= |messages| + 1
    ensures r[|r| - 1] == Message(text, false)
    ensures r[..|r| - 1] == messages[..|r| - 1]
    ensures |r| == |messages| + 1 <==> |messages| == 0 || messages[|messages| - 1].isUser
    ensures |r| == |messages| <==> !(|messages| == 0 || messages[|messages| - 1].isUser)
  {
    if 0 < |messages| && !messages[|messages| - 1].isUser then messages[..|messages| - 1] + [Message(text, false)]
    else messages + [Message(text, false)]
  }

  /** The final flush only overwrites a bot message; it never pushes one. */
  function OverwriteBot(messages: seq<Message>, text: string): (r: seq<Message>)
    ensures |r| == |messages|
    ensures 0 < |messages| ==> r[..|r| - 1] == messages[..|r| - 1]
    ensures 0 < |messages| && !messages[|messages| - 1].isUser ==> r[|r| - 1] == Message(text, false)
    ensures |messages| == 0 || messages[|messages| - 1].isUser ==> r == messages
  {
    if 0 < |messages| && !messages[|messages| - 1].isUser then messages[..|messages| - 1] + [Message(text, false)]
    else messages
  }

  /**
   * One chunk read. A chunk holding `event: credits` is never appended; it
   * adds a notice, a toast and then a credit refresh, when its data line
   * parses to something other than `null`. Any other chunk is appended to the answer; the first one clears
   * the loading flag.
   */
  function Receive(parse: Parser, st: Reply, chunk: string): (r: Reply)
    ensures Contains(chunk, CreditsEvent) ==> r == st.(notices := r.notices)
    ensures Contains(chunk, CreditsEvent) ==> r.notices == st.notices + (if ReadNotice(parse, chunk).Some? then [ReadNotice(parse, chunk).value] else [])
    ensures !Contains(chunk, CreditsEvent) ==> r.bot == st.bot + chunk && r.started && r.notices == st.notices
    ensures !Contains(chunk, CreditsEvent) ==> r.loading == (st.started && st.loading)
  {
    if Contains(chunk, CreditsEvent) then
      match ReadNotice(parse, chunk)
      case Some(credits) => st.(notices := st.notices + [credits])
      case None => st
    else
      var bot := st.bot + chunk;
      st.(bot := bot, started := true, loading := st.started && st.loading, messages := ShowBot(st.messages, bot))
  }

  function ReceiveAll(parse: Parser, st: Reply, chunks: seq<string>): Reply
    decreases |chunks|
  {
    if |chunks| == 0 then st else ReceiveAll(parse, Receive(parse, st, chunks[0]), chunks[1..])
  }

  /** After `done`: a non-empty flush starting with `event: credits` is read as a notice; otherwise it is appended. */
  function Finish(parse: Parser, st: Reply, tail: string): (r: Reply)
    ensures tail == "" ==> r == st
    ensures r.started == st.started && r.loading == st.loading
  {
    if tail == "" then st
    else if StartsWith(tail, CreditsEvent) then
      match ReadNotice(parse, tail)
      case Some(credits) => st.(notices := st.notices + [credits])
      case None => st
    else
      var bot := st.bot + tail;
      st.(bot := bot, messages := OverwriteBot(st.messages, bot))
  }

  /** `processStreamResponse` over a body read to its end. */
  function Respond(parse: Parser, messages: seq<Message>, chunks: seq<string>, tail: string): Reply {
    Finish(parse, ReceiveAll(parse, Initial(messages), chunks), tail)
  }

  /** The chunks appended to the answer: those without the credit marker, in order. */
  function Spoken(chunks: seq<string>): string
    decreases |chunks|
  {
    if |chunks| == 0 then ""
    else (if Contains(chunks[0], CreditsEvent) then "" else chunks[0]) + Spoken(chunks[1..])
  }

  /** The credit toasts of a run of chunks: one per marker chunk whose data line reads. */
  function NoticesOf(parse: Parser, chunks: seq<string>): seq<Option<Json>>
    decreases |chunks|
  {
    if |chunks| == 0 then []
    else
      (if Contains(chunks[0], CreditsEvent) && ReadNotice(parse, chunks[0]).Some? then [ReadNotice(parse, chunks[0]).value] else [])
      + NoticesOf(parse, chunks[1..])
  }

  /** Some chunk is appended. */
  predicate AnySpoken(chunks: seq<string>) {
    exists k :: 0 <= k < |chunks| && !Contains(chunks[k], CreditsEvent)
  }

  /** What the page shows for the answer so far, relative to the messages before it: nothing until typing starts, then one bot message. */
  predicate Shows(st: Reply, before: seq<Message>) {
    && st.loading == !st.started
    && (if st.started then st.messages == ShowBot(before, st.bot) else st.messages == before)
  }

  /** Showing the answer twice is showing the later text once. */
  lemma ShowBotTwice(messages: seq<Message>, a: string, b: string)
    ensures ShowBot(ShowBot(messages, a), b) == ShowBot(messages, b)
  {
    var m := ShowBot(messages, a);
    assert m[..|m| - 1] + [Message(b, false)] == ShowBot(messages, b);
  }

  /** Reading any run of chunks: the answer grows by the chunks without the marker, in order. */
  lemma {:induction false} ReceiveAllText(parse: Parser, st: Reply, chunks: seq<string>)
    ensures ReceiveAll(parse, st, chunks).bot == st.bot + Spoken(chunks)
    decreases |chunks|
  {
    if |chunks| == 0 {
      assert st.bot + "" == st.bot;
    } else {
      var next := Receive(parse, st, chunks[0]);
      ReceiveAllText(parse, next, chunks[1..]);
      TextStep(parse, st, chunks);
    }
  }

  /** The toasts grow by one per marker chunk whose data line reads. */
  lemma {:induction false} ReceiveAllNotices(parse: Parser, st: Reply, chunks: seq<string>)
    ensures ReceiveAll(parse, st, chunks).notices == st.notices + NoticesOf(parse, chunks)
    decreases |chunks|
  {
    if |chunks| == 0 {
      assert st.notices + [] == st.notices;
    } else {
      ReceiveAllNotices(parse, Receive(parse, st, chunks[0]), chunks[1..]);
      NoticeStep(parse, st, chunks);
    }
  }

  lemma TextStep(parse: Parser, st: Reply, chunks: seq<string>)
    requires 0 < |chunks|
    requires ReceiveAll(parse, Receive(parse, st, chunks[0]), chunks[1..]).bot == Receive(parse, st, chunks[0]).bot + Spoken(chunks[1..])
    ensures ReceiveAll(parse, st, chunks).bot == st.bot + Spoken(chunks)
  {
    var c := chunks[0];
    var next := Receive(parse, st, c);
    assert ReceiveAll(parse, st, chunks) == ReceiveAll(parse, next, chunks[1..]);
    if Contains(c, CreditsEvent) {
      assert next.bot == st.bot;
      assert Spoken(chunks) == Spoken(chunks[1..]);
    } else {
      assert next.bot == st.bot + c;
      assert Spoken(chunks) == c + Spoken(chunks[1..]);
      AppendAssoc(st.bot, c, Spoken(chunks[1..]));
    }
  }

  lemma NoticeStep(parse: Parser, st: Reply, chunks: seq<string>)
    requires 0 < |chunks|
    requires ReceiveAll(parse, Receive(parse, st, chunks[0]), chunks[1..]).notices
             == Receive(parse, st, chunks[0]).notices + NoticesOf(parse, chunks[1..])
    ensures ReceiveAll(parse, st, chunks).notices == st.notices + NoticesOf(parse, chunks)
  {
    var c := chunks[0];
    var next := Receive(parse, st, c);
    assert ReceiveAll(parse, st, chunks) == ReceiveAll(parse, next, chunks[1..]);
    var one := if Contains(c, CreditsEvent) && ReadNotice(parse, c).Some? then [ReadNotice(parse, c).value] else [];
    ReceiveNoticeStep(parse, st, c);
    assert NoticesOf(parse, chunks) == one + NoticesOf(parse, chunks[1..]);
    AppendAssoc(st.notices, one, NoticesOf(parse, chunks[1..]));
  }

  /** One read in terms of the reference definitions. */
  lemma ReceiveBotStep(parse: Parser, st: Reply, c: string)
    ensures Receive(parse, st, c).bot == st.bot + (if Contains(c, CreditsEvent) then "" else c)
  {
  }

  lemma ReceiveNoticeStep(parse: Parser, st: Reply, c: string)
    ensures Receive(parse, st, c).notices
            == st.notices + (if Contains(c, CreditsEvent) && ReadNotice(parse, c).Some? then [ReadNotice(parse, c).value] else [])
  {
    if !Contains(c, CreditsEvent) {
      assert st.notices + [] == st.notices;
    }
  }

  /** Typing has started iff some chunk was appended, and the page shows at most one bot message for the answer. */
  lemma {:induction false} ReceiveAllShows(parse: Parser, st: Reply, chunks: seq<string>, before: seq<Message>)
    requires Shows(st, before)
    ensures (ReceiveAll(parse, st, chunks).started <==> st.started || AnySpoken(chunks))
    ensures Shows(ReceiveAll(parse, st, chunks), before)
    decreases |chunks|
  {
    if |chunks| != 0 {
      var c := chunks[0];
      var next := Receive(parse, st, c);
      if !Contains(c, CreditsEvent) && st.started {
        ShowBotTwice(before, st.bot, next.bot);
      }
      ReceiveAllShows(parse, next, chunks[1..], before);
      AnySpokenCons(chunks);
    }
  }

  lemma AnySpokenCons(chunks: seq<string>)
    requires 0 < |chunks|
    ensures AnySpoken(chunks) <==> !Contains(chunks[0], CreditsEvent) || AnySpoken(chunks[1..])
  {
    if AnySpoken(chunks[1..]) {
      var k :| 0 <= k < |chunks[1..]| && !Contains(chunks[1..][k], CreditsEvent);
      assert chunks[k + 1] == chunks[1..][k];
    }
    if AnySpoken(chunks) && Contains(chunks[0], CreditsEvent) {
      var k :| 0 <= k < |chunks| && !Contains(chunks[k], CreditsEvent);
      assert k != 0 && chunks[1..][k - 1] == chunks[k];
    }
  }

  /**
   * A whole answer read to its end: the answer is every chunk without the
   * marker plus the flush unless it starts with the marker; the loading
   * flag is cleared exactly when some chunk was appended; at most one bot
   * message is added, after the messages there were.
   */
  lemma RespondFacts(parse: Parser, messages: seq<Message>, chunks: seq<string>, tail: string)
    ensures var r := Respond(parse, messages, chunks, tail);
            && r.bot == Spoken(chunks) + (if tail == "" || StartsWith(tail, CreditsEvent) then "" else tail)
            && (r.started <==> AnySpoken(chunks))
            && r.loading == !r.started
            && |messages| <= |r.messages| <= |messages| + 1
            && (0 < |messages| ==> r.messages[..|messages| - 1] == messages[..|messages| - 1])
  {
    ReceiveAllText(parse, Initial(messages), chunks);
    ReceiveAllShows(parse, Initial(messages), chunks, messages);
    var mid := ReceiveAll(parse, Initial(messages), chunks);
    assert "" + Spoken(chunks) == Spoken(chunks);
    if mid.started && 0 < |messages| {
      var shown := ShowBot(messages, mid.bot);
      assert shown[..|messages| - 1] == messages[..|messages| - 1];
    }
  }

  /** After a question, what the answer does to the page keeps the question and everything before it. */
  lemma AnswerAfterQuestion(parse: Parser, m: seq<Message>, chunks: seq<string>, tail: string)
    requires 0 < |m| && m[|m| - 1].isUser
    ensures var r := ReceiveAll(parse, Initial(m), chunks);
            |m| <= |r.messages| <= |m| + 1 && r.messages[..|m|] == m
    ensures var r := Respond(parse, m, chunks, tail);
            |m| <= |r.messages| <= |m| + 1 && r.messages[..|m|] == m
  {
    ReceiveAllShows(parse, Initial(m), chunks, m);
    var mid := ReceiveAll(parse, Initial(m), chunks);
    if mid.started {
      var shown := ShowBot(m, mid.bot);
      assert shown[..|m|] == m;
      var full := Respond(parse, m, chunks, tail);
      assert full.messages == shown || full.messages == OverwriteBot(shown, full.bot);
      assert OverwriteBot(shown, full.bot)[..|m|] == m;
    }
  }

  /** Chunks that do not hold the marker are all appended. */
  lemma {:induction false} SpokenPlain(chunks: seq<string>)
    requires forall k :: 0 <= k < |chunks| ==> !Contains(chunks[k], CreditsEvent)
    ensures Spoken(chunks) == Concat(chunks)
    decreases |chunks|
  {
    if |chunks| != 0 {
      SpokenPlain(chunks[1..]);
    }
  }

  lemma {:induction false} SpokenAppend(a: seq<string>, b: seq<string>)
    ensures Spoken(a + b) == Spoken(a) + Spoken(b)
    decreases |a|
  {
    if |a| == 0 {
      assert a + b == b;
    } else {
      assert (a + b)[0] == a[0];
      assert (a + b)[1..] == a[1..] + b;
      SpokenAppend(a[1..], b);
    }
  }

  lemma {:induction false} NoticesAppend(parse: Parser, a: seq<string>, b: seq<string>)
    ensures NoticesOf(parse, a + b) == NoticesOf(parse, a) + NoticesOf(parse, b)
    decreases |a|
  {
    if |a| == 0 {
      assert a + b == b;
    } else {
      var head := if Contains(a[0], CreditsEvent) && ReadNotice(parse, a[0]).Some? then [ReadNotice(parse, a[0]).value] else [];
      assert (a + b)[0] == a[0];
      assert (a + b)[1..] == a[1..] + b;
      NoticesAppend(parse, a[1..], b);
      assert NoticesOf(parse, a + b) == head + (NoticesOf(parse, a[1..]) + NoticesOf(parse, b));
      AppendAssoc(head, NoticesOf(parse, a[1..]), NoticesOf(parse, b));
    }
  }

  const PremiumModel := "gemini-1.5-pro-002"
  const StandardModel := "gemini-2.0-flash-001"
  const ConversationFailed := "Failed to create conversation"
  const AnswerFailed := "Failed to get response from chatbot"
  const NoCreditsToSend := "You do not have enough credits to send messages. Please wait for your credits to refresh."

  /** The chat page's own state. */
  datatype Chat = Chat(
    messages: seq<Message>,
    input: string,
    conversationId: Option<string>,
    loading: bool,
    showPrompts: bool,
    notices: seq<Option<Json>>,
    errors: seq<string>)

  /** What `create_conversation` gave back: a failed request, or the id in the reply. */
  datatype NewConversation = CreateRequestFailed | NewId(id: string)

  /** What `fetch` gave back for the question: an error status, or a body read to its end or broken off. */
  datatype AskResponse = AskNotOk | AskStreamed(chunks: seq<string>, tail: string, broken: bool)

  /** The form posted to `ask_chatbot`. */
  datatype AskRequest = AskRequest(message: string, model: string, conversationId: string)

  /** What `sendMessage` checks before anything else: the token in storage and the chatbot id of the route. */
  datatype Session = Session(token: Option<string>, chatbotId: Option<string>)

  /** The page after a send, the request made if any, and whether the page navigated home instead. */
  datatype Sending = Sending(chat: Chat, request: Option<AskRequest>, navigatedHome: bool)

  function ModelFor(premium: bool): (m: string)
    ensures m == PremiumModel <==> premium
  {
    if premium then PremiumModel else StandardModel
  }

  /** JavaScript truthiness of an optional string: present and not empty. Conversation ids, tokens and route ids are tested this way. */
  predicate TruthyText(id: Option<string>) {
    id.Some? && id.value != ""
  }

  /** A send goes ahead only with a truthy token and a truthy chatbot id. */
  predicate SignedIn(session: Session) {
    TruthyText(session.token) && TruthyText(session.chatbotId)
  }

  /** The id a question is sent under: the page's own when it is truthy, otherwise the one just created. */
  function SentId(c: Chat, created: NewConversation): string
    requires TruthyText(c.conversationId) || (created.NewId? && created.id != "")
  {
    if TruthyText(c.conversationId) then c.conversationId.value else created.id
  }

  /**
   * `sendMessage`: without a token or a chatbot id the page navigates home
   * and returns before its `try`, so nothing else changes, the loading flag
   * included. Otherwise, without a truthy conversation id one is created
   * first; a failed creation or an empty id sends nothing. From the `try`
   * on, the loading flag ends cleared.
   */
  function SendMessage(parse: Parser, c: Chat, session: Session, message: string, premium: bool, created: NewConversation, response: AskResponse): (r: Sending)
    ensures !SignedIn(session) ==> r == Sending(c, None, true)
    ensures r.navigatedHome <==> !SignedIn(session)
    ensures SignedIn(session) ==> !r.chat.loading
    ensures SignedIn(session) && TruthyText(c.conversationId) ==>
              r.request == Some(AskRequest(message, ModelFor(premium), c.conversationId.value)) && r.chat.conversationId == c.conversationId
    ensures SignedIn(session) && !TruthyText(c.conversationId) && created.CreateRequestFailed? ==>
              r.request.None? && r.chat.conversationId == c.conversationId && r.chat.errors == c.errors + [ConversationFailed]
    ensures SignedIn(session) && !TruthyText(c.conversationId) && created.NewId? ==>
              r.chat.conversationId == Some(created.id) && (r.request.Some? <==> created.id != "")
    ensures r.request.Some? ==>
              r.request.value.message == message && r.request.value.model == ModelFor(premium)
              && Some(r.request.value.conversationId) == r.chat.conversationId
    ensures r.chat.input == c.input && r.chat.showPrompts == c.showPrompts
    ensures SignedIn(session) && (TruthyText(c.conversationId) || (created.NewId? && created.id != "")) && response.AskStreamed? ==>
              var reply := ReadAnswer(parse, c.messages, response.chunks, response.tail, response.broken);
              && r.request == Some(AskRequest(message, ModelFor(premium), SentId(c, created)))
              && r.chat.messages == reply.messages && r.chat.notices == c.notices + reply.notices
              && r.chat.errors == (if response.broken then c.errors + [AnswerFailed] else c.errors)
    ensures SignedIn(session) && (TruthyText(c.conversationId) || (created.NewId? && created.id != "")) && response.AskNotOk? ==>
              r.request == Some(AskRequest(message, ModelFor(premium), SentId(c, created)))
              && r.chat.messages == c.messages && r.chat.errors == c.errors + [AnswerFailed]
  {
    if !SignedIn(session) then Sending(c, None, true)
    else
    var model := ModelFor(premium);
    var ready: Option<Chat> :=
      if TruthyText(c.conversationId) then Some(c)
      else match created
        case CreateRequestFailed => None
        case NewId(id) => Some(c.(conversationId := Some(id)));
    if ready.None? then Sending(c.(loading := false, errors := c.errors + [ConversationFailed]), None, false)
    else if !TruthyText(ready.value.conversationId) then Sending(ready.value.(loading := false), None, false)
    else
      var ch := ready.value;
      var request := AskRequest(message, model, ch.conversationId.value);
      match response
      case AskNotOk => Sending(ch.(loading := false, errors := ch.errors + [AnswerFailed]), Some(request), false)
      case AskStreamed(chunks, tail, broken) =>
        var reply := ReadAnswer(parse, ch.messages, chunks, tail, broken);
        var after := ch.(messages := reply.messages, notices := ch.notices + reply.notices, loading := false);
        Sending(if broken then after.(errors := after.errors + [AnswerFailed]) else after, Some(request), false)
  }

  /** A conversation id, once set, is used for every later question until the conversation is cleared. */
  lemma IdReused(parse: Parser, c: Chat, session: Session, m1: string, m2: string, premium: bool, created1: NewConversation, created2: NewConversation,
                 r1: AskResponse, r2: AskResponse)
    requires TruthyText(c.conversationId)
    ensures var first := SendMessage(parse, c, session, m1, premium, created1, r1);
            var second := SendMessage(parse, first.chat, session, m2, premium, created2, r2);
            SignedIn(session) ==> first.request.value.conversationId == second.request.value.conversationId == c.conversationId.value
  {
  }

  /**
   * `handleSubmit`: a blank input does nothing; without credits an error
   * toast is shown; otherwise the input becomes a user message, the input
   * and the prompts are cleared, and the question is sent.
   */
  function HandleSubmit(parse: Parser, c: Chat, session: Session, remaining: Option<int>, premium: bool, created: NewConversation, response: AskResponse): (r: Sending)
    ensures IsBlank(c.input) ==> r == Sending(c, None, false)
    ensures !IsBlank(c.input) && (remaining.None? || remaining.value <= 0) ==> r == Sending(c.(errors := c.errors + [NoCreditsToSend]), None, false)
    ensures r.request.Some? ==> !IsBlank(c.input) && remaining.Some? && 0 < remaining.value && r.request.value.message == c.input
    ensures r.request.Some? ==> r.chat.input == "" && !r.chat.showPrompts
    ensures !IsBlank(c.input) && remaining.Some? && 0 < remaining.value && !SignedIn(session) ==>
              r == Sending(c.(showPrompts := false, input := "", messages := c.messages + [Message(c.input, true)], loading := false), None, true)
    ensures !IsBlank(c.input) && remaining.Some? && 0 < remaining.value && SignedIn(session) && (TruthyText(c.conversationId) || (created.NewId? && created.id != ""))
            && response.AskStreamed? ==>
              var reply := ReadAnswer(parse, c.messages + [Message(c.input, true)], response.chunks, response.tail, response.broken);
              && r.request == Some(AskRequest(c.input, ModelFor(premium), SentId(c, created)))
              && r.chat.messages == reply.messages && r.chat.notices == c.notices + reply.notices && !r.chat.loading
  {
    if IsBlank(c.input) then Sending(c, None, false)
    else Ask(parse, c, session, c.input, remaining, premium, created, response)
  }

  /** `handlePromptClick`: the same as a submit of the prompt, without the blank check. */
  function HandlePromptClick(parse: Parser, c: Chat, session: Session, prompt: string, remaining: Option<int>, premium: bool, created: NewConversation, response: AskResponse): (r: Sending)
    ensures remaining.None? || remaining.value <= 0 ==> r == Sending(c.(errors := c.errors + [NoCreditsToSend]), None, false)
    ensures r.request.Some? ==> r.request.value.message == prompt && r.chat.input == "" && !r.chat.showPrompts
    ensures remaining.Some? && 0 < remaining.value ==> !r.chat.loading && (r.navigatedHome <==> !SignedIn(session))
  {
    Ask(parse, c, session, prompt, remaining, premium, created, response)
  }

  function Ask(parse: Parser, c: Chat, session: Session, text: string, remaining: Option<int>, premium: bool, created: NewConversation, response: AskResponse): (r: Sending)
    ensures remaining.None? || remaining.value <= 0 ==> r == Sending(c.(errors := c.errors + [NoCreditsToSend]), None, false)
    ensures remaining.Some? && 0 < remaining.value ==> r.chat.input == "" && !r.chat.showPrompts && |c.messages| + 1 <= |r.chat.messages|
    ensures remaining.Some? && 0 < remaining.value ==> !r.chat.loading && (r.navigatedHome <==> !SignedIn(session))
    ensures remaining.Some? && 0 < remaining.value && !SignedIn(session) ==>
              r.request.None? && r.chat == c.(showPrompts := false, input := "", messages := c.messages + [Message(text, true)], loading := false)
    ensures remaining.Some? && 0 < remaining.value ==> r.chat.messages[|c.messages|] == Message(text, true) && r.chat.messages[..|c.messages|] == c.messages
    ensures r.request.Some? ==> r.request.value.message == text
    ensures remaining.Some? && 0 < remaining.value && SignedIn(session) && (TruthyText(c.conversationId) || (created.NewId? && created.id != "")) && response.AskStreamed? ==>
              var reply := ReadAnswer(parse, c.messages + [Message(text, true)], response.chunks, response.tail, response.broken);
              && r.request == Some(AskRequest(text, ModelFor(premium), SentId(c, created)))
              && r.chat.messages == reply.messages && r.chat.notices == c.notices + reply.notices
  {
    if remaining.None? || remaining.value <= 0 then Sending(c.(errors := c.errors + [NoCreditsToSend]), None, false)
    else
      var asked := c.(showPrompts := false, input := "", messages := c.messages + [Message(text, true)], loading := true);
      var r := SendMessage(parse, asked, session, text, premium, created, response);
      AnswerKeepsQuestion(parse, asked, session, text, premium, created, response);
      // the handler's own `finally` clears the flag, also after the early return
      r.(chat := r.chat.(loading := false))
  }

  /** The answer read from a body that ends normally, or breaks off before `done` without the final flush. */
  function ReadAnswer(parse: Parser, messages: seq<Message>, chunks: seq<string>, tail: string, broken: bool): Reply {
    if broken then ReceiveAll(parse, Initial(messages), chunks) else Respond(parse, messages, chunks, tail)
  }

  /** Sending keeps every message already shown, the question included, and adds at most the answer. */
  lemma AnswerKeepsQuestion(parse: Parser, c: Chat, session: Session, text: string, premium: bool, created: NewConversation, response: AskResponse)
    requires 0 < |c.messages| && c.messages[|c.messages| - 1].isUser
    ensures var r := SendMessage(parse, c, session, text, premium, created, response).chat;
            |c.messages| <= |r.messages| <= |c.messages| + 1 && r.messages[..|c.messages|] == c.messages
  {
    if SignedIn(session) && response.AskStreamed? {
      AnswerAfterQuestion(parse, c.messages, response.chunks, response.tail);
    }
  }

  /** The welcome message the page starts a conversation with. */
  function Welcome(userName: string, title: string): Message {
    Message("Hello " + userName + "\U{1F44B} I am the Chat Bot " + title + "! How can I help you?", false)
  }

  /**
   * `clearConversation`: with the chatbot's details and the user loaded,
   * only the welcome message is left, the conversation id is dropped and
   * the prompts are shown again; otherwise nothing changes.
   */
  function ClearConversation(c: Chat, title: Option<string>, userName: Option<string>): (r: Chat)
    ensures title.Some? && userName.Some? ==> r.messages == [Welcome(userName.value, title.value)] && r.conversationId.None? && r.showPrompts
    ensures title.None? || userName.None? ==> r == c
    ensures r.input == c.input && r.notices == c.notices && r.errors == c.errors
  {
    if title.Some? && userName.Some? then
      c.(messages := [Welcome(userName.value, title.value)], conversationId := None, showPrompts := true)
    else c
  }

  /** After a clear, the next question creates a new conversation. */
  lemma ClearedThenNewConversation(parse: Parser, c: Chat, session: Session, title: string, userName: string, m: string, premium: bool, id: string, response: AskResponse)
    requires id != ""
    ensures var r := SendMessage(parse, ClearConversation(c, Some(title), Some(userName)), session, m, premium, NewId(id), response);
            SignedIn(session) ==> r.request == Some(AskRequest(m, ModelFor(premium), id)) && r.chat.conversationId == Some(id)
  {
  }

  /** The prompts effect: with suggested prompts, they show only while at most one message is on the page, and at most three are displayed. */
  function PromptDisplay(suggested: seq<string>, messageCount: nat, show: bool, displayed: seq<string>): (r: (bool, seq<string>))
    ensures |suggested| == 0 ==> r == (show, displayed)
    ensures 0 < |suggested| ==> (r.0 <==> messageCount <= 1)
    ensures 0 < |suggested| ==> |r.1| == (if |suggested| < 3 then |suggested| else 3) && r.1 == suggested[..|r.1|]
  {
    if |suggested| == 0 then (show, displayed)
    else (messageCount <= 1, suggested[..if |suggested| < 3 then |suggested| else 3])
  }

  /**
   * The prompts go away with the first question and come back with a clear:
   * a question sent with credits leaves at least two messages on the page,
   * and a clear leaves only the welcome.
   */
  lemma PromptsHideThenReturn(parse: Parser, c: Chat, session: Session, remaining: Option<int>, premium: bool, created: NewConversation, response: AskResponse,
                              suggested: seq<string>, show: bool, displayed: seq<string>, title: string, userName: string)
    requires 0 < |suggested| && 0 < |c.messages|
    requires !IsBlank(c.input) && remaining.Some? && 0 < remaining.value
    ensures !PromptDisplay(suggested, |HandleSubmit(parse, c, session, remaining, premium, created, response).chat.messages|, show, displayed).0
    ensures PromptDisplay(suggested, |ClearConversation(c, Some(title), Some(userName)).messages|, show, displayed).0
  {
  }
}

=== FILE: ask_flow.dfy ===
/**
 * The chat page reading what `ask_chatbot` streams. The server sends every
 * chunk of the answer, then the credit event; when each send reaches the
 * page as one read, the page shows exactly the answer the server stores and
 * one credit toast with the billed amount. A read that carries answer text
 * together with the credit event loses that text.
 */
module AskFlow {
  import opened Wrappers
  import opened Strings
  import opened Json
  import opened PyJson
  import opened Sse
  import opened AskServer
  import opened AskClient

  /** What the page reads when every send arrives by itself, with nothing left to flush. */
  function SeparateReads(email: string, conversationId: string, message: string, a: Answer): (r: seq<string>)
    ensures r == a.chunks + [CreditFrame(a.stamp, a.hundredths)]
  {
    AskSends(email, conversationId, message, a);
    SentTexts(AskEvents(email, conversationId, message, a))
  }

  /** No chunk of the model's answer holds the credit marker. */
  predicate Unmarked(chunks: seq<string>) {
    forall k :: 0 <= k < |chunks| ==> !Contains(chunks[k], CreditsEvent)
  }

  /**
   * The page shows what the server stores: the answer text is the content
   * of the assistant message stored last, there is exactly one toast, with
   * the billed amount, and typing starts exactly when the model sent some
   * chunk.
   */
  lemma AnswerShowsStored(parse: Parser, email: string, conversationId: string, message: string, a: Answer, before: seq<Message>)
    requires AcceptsDumps(parse)
    requires Unmarked(a.chunks)
    ensures var e := AskEvents(email, conversationId, message, a);
            var r := Respond(parse, before, SeparateReads(email, conversationId, message, a), "");
            && e[|e| - 1] == Stored(StoredMessage(conversationId, "assistant", r.bot))
            && r.notices == [Some(Num(a.hundredths as real / 100.0))]
            && (r.started <==> 0 < |a.chunks|)
  {
    var frame := CreditFrame(a.stamp, a.hundredths);
    FrameNotice(parse, a.stamp, a.hundredths);
    ReadsFacts(parse, before, a.chunks, frame, Some(Num(a.hundredths as real / 100.0)));
    LastStored(email, conversationId, message, a.chunks, BilledQty(a.usage), frame);
  }

  /** The assistant message stored last holds every chunk of the answer. */
  lemma LastStored(email: string, conversationId: string, message: string, chunks: seq<string>, qty: nat, frame: string)
    ensures var e := AskSchedule(email, conversationId, message, chunks, qty, frame);
            e[|e| - 1] == Stored(StoredMessage(conversationId, "assistant", Concat(chunks)))
  {
  }

  /** The answer chunks followed by a text starting with the marker, read to the end. */
  lemma ReadsFacts(parse: Parser, before: seq<Message>, chunks: seq<string>, frame: string, notice: Option<Json>)
    requires Unmarked(chunks) && StartsWith(frame, CreditsEvent) && ReadNotice(parse, frame) == Some(notice)
    ensures var r := Respond(parse, before, chunks + [frame], "");
            && r.bot == Concat(chunks)
            && r.notices == [notice]
            && (r.started <==> 0 < |chunks|)
  {
    var got := chunks + [frame];
    RespondFacts(parse, before, got, "");
    ReadsText(chunks, frame);
    ReadsNotices(parse, chunks, frame, notice);
    ReceiveAllNotices(parse, Initial(before), got);
    assert Initial(before).notices + NoticesOf(parse, got) == NoticesOf(parse, got);
    ReadsSpoken(chunks, frame);
  }

  /** The text read is the answer: the credit event adds nothing. */
  lemma ReadsText(chunks: seq<string>, frame: string)
    requires Unmarked(chunks) && StartsWith(frame, CreditsEvent)
    ensures Spoken(chunks + [frame]) == Concat(chunks)
  {
    SpokenAppend(chunks, [frame]);
    SpokenPlain(chunks);
    StartsWithContains(frame, CreditsEvent);
    assert Spoken([frame]) == "" + Spoken([frame][1..]);
    assert [frame][1..] == [];
  }

  /** The only toast comes from the credit event. */
  lemma ReadsNotices(parse: Parser, chunks: seq<string>, frame: string, notice: Option<Json>)
    requires Unmarked(chunks) && StartsWith(frame, CreditsEvent) && ReadNotice(parse, frame) == Some(notice)
    ensures NoticesOf(parse, chunks + [frame]) == [notice]
  {
    NoticesAppend(parse, chunks, [frame]);
    NoticesUnmarked(parse, chunks);
    StartsWithContains(frame, CreditsEvent);
    assert [frame][1..] == [];
  }

  lemma {:induction false} NoticesUnmarked(parse: Parser, chunks: seq<string>)
    requires Unmarked(chunks)
    ensures NoticesOf(parse, chunks) == []
    decreases |chunks|
  {
    if |chunks| != 0 {
      NoticesUnmarked(parse, chunks[1..]);
    }
  }

  /** Some read is appended exactly when the model sent a chunk. */
  lemma ReadsSpoken(chunks: seq<string>, frame: string)
    requires Unmarked(chunks) && StartsWith(frame, CreditsEvent)
    ensures AnySpoken(chunks + [frame]) <==> 0 < |chunks|
  {
    var all := chunks + [frame];
    if 0 < |chunks| {
      assert all[0] == chunks[0];
    } else {
      StartsWithContains(frame, CreditsEvent);
      assert all == [frame];
    }
  }

  /**
   * On the page, after the question, the answer the server stores is the
   * one bot message shown, once the model has sent anything.
   */
  lemma PageShowsStored(parse: Parser, email: string, conversationId: string, message: string, a: Answer, before: seq<Message>)
    requires AcceptsDumps(parse) && Unmarked(a.chunks) && 0 < |a.chunks|
    requires 0 < |before| && before[|before| - 1].isUser
    ensures var r := Respond(parse, before, SeparateReads(email, conversationId, message, a), "");
            && r.messages == before + [Message(Concat(a.chunks), false)]
            && !r.loading
  {
    var got := SeparateReads(email, conversationId, message, a);
    AnswerShowsStored(parse, email, conversationId, message, a, before);
    ReceiveAllShows(parse, Initial(before), got, before);
  }

  /**
   * A read holding the marker is never appended, so answer text that
   * arrives in the same read as the credit event is not shown, although the
   * server stores it.
   */
  lemma SharedReadLosesText(parse: Parser, st: Reply, text: string, frame: string)
    requires StartsWith(frame, CreditsEvent)
    ensures ReceiveAll(parse, st, [text + frame]).bot == st.bot
  {
    assert (text + frame)[|text|..|text| + |CreditsEvent|] == frame[..|CreditsEvent|];
    ContainsAt(text + frame, CreditsEvent, |text|);
    ReceiveAllText(parse, st, [text + frame]);
    assert [text + frame][1..] == [];
  }

  /**
   * So when the last chunk of the answer and the credit event (or any text
   * starting with the marker) arrive in one read, the page shows the answer
   * without that chunk.
   */
  lemma CoalescedLastChunk(parse: Parser, chunks: seq<string>, frame: string, before: seq<Message>)
    requires Unmarked(chunks) && 0 < |chunks| && StartsWith(frame, CreditsEvent)
    ensures var n := |chunks|;
            var got := chunks[..n - 1] + [chunks[n - 1] + frame];
            Respond(parse, before, got, "").bot == Concat(chunks[..n - 1])
  {
    var n := |chunks|;
    var head := chunks[..n - 1];
    var got := head + [chunks[n - 1] + frame];
    RespondFacts(parse, before, got, "");
    SpokenAppend(head, [chunks[n - 1] + frame]);
    assert Unmarked(head) by {
      forall k | 0 <= k < |head|
        ensures !Contains(head[k], CreditsEvent)
      {
        assert head[k] == chunks[k];
      }
    }
    SpokenPlain(head);
    SharedReadLosesText(parse, Initial(before), chunks[n - 1], frame);
    ReceiveAllText(parse, Initial(before), [chunks[n - 1] + frame]);
    assert "" + Spoken([chunks[n - 1] + frame]) == Spoken([chunks[n - 1] + frame]);
  }

  /**
   * A question submitted with credits, a token, the chatbot's id and a conversation id: when every
   * send of the server arrives as one read and nothing is left to flush, the
   * page ends with the question followed by the answer the server stores
   * under that id, one more credit toast with the billed amount, and the
   * loading flag off.
   */
  lemma SubmitShowsStored(parse: Parser, email: string, c: Chat, session: Session, remaining: Option<int>, premium: bool, created: NewConversation, a: Answer)
    requires AcceptsDumps(parse) && Unmarked(a.chunks) && 0 < |a.chunks|
    requires !IsBlank(c.input) && remaining.Some? && 0 < remaining.value && SignedIn(session)
    requires TruthyText(c.conversationId) || (created.NewId? && created.id != "")
    ensures var id := SentId(c, created);
            var response := AskStreamed(SeparateReads(email, id, c.input, a), "", false);
            var r := HandleSubmit(parse, c, session, remaining, premium, created, response);
            var e := AskEvents(email, id, c.input, a);
            && r.request == Some(AskRequest(c.input, ModelFor(premium), id))
            && e[|e| - 1] == Stored(StoredMessage(id, "assistant", Concat(a.chunks)))
            && r.chat.messages == c.messages + [Message(c.input, true)] + [Message(Concat(a.chunks), false)]
            && r.chat.notices == c.notices + [Some(Num(a.hundredths as real / 100.0))]
            && !r.chat.loading
  {
    var id := SentId(c, created);
    var before := c.messages + [Message(c.input, true)];
    var got := SeparateReads(email, id, c.input, a);
    var reply := Respond(parse, before, got, "");
    SeparateReadsReply(parse, email, id, c.input, a, before);
    assert ReadAnswer(parse, before, got, "", false) == reply;
    var r := HandleSubmit(parse, c, session, remaining, premium, created, AskStreamed(got, "", false));
    assert r.chat.messages == reply.messages;
    assert r.chat.notices == c.notices + reply.notices;
    LastStoredEvent(email, id, c.input, a);
  }

  /** The last thing the ask stream does is store the whole answer. */
  lemma LastStoredEvent(email: string, id: string, message: string, a: Answer)
    ensures var e := AskEvents(email, id, message, a);
            e[|e| - 1] == Stored(StoredMessage(id, "assistant", Concat(a.chunks)))
  {
    LastStored(email, id, message, a.chunks, BilledQty(a.usage), CreditFrame(a.stamp, a.hundredths));
  }

  /** The reply read from the server's sends, after a question: the stored answer as one bot message and one toast. */
  lemma SeparateReadsReply(parse: Parser, email: string, id: string, message: string, a: Answer, before: seq<Message>)
    requires AcceptsDumps(parse) && Unmarked(a.chunks) && 0 < |a.chunks|
    requires 0 < |before| && before[|before| - 1].isUser
    ensures var reply := Respond(parse, before, SeparateReads(email, id, message, a), "");
            reply.messages == before + [Message(Concat(a.chunks), false)]
            && reply.notices == [Some(Num(a.hundredths as real / 100.0))]
  {
    AnswerShowsStored(parse, email, id, message, a, before);
    PageShowsStored(parse, email, id, message, a, before);
  }
}

=== FILE: ask_server.dfy ===
/**
 * The server side of asking a chatbot (backend/routers/chatbots.py): the
 * answer stream with its closing credit event, the messages it stores, and
 * the sources answer. The model, the pricing of usage, the clock and the
 * database are outside the model; what they return is given as parameters.
 */
module AskServer {
  import opened Wrappers
  import opened Strings
  import opened Sse
  import opened Access

  /** A row of the `Messages` table. */
  datatype StoredMessage = StoredMessage(conversationId: string, role: string, content: string)

  /** What the stream does, in order: text sent, usage stored, a message stored. */
  datatype AskEvent =
    | Sent(text: string)
    | Billed(user: string, qty: nat)
    | Stored(message: StoredMessage)

  /** What the model streamed and the billing returned for one question; the clock gives the event id. */
  datatype Answer = Answer(chunks: seq<string>, usage: nat, hundredths: nat, stamp: int)

  /**
   * The answer loop: each chunk is sent as it arrives and appended to the
   * answer that is stored afterwards.
   */
  method StreamAnswer(chunks: seq<string>) returns (answer: string, sent: seq<string>)
    ensures sent == chunks
    ensures answer == Concat(sent)
  {
    answer, sent := "", [];
    var i := 0;
    while i < |chunks|
      invariant 0 <= i <= |chunks|
      invariant sent == chunks[..i]
      invariant answer == Concat(sent)
    {
      ConcatAppend(sent, [chunks[i]]);
      assert [chunks[i]][1..] == [];
      answer := answer + chunks[i];
      sent := sent + [chunks[i]];
      i := i + 1;
    }
    assert chunks[..|chunks|] == chunks;
  }

  function SentAll(chunks: seq<string>): (r: seq<AskEvent>)
    ensures |r| == |chunks| && forall k :: 0 <= k < |chunks| ==> r[k] == Sent(chunks[k])
  {
    seq(|chunks|, k requires 0 <= k < |chunks| => Sent(chunks[k]))
  }

  /**
   * `stream_ask_chatbot`: every chunk of the answer, then the usage billed
   * at four times the model's, the credit event, the user's question and
   * the assistant's answer.
   */
  function AskEvents(email: string, conversationId: string, message: string, a: Answer): (r: seq<AskEvent>)
    ensures |r| == |a.chunks| + 4
  {
    AskSchedule(email, conversationId, message, a.chunks, BilledQty(a.usage), CreditFrame(a.stamp, a.hundredths))
  }

  /** The order of the ask stream for a given bill and credit event. */
  function AskSchedule(email: string, conversationId: string, message: string, chunks: seq<string>, qty: nat, frame: string): (r: seq<AskEvent>)
    ensures |r| == |chunks| + 4
  {
    SentAll(chunks)
    + [ Billed(email, qty),
        Sent(frame),
        Stored(StoredMessage(conversationId, "user", message)),
        Stored(StoredMessage(conversationId, "assistant", Concat(chunks))) ]
  }

  /** The texts sent, in order. */
  function SentTexts(events: seq<AskEvent>): (r: seq<string>)
    ensures |r| <= |events|
    decreases |events|
  {
    if |events| == 0 then []
    else (if events[0].Sent? then [events[0].text] else []) + SentTexts(events[1..])
  }

  lemma {:induction false} SentTextsAppend(a: seq<AskEvent>, b: seq<AskEvent>)
    ensures SentTexts(a + b) == SentTexts(a) + SentTexts(b)
    decreases |a|
  {
    if |a| == 0 {
      assert a + b == b;
    } else {
      assert (a + b)[0] == a[0];
      assert (a + b)[1..] == a[1..] + b;
      SentTextsAppend(a[1..], b);
    }
  }

  lemma {:induction false} SentAllTexts(chunks: seq<string>)
    ensures SentTexts(SentAll(chunks)) == chunks
    decreases |chunks|
  {
    if |chunks| != 0 {
      assert SentAll(chunks)[1..] == SentAll(chunks[1..]);
      SentAllTexts(chunks[1..]);
    }
  }

  /** The stream sends the chunks of the answer in order and then exactly one more text, the credit event. */
  lemma AskSends(email: string, conversationId: string, message: string, a: Answer)
    ensures SentTexts(AskEvents(email, conversationId, message, a)) == a.chunks + [CreditFrame(a.stamp, a.hundredths)]
  {
    ScheduleSends(email, conversationId, message, a.chunks, BilledQty(a.usage), CreditFrame(a.stamp, a.hundredths));
  }

  lemma ScheduleSends(email: string, conversationId: string, message: string, chunks: seq<string>, qty: nat, frame: string)
    ensures SentTexts(AskSchedule(email, conversationId, message, chunks, qty, frame)) == chunks + [frame]
  {
    var tail := [ Billed(email, qty),
                  Sent(frame),
                  Stored(StoredMessage(conversationId, "user", message)),
                  Stored(StoredMessage(conversationId, "assistant", Concat(chunks))) ];
    SentTextsAppend(SentAll(chunks), tail);
    SentAllTexts(chunks);
    assert tail[1..][1..][1..][1..] == [];
    assert SentTexts(tail[1..][1..]) == [];
    assert tail[1..][0] == Sent(frame);
    assert SentTexts(tail) == [frame];
  }

  /**
   * After the last chunk come the bill, the credit event, then the question
   * and the answer; the answer stored is every text sent before the credit
   * event, and nothing is stored before it.
   */
  lemma AskOrder(email: string, conversationId: string, message: string, a: Answer)
    ensures var e := AskEvents(email, conversationId, message, a);
            var n := |a.chunks|;
            && e[n] == Billed(email, 4 * a.usage)
            && e[n + 1] == Sent(CreditFrame(a.stamp, a.hundredths))
            && e[n + 2] == Stored(StoredMessage(conversationId, "user", message))
            && e[n + 3] == Stored(StoredMessage(conversationId, "assistant", Concat(SentTexts(e[..n]))))
            && (forall k :: 0 <= k < n + 2 ==> !e[k].Stored?)
  {
    ScheduleOrder(email, conversationId, message, a.chunks, BilledQty(a.usage), CreditFrame(a.stamp, a.hundredths));
  }

  lemma ScheduleOrder(email: string, conversationId: string, message: string, chunks: seq<string>, qty: nat, frame: string)
    ensures var e := AskSchedule(email, conversationId, message, chunks, qty, frame);
            var n := |chunks|;
            && e[n] == Billed(email, qty)
            && e[n + 1] == Sent(frame)
            && e[n + 2] == Stored(StoredMessage(conversationId, "user", message))
            && e[n + 3] == Stored(StoredMessage(conversationId, "assistant", Concat(SentTexts(e[..n]))))
            && (forall k :: 0 <= k < n + 2 ==> !e[k].Stored?)
  {
    var e := AskSchedule(email, conversationId, message, chunks, qty, frame);
    assert e[..|chunks|] == SentAll(chunks);
    SentAllTexts(chunks);
  }

  /** One source the model cited. */
  datatype Source = Source(filename: string, page: int, url: string, citation: string)

  const NoSources := "No sources found"

  /** `"[{filename} - Page {page}]({url})\n\n*{citation}*".format(**source)`. */
  function SourcePart(s: Source): (r: string)
    ensures 0 < |r| && r[0] == '['
  {
    "[" + s.filename + " - Page " + IntToString(s.page) + "](" + s.url + ")\n\n*" + s.citation + "*"
  }

  function SourceParts(sources: seq<Source>): (r: seq<string>)
    ensures |r| == |sources| && forall k :: 0 <= k < |sources| ==> r[k] == SourcePart(sources[k])
  {
    seq(|sources|, k requires 0 <= k < |sources| => SourcePart(sources[k]))
  }

  /** The answer of `get_last_message_sources`: a fixed text when there is no source, else one part per source. */
  function SourcesAnswer(sources: seq<Source>): (r: string)
    ensures r == NoSources <==> |sources| == 0
    ensures 0 < |sources| ==> StartsWith(r, SourcePart(sources[0]))
    ensures |sources| == 1 ==> r == SourcePart(sources[0])
  {
    if |sources| == 0 then NoSources
    else
      var r := Join(SourceParts(sources), "\n\n");
      JoinStartsWith(SourceParts(sources), "\n\n");
      assert r[0] == '[' && NoSources[0] == 'N';
      r
  }

  lemma JoinStartsWith(parts: seq<string>, sep: string)
    requires 0 < |parts|
    ensures StartsWith(Join(parts, sep), parts[0])
  {
    if 1 < |parts| {
      assert (parts[0] + sep + Join(parts[1..], sep))[..|parts[0]|] == parts[0];
    }
  }

  /** Parts follow one another in source order, separated by a blank line. */
  lemma SourcesAnswerAppend(sources: seq<Source>, s: Source)
    requires 0 < |sources|
    ensures SourcesAnswer(sources + [s]) == SourcesAnswer(sources) + "\n\n" + SourcePart(s)
  {
    JoinSnoc(SourceParts(sources), "\n\n", SourcePart(s));
    assert SourceParts(sources + [s]) == SourceParts(sources) + [SourcePart(s)];
  }

  lemma {:induction false} JoinSnoc(parts: seq<string>, sep: string, x: string)
    requires 0 < |parts|
    ensures Join(parts + [x], sep) == Join(parts, sep) + sep + x
    decreases |parts|
  {
    var all := parts + [x];
    assert all[0] == parts[0];
    if |parts| == 1 {
      assert all[1..] == [x];
    } else {
      assert all[1..] == parts[1..] + [x];
      JoinSnoc(parts[1..], sep, x);
    }
  }

  /** What `get_last_message_sources` returns: the answer and the credits it cost. */
  datatype SourcesReply = SourcesReply(answer: string, consumedHundredths: nat)

  /** `get_last_message_sources`: the usage is billed at four times the model's and the answer is stored as an assistant message. */
  function LastMessageSources(email: string, conversationId: string, sources: seq<Source>, usage: nat, hundredths: nat): (r: (SourcesReply, seq<AskEvent>))
    ensures r.1 == [Billed(email, 4 * usage), Stored(StoredMessage(conversationId, "assistant", r.0.answer))]
    ensures r.0.consumedHundredths == hundredths
    ensures r.0.answer == NoSources <==> |sources| == 0
  {
    var answer := SourcesAnswer(sources);
    (SourcesReply(answer, hundredths), [Billed(email, BilledQty(usage)), Stored(StoredMessage(conversationId, "assistant", answer))])
  }

  /** The endpoints of the router that run after the plain access check. */
  function AskChatbot(accesses: map<string, string>, chatbotId: string, email: string, conversationId: string, message: string, a: Answer): (r: Result<seq<AskEvent>, HttpError>)
    ensures chatbotId !in accesses ==> r == Failure(NoAccess)
    ensures chatbotId in accesses ==> r == Success(AskEvents(email, conversationId, message, a))
  {
    Guarded(accesses, chatbotId, false, AskEvents(email, conversationId, message, a))
  }

  function GetLastMessageSources(accesses: map<string, string>, chatbotId: string, email: string, conversationId: string,
                                 sources: seq<Source>, usage: nat, hundredths: nat): (r: Result<(SourcesReply, seq<AskEvent>), HttpError>)
    ensures chatbotId !in accesses ==> r == Failure(NoAccess)
    ensures chatbotId in accesses ==> r.Success? && r.value.0.answer == SourcesAnswer(sources)
  {
    Guarded(accesses, chatbotId, false, LastMessageSources(email, conversationId, sources, usage, hundredths))
  }
}

=== FILE: creation_client.dfy ===
/**
 * The chatbot-creation page (frontend/src/pages/CreateChatbot.tsx): the file
 * list it keeps before creation, the guards of the create button, and the
 * consumer of the creation stream. Each read appends the decoded chunk to a
 * buffer, runs the brace scanner over it, applies every accepted object to
 * the page in the order found, looks for one credit notice in the buffer,
 * and keeps the unscanned tail for the next read.
 */
module CreationClient {
  import opened Wrappers
  import opened Strings
  import opened Json
  import opened PyJson
  import opened Sse
  import opened CreationScanner

  const MaxFiles := 20
  const MaxPages := 200

  const TooManyFiles := "You can only upload a maximum of 20 documents per Chat Bot."
  const OnlyPdf := "Only PDF files are allowed."
  const NoDocuments := "Please upload at least one document to create a Chat Bot."
  const NoCredits := "You do not have enough credits to create a Chat Bot. Please wait for your credits to refresh."
  const TooManyPages := "The total number of pages across all documents cannot exceed 200."
  const CreateFailed := "Failed to create chatbot. Please try again."

  /** A file picked in the browser: its MIME type as reported by the browser, and its size in bytes. */
  datatype Upload = Upload(name: string, mime: string, size: nat)

  predicate IsPdf(f: Upload) {
    f.mime == "application/pdf"
  }

  /** `files.filter(file => file.type === 'application/pdf')`. */
  function PdfOnly(files: seq<Upload>): (r: seq<Upload>)
    ensures |r| <= |files|
    ensures forall f :: f in r <==> f in files && IsPdf(f)
    ensures |r| == |files| <==> forall k :: 0 <= k < |files| ==> IsPdf(files[k])
    decreases |files|
  {
    if |files| == 0 then []
    else
      var rest := PdfOnly(files[1..]);
      assert forall f :: f in files <==> f == files[0] || f in files[1..];
      if IsPdf(files[0]) then [files[0]] + rest else rest
  }

  /** Filtering keeps order: the PDF files of `a + b` are those of `a` followed by those of `b`. */
  lemma {:induction false} PdfOnlyAppend(a: seq<Upload>, b: seq<Upload>)
    ensures PdfOnly(a + b) == PdfOnly(a) + PdfOnly(b)
    decreases |a|
  {
    if |a| == 0 {
      assert a + b == b;
    } else {
      assert (a + b)[0] == a[0];
      assert (a + b)[1..] == a[1..] + b;
      PdfOnlyAppend(a[1..], b);
    }
  }

  /** The file list after a drop or a pick, and the error toasts shown. */
  datatype FilesUpdate = FilesUpdate(files: seq<Upload>, toasts: seq<string>)

  function HandleNewFiles(files: seq<Upload>, added: seq<Upload>): (r: FilesUpdate)
    ensures |files| + |added| > MaxFiles ==> r == FilesUpdate(files, [TooManyFiles])
    ensures |files| + |added| <= MaxFiles ==> r.files == files + PdfOnly(added) && |r.files| <= MaxFiles
    ensures |files| + |added| <= MaxFiles ==> (r.toasts == [] <==> forall k :: 0 <= k < |added| ==> IsPdf(added[k]))
  {
    if |files| + |added| > MaxFiles then FilesUpdate(files, [TooManyFiles])
    else
      var pdf := PdfOnly(added);
      FilesUpdate(files + pdf, if |pdf| != |added| then [OnlyPdf] else [])
  }

  /**
   * After the page count comes back from the server: above the limit, the
   * last file of the list is dropped (whatever batch it came with), and
   * otherwise the list stays.
   */
  function PageLimitPop(files: seq<Upload>, totalPages: int): (r: seq<Upload>)
    ensures totalPages <= MaxPages ==> r == files
    ensures totalPages > MaxPages && 0 < |files| ==> r + [files[|files| - 1]] == files
    ensures totalPages > MaxPages && |files| == 0 ==> r == []
  {
    if totalPages > MaxPages && 0 < |files| then files[..|files| - 1] else files
  }

  /** `files.splice(index, 1)`: a negative index counts from the end, one past the end removes nothing. */
  function RemoveFile(files: seq<Upload>, index: int): (r: seq<Upload>)
    ensures 0 <= index < |files| ==> r == files[..index] + files[index + 1..]
    ensures index >= |files| ==> r == files
    ensures |files| == 0 ==> r == []
    ensures -|files| <= index < 0 ==> r == files[..|files| + index] + files[|files| + index + 1..]
  {
    var start := if index < 0 then (if |files| + index < 0 then 0 else |files| + index) else index;
    if start < |files| then files[..start] + files[start + 1..] else files
  }

  /** `removeFile` drops exactly the chosen entry and keeps the others in order. */
  lemma RemoveFileKeepsOthers(files: seq<Upload>, index: nat)
    requires index < |files|
    ensures |RemoveFile(files, index)| == |files| - 1
    ensures forall k :: 0 <= k < index ==> RemoveFile(files, index)[k] == files[k]
    ensures forall k :: index <= k < |files| - 1 ==> RemoveFile(files, index)[k] == files[k + 1]
  {
  }

  /** What one parsed object does to the page; the first matching case wins. */
  datatype Stage =
    | Identity(title: Json, description: Json)
    | IconReady(icon: Json)
    | PromptsReady(prompts: Json)
    | Created(chatbotId: Json)
    | Ignored

  /** The stage of a parsed value: truthy `title` and `description`, else `icon`, else `suggested_prompts`, else `chatbot_id`. */
  function StageOf(v: Json): (s: Stage)
    requires !v.Null?
    ensures s.Identity? <==> Truthy(Prop(v, "title")) && Truthy(Prop(v, "description"))
    ensures s.Identity? ==> Some(s.title) == Prop(v, "title") && Some(s.description) == Prop(v, "description")
    ensures s.IconReady? <==> !(Truthy(Prop(v, "title")) && Truthy(Prop(v, "description"))) && Truthy(Prop(v, "icon"))
    ensures s.IconReady? ==> Some(s.icon) == Prop(v, "icon")
    ensures s.PromptsReady? <==> !(Truthy(Prop(v, "title")) && Truthy(Prop(v, "description"))) && !Truthy(Prop(v, "icon"))
                                 && Truthy(Prop(v, "suggested_prompts"))
    ensures s.PromptsReady? ==> Some(s.prompts) == Prop(v, "suggested_prompts")
    ensures s.Created? <==> !(Truthy(Prop(v, "title")) && Truthy(Prop(v, "description"))) && !Truthy(Prop(v, "icon"))
                            && !Truthy(Prop(v, "suggested_prompts")) && Truthy(Prop(v, "chatbot_id"))
    ensures s.Created? ==> Some(s.chatbotId) == Prop(v, "chatbot_id")
  {
    if Truthy(Prop(v, "title")) && Truthy(Prop(v, "description")) then
      Identity(Prop(v, "title").value, Prop(v, "description").value)
    else if Truthy(Prop(v, "icon")) then IconReady(Prop(v, "icon").value)
    else if Truthy(Prop(v, "suggested_prompts")) then PromptsReady(Prop(v, "suggested_prompts").value)
    else if Truthy(Prop(v, "chatbot_id")) then Created(Prop(v, "chatbot_id").value)
    else Ignored
  }

  /** What the page shows of the chatbot being created. */
  datatype View = View(
    step: nat,
    title: Option<Json>,
    description: Option<Json>,
    icon: Option<Json>,
    prompts: Json,
    chatbotId: Option<Json>,
    complete: bool,
    creating: bool)

  /** The page right after the guards pass: creating, at step 0, with nothing known yet. */
  const Started := View(0, None, None, None, Arr([]), None, false, true)

  /**
   * One object applied to the page. The step is assigned from the stage and
   * not raised to a maximum; a chatbot id also marks creation complete and,
   * once user data is refreshed, ends the creating state.
   */
  function Apply(view: View, s: Stage): (r: View)
    ensures s.Ignored? ==> r == view
    ensures s.Identity? ==> r == view.(step := 1, title := Some(s.title), description := Some(s.description))
    ensures s.IconReady? ==> r == view.(step := 2, icon := Some(s.icon))
    ensures s.PromptsReady? ==> r == view.(step := 3, prompts := s.prompts)
    ensures s.Created? ==> r == view.(step := 4, chatbotId := Some(s.chatbotId), complete := true, creating := false)
  {
    match s
    case Identity(t, d) => view.(step := 1, title := Some(t), description := Some(d))
    case IconReady(i) => view.(step := 2, icon := Some(i))
    case PromptsReady(p) => view.(step := 3, prompts := p)
    case Created(id) => view.(step := 4, chatbotId := Some(id), complete := true, creating := false)
    case Ignored => view
  }

  /** The objects of one scan applied in the order the scan found them. */
  function ClassifyAll(view: View, values: seq<Json>): View
    requires NoneNull(values)
    decreases |values|
  {
    if |values| == 0 then view
    else ClassifyAll(Apply(view, StageOf(values[0])), values[1..])
  }

  lemma {:induction false} ClassifyAllAppend(view: View, a: seq<Json>, b: seq<Json>)
    requires NoneNull(a) && NoneNull(b)
    ensures NoneNull(a + b)
    ensures ClassifyAll(view, a + b) == ClassifyAll(ClassifyAll(view, a), b)
    decreases |a|
  {
    assert NoneNull(a + b) by {
      forall i | 0 <= i < |a + b| ensures !(a + b)[i].Null? {
        if i < |a| {
          assert (a + b)[i] == a[i];
        } else {
          assert (a + b)[i] == b[i - |a|];
        }
      }
    }
    if |a| == 0 {
      assert a + b == b;
    } else {
      assert (a + b)[0] == a[0];
      assert (a + b)[1..] == a[1..] + b;
      ClassifyAllAppend(Apply(view, StageOf(a[0])), a[1..], b);
    }
  }

  /** Requests and toasts the page issues, in order. */
  datatype Effect =
      /** `refreshUserData()` after the chatbot id arrived. */
    | UserRefresh
      /** A credits toast showing `consumed_credits` (`None` is `undefined`), then a credit refresh. */
    | CreditNotice(credits: Option<Json>)
    | ErrorToast(message: string)

  /** One `UserRefresh` per object carrying a chatbot id, in scan order. */
  function ObjectEffects(values: seq<Json>): (r: seq<Effect>)
    requires NoneNull(values)
    ensures |r| <= |values|
    ensures forall k :: 0 <= k < |r| ==> r[k] == UserRefresh
    decreases |values|
  {
    if |values| == 0 then []
    else (if StageOf(values[0]).Created? then [UserRefresh] else []) + ObjectEffects(values[1..])
  }

  /**
   * The credit check after the scan: only the first `event: credits` of the
   * whole buffer is looked at, and within the text from there the first line
   * starting with `data: `. A data line that does not parse, or parses to
   * `null`, gives nothing.
   */
  function CreditEffects(parse: Parser, buffer: string): (r: seq<Effect>)
    ensures |r| <= 1
    ensures |r| == 1 ==> Contains(buffer, CreditsEvent) && r[0].CreditNotice?
  {
    match IndexOf(buffer, CreditsEvent)
    case None => []
    case Some(i) =>
      match ReadNotice(parse, buffer[i..])
      case None => []
      case Some(credits) => [CreditNotice(credits)]
  }

  /**
   * A read whose buffer is a credit event from the server, after text
   * without an `e` (such as the newline the previous object left), shows
   * the billed amount once.
   */
  lemma FrameReadNotice(parse: Parser, pre: string, stamp: int, hundredths: nat)
    requires AcceptsDumps(parse) && Lacks(pre, 'e')
    ensures CreditEffects(parse, pre + CreditFrame(stamp, hundredths)) == [CreditNotice(Some(Num(hundredths as real / 100.0)))]
  {
    FrameNotice(parse, stamp, hundredths);
    BufferNotice(parse, pre, CreditFrame(stamp, hundredths));
  }

  lemma BufferNotice(parse: Parser, pre: string, text: string)
    requires StartsWith(text, CreditsEvent) && Lacks(pre, 'e') && ReadNotice(parse, text).Some?
    ensures CreditEffects(parse, pre + text) == [CreditNotice(ReadNotice(parse, text).value)]
  {
    assert CreditsEvent[0] == 'e';
    IndexOfAfter(pre, text, CreditsEvent);
    assert (pre + text)[|pre|..] == text;
  }

  /** The consumer between reads: the page, the unscanned buffer, and the effects so far. */
  datatype Reader = Reader(view: View, buffer: string, effects: seq<Effect>)

  /** One `reader.read()` that delivered `chunk`. */
  function Read(parse: Parser, st: Reader, chunk: string): (r: Reader)
    ensures KeptTail(st.buffer + chunk, r.buffer)
    ensures |st.effects| <= |r.effects| <= |st.effects| + |Scan(parse, st.buffer + chunk).values| + 1
  {
    ScanRest(parse, st.buffer + chunk);
    var buf := st.buffer + chunk;
    var sc := Scan(parse, buf);
    Reader(ClassifyAll(st.view, sc.values), sc.rest, st.effects + ObjectEffects(sc.values) + CreditEffects(parse, buf))
  }

  /** Reads until `done`; the leftover buffer is dropped without a final parse. */
  function ReadAll(parse: Parser, st: Reader, chunks: seq<string>): Reader
    decreases |chunks|
  {
    if |chunks| == 0 then st else ReadAll(parse, Read(parse, st, chunks[0]), chunks[1..])
  }

  /**
   * How the stream is cut into reads does not change what the page ends up
   * showing or what is left in the buffer: both are those of one scan over
   * the whole text received. This holds from any state a read can leave,
   * that is, one whose buffer holds no `}`.
   */
  lemma {:induction false} ChunkInvariance(parse: Parser, st: Reader, chunks: seq<string>)
    requires Lacks(st.buffer, '}')
    ensures ReadAll(parse, st, chunks).view == ClassifyAll(st.view, Scan(parse, st.buffer + Concat(chunks)).values)
    ensures ReadAll(parse, st, chunks).buffer == Scan(parse, st.buffer + Concat(chunks)).rest
    decreases |chunks|
  {
    if |chunks| == 0 {
      assert st.buffer + Concat(chunks) == st.buffer;
      ScanWithoutBrace(parse, st.buffer);
    } else {
      var c := chunks[0];
      var next := Read(parse, st, c);
      ScanRest(parse, st.buffer + c);
      ChunkInvariance(parse, next, chunks[1..]);
      ReadStep(parse, st, c, Concat(chunks[1..]));
      assert Concat(chunks) == c + Concat(chunks[1..]);
      AppendAssoc(st.buffer, c, Concat(chunks[1..]));
    }
  }

  /** One read followed by a scan of the rest equals a scan of the buffer, the chunk and the rest together. */
  lemma ReadStep(parse: Parser, st: Reader, c: string, more: string)
    ensures NoneNull(Scan(parse, st.buffer + c + more).values)
    ensures ClassifyAll(Read(parse, st, c).view, Scan(parse, Read(parse, st, c).buffer + more).values)
            == ClassifyAll(st.view, Scan(parse, st.buffer + c + more).values)
    ensures Scan(parse, Read(parse, st, c).buffer + more).rest == Scan(parse, st.buffer + c + more).rest
  {
    var buf := st.buffer + c;
    ScanPrefix(parse, buf, more);
    var a := Scan(parse, buf);
    var b := Scan(parse, a.rest + more);
    ClassifyAllAppend(st.view, a.values, b.values);
  }

  /** A read that brings no `}` into the buffer only grows the buffer: the page stays as it was. */
  lemma TailRetained(parse: Parser, st: Reader, chunk: string)
    requires Lacks(st.buffer + chunk, '}')
    ensures Read(parse, st, chunk).buffer == st.buffer + chunk
    ensures Read(parse, st, chunk).view == st.view
  {
    ScanWithoutBrace(parse, st.buffer + chunk);
  }

  /** The step a stage sets, 0 for an ignored object. */
  function StageNumber(s: Stage): nat {
    match s
    case Identity(_, _) => 1
    case IconReady(_) => 2
    case PromptsReady(_) => 3
    case Created(_) => 4
    case Ignored => 0
  }

  /**
   * The step shown after a scan is the one the last object sets, whatever
   * came before it: the step is assigned, not kept at its maximum.
   */
  lemma FinalStep(view: View, values: seq<Json>)
    requires NoneNull(values) && 0 < |values|
    requires !StageOf(values[|values| - 1]).Ignored?
    ensures ClassifyAll(view, values).step == StageNumber(StageOf(values[|values| - 1]))
  {
    var n := |values| - 1;
    assert values == values[..n] + [values[n]];
    assert NoneNull(values[..n]) by {
      assert forall i :: 0 <= i < n ==> values[..n][i] == values[i];
    }
    ClassifyAllAppend(view, values[..n], [values[n]]);
  }

  /** A prompts object followed by an identity object takes the page from step 3 back to step 1. */
  lemma StepMovesBackward(view: View)
    ensures var prompts := Obj([Member("suggested_prompts", Arr([Str("Q")]))]);
            var identity := Obj([Member("title", Str("T")), Member("description", Str("D"))]);
            ClassifyAll(view, [prompts]).step == 3 && ClassifyAll(view, [prompts, identity]).step == 1
  {
    var prompts := Obj([Member("suggested_prompts", Arr([Str("Q")]))]);
    var identity := Obj([Member("title", Str("T")), Member("description", Str("D"))]);
    PromptsObjectStage(Arr([Str("Q")]));
    IdentityObjectStage(Str("T"), Str("D"));
    ClassifyTwo(view, prompts, identity);
  }

  lemma PromptsObjectStage(p: Json)
    requires Truthy(Some(p))
    ensures StageOf(Obj([Member("suggested_prompts", p)])) == PromptsReady(p)
  {
    LookupOne("suggested_prompts", p, "title");
    LookupOne("suggested_prompts", p, "icon");
    LookupOne("suggested_prompts", p, "suggested_prompts");
  }

  lemma IdentityObjectStage(t: Json, d: Json)
    requires Truthy(Some(t)) && Truthy(Some(d))
    ensures StageOf(Obj([Member("title", t), Member("description", d)])) == Identity(t, d)
  {
    LookupTwo("title", t, "description", d, "title");
    LookupTwo("title", t, "description", d, "description");
  }

  /** Two objects in a row are applied in turn. */
  lemma ClassifyTwo(view: View, a: Json, b: Json)
    requires !a.Null? && !b.Null?
    ensures NoneNull([a, b])
    ensures ClassifyAll(view, [a]) == Apply(view, StageOf(a))
    ensures ClassifyAll(view, [a, b]) == Apply(Apply(view, StageOf(a)), StageOf(b))
  {
    var va := Apply(view, StageOf(a));
    assert [a][1..] == [];
    assert [a, b][1..] == [b];
    assert [b][1..] == [];
    assert ClassifyAll(view, [a, b]) == ClassifyAll(va, [b]);
    assert ClassifyAll(va, [b]) == ClassifyAll(Apply(va, StageOf(b)), []);
  }

  /**
   * Creation completes exactly when some object carries a chatbot id, and the
   * page stays in its creating state otherwise: a stream that ends early
   * leaves the spinner running.
   */
  lemma {:induction false} CompleteIffId(view: View, values: seq<Json>)
    requires NoneNull(values)
    ensures ClassifyAll(view, values).complete <==> view.complete || exists k :: 0 <= k < |values| && StageOf(values[k]).Created?
    ensures ClassifyAll(view, values).creating <==> view.creating && forall k :: 0 <= k < |values| ==> !StageOf(values[k]).Created?
    decreases |values|
  {
    if |values| > 0 {
      var next := Apply(view, StageOf(values[0]));
      CompleteIffId(next, values[1..]);
      assert forall k :: 1 <= k < |values| ==> values[1..][k - 1] == values[k];
      assert (exists k :: 0 <= k < |values| && StageOf(values[k]).Created?)
          <==> StageOf(values[0]).Created? || exists k :: 0 <= k < |values[1..]| && StageOf(values[1..][k]).Created?;
    }
  }

  /** What `fetch` gives back for the create request: an error status, or a body read chunk by chunk that may break off with an error. */
  datatype CreateResponse = NotOk | Streamed(chunks: seq<string>, broken: bool)

  datatype CreateOutcome =
      /** Refused before any request, with the error toast shown. */
    | Refused(message: string)
      /** The request was made; the page and the effects at the end. */
    | Ran(view: View, effects: seq<Effect>)

  /**
   * The create button. The guards run in order: no files, no credits
   * (unknown or not positive), too many pages. Then the stream is read to
   * its end; an error status or a failed read ends the creating state with
   * an error toast, keeping whatever the page had shown.
   */
  function HandleCreateChatbot(parse: Parser, files: seq<Upload>, remainingCredits: Option<int>, totalPages: int, response: CreateResponse): (r: CreateOutcome)
    ensures r.Refused? <==> |files| == 0 || remainingCredits.None? || remainingCredits.value <= 0 || totalPages > MaxPages
    ensures |files| == 0 ==> r == Refused(NoDocuments)
    ensures 0 < |files| && (remainingCredits.None? || remainingCredits.value <= 0) ==> r == Refused(NoCredits)
    ensures 0 < |files| && remainingCredits.Some? && 0 < remainingCredits.value && totalPages > MaxPages ==> r == Refused(TooManyPages)
    ensures r.Ran? && response.NotOk? ==> r == Ran(Started.(creating := false), [ErrorToast(CreateFailed)])
    ensures r.Ran? && response.Streamed? ==> r.view.(creating := true) == ClassifyAll(Started, Scan(parse, Concat(response.chunks)).values).(creating := true)
    ensures r.Ran? && response.Streamed? && !response.broken ==> r.view == ClassifyAll(Started, Scan(parse, Concat(response.chunks)).values)
    ensures r.Ran? && response.Streamed? && response.broken ==> !r.view.creating && 0 < |r.effects| && r.effects[|r.effects| - 1] == ErrorToast(CreateFailed)
  {
    if |files| == 0 then Refused(NoDocuments)
    else if remainingCredits.None? || remainingCredits.value <= 0 then Refused(NoCredits)
    else if totalPages > MaxPages then Refused(TooManyPages)
    else
      match response
      case NotOk => Ran(Started.(creating := false), [ErrorToast(CreateFailed)])
      case Streamed(chunks, broken) =>
        var start := Reader(Started, "", []);
        var end := ReadAll(parse, start, chunks);
        ChunkInvariance(parse, start, chunks);
        assert "" + Concat(chunks) == Concat(chunks);
        if broken then Ran(end.view.(creating := false), end.effects + [ErrorToast(CreateFailed)])
        else Ran(end.view, end.effects)
  }
}

=== FILE: creation_flow.dfy ===
/**
 * Chatbot creation from end to end: the stream `create_chatbot_stream`
 * sends, read by the create page in whatever chunks the network delivers
 * it, leaves the page at its last step showing what the server stored.
 */
module CreationFlow {
  import opened Wrappers
  import opened Strings
  import opened Json
  import opened PyJson
  import opened Sse
  import opened CreationScanner
  import opened CreationClient
  import opened CreationServer

  /** The generated texts hold no brace, so the client's brace scanner cuts the stream where the server's objects end. */
  predicate GenerationBraceFree(g: Generation) {
    BraceFree(g.title) && BraceFree(g.description) && BraceFree(g.iconBase64)
    && StringsBraceFree(g.prompts) && BraceFree(g.chatbotId)
  }

  /** The page once the whole stream has been read: last step, every field from the stream, creation complete. */
  function Finished(g: Generation): View {
    View(4, Some(Str(g.title)), Some(Str(g.description)), Some(Str(g.iconBase64)),
         ValueToJson(PStrList(g.prompts)), Some(Str(g.chatbotId)), true, false)
  }

  /**
   * However the stream is cut into reads, a page whose guards passed ends
   * showing the title, description, icon, prompts and id the server sent,
   * at step 4 and no longer creating; and what it shows is what the server
   * stored under that id.
   */
  lemma CreationShowsStored(parse: Parser, g: Generation, files: seq<Upload>, credits: int, totalPages: int, chunks: seq<string>)
    requires AcceptsDumps(parse) && ObjectsOnlyFromBrace(parse)
    requires GenerationBraceFree(g)
    requires g.title != "" && g.description != "" && g.iconBase64 != "" && g.chatbotId != ""
    requires 0 < |files| && 0 < credits && totalPages <= MaxPages
    ensures Concat(chunks) == Concat(Yields(CreationEvents(g)))
            ==> HandleCreateChatbot(parse, files, Some(credits), totalPages, Streamed(chunks, false)).view == Finished(g)
    ensures var rec := Record(g);
            Finished(g).chatbotId == Some(Str(rec.id)) && Finished(g).title == Some(Str(rec.title))
            && Finished(g).description == Some(Str(rec.description))
            && Finished(g).prompts == ValueToJson(PStrList(rec.prompts))
  {
    StreamScan(parse, g);
    ClassifyStream(g);
    StreamedView(parse, files, credits, totalPages, chunks);
    FinishedIsRecord(g);
  }

  /** A complete stream leaves the page as the scanned objects applied to a fresh page make it. */
  lemma StreamedView(parse: Parser, files: seq<Upload>, credits: int, totalPages: int, chunks: seq<string>)
    requires 0 < |files| && 0 < credits && totalPages <= MaxPages
    ensures var r := HandleCreateChatbot(parse, files, Some(credits), totalPages, Streamed(chunks, false));
            r.Ran? && r.view == ClassifyAll(Started, Scan(parse, Concat(chunks)).values)
  {
  }

  /** The finished view holds the fields of the record the server stored. */
  lemma FinishedIsRecord(g: Generation)
    ensures var rec := Record(g);
            Finished(g).chatbotId == Some(Str(rec.id)) && Finished(g).title == Some(Str(rec.title))
            && Finished(g).description == Some(Str(rec.description))
            && Finished(g).prompts == ValueToJson(PStrList(rec.prompts))
  {
  }

  /** The scanner finds the stream's objects, credit payloads included, and keeps only the final newline. */
  lemma StreamScan(parse: Parser, g: Generation)
    requires AcceptsDumps(parse) && ObjectsOnlyFromBrace(parse)
    requires GenerationBraceFree(g)
    ensures Scan(parse, Concat(Yields(CreationEvents(g)))).values
            == [ToJson(IdentityItems(g)), ToJson(CreditsPayload(g.titleBill.hundredths))]
               + [ToJson(IconItems(g)), ToJson(CreditsPayload(g.iconBill.hundredths))]
               + [ToJson(PromptsItems(g)), ToJson(CreditsPayload(g.promptsBill.hundredths))]
               + [ToJson(IdItems(g))]
    ensures Scan(parse, Concat(Yields(CreationEvents(g)))).rest == "\n"
  {
    var ps := CreationPieces(g);
    SevenYields(g);
    CreationPiecesBraceFree(g);
    ScanAllPieces(parse, ps);
    CreationValues(g);
    LastPiece(g);
  }

  lemma ScanAllPieces(parse: Parser, ps: seq<Piece>)
    requires AcceptsDumps(parse) && ObjectsOnlyFromBrace(parse)
    requires AllBraceFree(ps) && 0 < |ps|
    ensures Scan(parse, Concat(PieceTexts(ps))) == ScanResult(PieceValues(ps), ps[|ps| - 1].after)
  {
    ScanPieces(parse, "", ps);
    assert "" + Concat(PieceTexts(ps)) == Concat(PieceTexts(ps));
  }

  lemma LastPiece(g: Generation)
    ensures |CreationPieces(g)| == 7 && CreationPieces(g)[6].after == "\n"
  {
  }

  /** Every piece of the creation stream is brace-free around its object. */
  lemma CreationPiecesBraceFree(g: Generation)
    requires GenerationBraceFree(g)
    ensures AllBraceFree(CreationPieces(g))
  {
    var objs, bills := Objects(g), Bills(g);
    ItemsBraceFree(g);
    PairBraceFree(LinePieceOf(objs[0]), FramePieceOf(bills[0]));
    PairBraceFree(LinePieceOf(objs[1]), FramePieceOf(bills[1]));
    PairBraceFree(LinePieceOf(objs[2]), FramePieceOf(bills[2]));
    var p0, p1, p2 := [LinePieceOf(objs[0]), FramePieceOf(bills[0])], [LinePieceOf(objs[1]), FramePieceOf(bills[1])], [LinePieceOf(objs[2]), FramePieceOf(bills[2])];
    var p3 := [LinePieceOf(objs[3])];
    assert AllBraceFree(p3);
    AllBraceFreeAppend(p0, p1);
    AllBraceFreeAppend(p0 + p1, p2);
    AllBraceFreeAppend(p0 + p1 + p2, p3);
  }

  predicate AllBraceFree(ps: seq<Piece>) {
    forall k :: 0 <= k < |ps| ==> PieceBraceFree(ps[k])
  }

  lemma AllBraceFreeAppend(a: seq<Piece>, b: seq<Piece>)
    requires AllBraceFree(a) && AllBraceFree(b)
    ensures AllBraceFree(a + b)
  {
    forall k | 0 <= k < |a + b| ensures PieceBraceFree((a + b)[k]) {
      if k < |a| {
        assert (a + b)[k] == a[k];
      } else {
        assert (a + b)[k] == b[k - |a|];
      }
    }
  }

  lemma PairBraceFree(p: Piece, q: Piece)
    requires PieceBraceFree(p) && PieceBraceFree(q)
    ensures AllBraceFree([p, q])
  {
  }

  lemma ItemsBraceFree(g: Generation)
    requires GenerationBraceFree(g)
    ensures forall k :: 0 <= k < 4 ==> PieceBraceFree(LinePieceOf(Objects(g)[k]))
    ensures forall k :: 0 <= k < 3 ==> PieceBraceFree(FramePieceOf(Bills(g)[k]))
  {
    KeyBraceFree("title");
    KeyBraceFree("description");
    KeyBraceFree("icon");
    KeyBraceFree("suggested_prompts");
    KeyBraceFree("chatbot_id");
    assert BraceFree("") && BraceFree("\n") && BraceFree("\n\n");
  }

  lemma KeyBraceFree(k: string)
    requires forall i :: 0 <= i < |k| ==> 'a' <= k[i] <= 'z' || k[i] == '_'
    ensures BraceFree(k)
  {
  }

  /** The objects the scanner finds, in order: each generated object followed by the payload of its credit event, then the id. */
  lemma CreationValues(g: Generation)
    ensures PieceValues(CreationPieces(g))
            == [ToJson(IdentityItems(g)), ToJson(CreditsPayload(g.titleBill.hundredths))]
               + [ToJson(IconItems(g)), ToJson(CreditsPayload(g.iconBill.hundredths))]
               + [ToJson(PromptsItems(g)), ToJson(CreditsPayload(g.promptsBill.hundredths))]
               + [ToJson(IdItems(g))]
  {
    var objs, bills := Objects(g), Bills(g);
    var p0, p1, p2 := [LinePieceOf(objs[0]), FramePieceOf(bills[0])], [LinePieceOf(objs[1]), FramePieceOf(bills[1])], [LinePieceOf(objs[2]), FramePieceOf(bills[2])];
    var p3 := [LinePieceOf(objs[3])];
    PieceValuesAppend(p0 + p1 + p2, p3);
    PieceValuesAppend(p0 + p1, p2);
    PieceValuesAppend(p0, p1);
    PairValues(p0[0], p0[1]);
    PairValues(p1[0], p1[1]);
    PairValues(p2[0], p2[1]);
    OneValue(p3[0]);
  }

  lemma {:induction false} PieceValuesAppend(a: seq<Piece>, b: seq<Piece>)
    ensures PieceValues(a + b) == PieceValues(a) + PieceValues(b)
    decreases |a|
  {
    if |a| == 0 {
      assert a + b == b;
    } else {
      assert (a + b)[0] == a[0];
      assert (a + b)[1..] == a[1..] + b;
      PieceValuesAppend(a[1..], b);
    }
  }

  lemma PairValues(p: Piece, q: Piece)
    ensures PieceValues([p, q]) == [ToJson(p.d), ToJson(q.d)]
  {
  }

  lemma OneValue(p: Piece)
    ensures PieceValues([p]) == [ToJson(p.d)]
  {
  }

  /** The page applies the four objects in turn and passes over the credit payloads. */
  lemma ClassifyStream(g: Generation)
    requires g.title != "" && g.description != "" && g.iconBase64 != "" && g.chatbotId != ""
    ensures var v0, v1, v2 := [ToJson(IdentityItems(g)), ToJson(CreditsPayload(g.titleBill.hundredths))],
                              [ToJson(IconItems(g)), ToJson(CreditsPayload(g.iconBill.hundredths))],
                              [ToJson(PromptsItems(g)), ToJson(CreditsPayload(g.promptsBill.hundredths))];
            var v3 := [ToJson(IdItems(g))];
            NoneNull(v0 + v1 + v2 + v3) && ClassifyAll(Started, v0 + v1 + v2 + v3) == Finished(g)
  {
    var v0, v1, v2 := [ToJson(IdentityItems(g)), ToJson(CreditsPayload(g.titleBill.hundredths))],
                      [ToJson(IconItems(g)), ToJson(CreditsPayload(g.iconBill.hundredths))],
                      [ToJson(PromptsItems(g)), ToJson(CreditsPayload(g.promptsBill.hundredths))];
    var v3 := [ToJson(IdItems(g))];
    PayloadIgnored(g.titleBill.hundredths);
    PayloadIgnored(g.iconBill.hundredths);
    PayloadIgnored(g.promptsBill.hundredths);
    IdentityStage(g);
    IconStage(g);
    PromptsStage(g);
    IdStage(g);
    var s1 := ClassifyPair(Started, v0[0], v0[1]);
    var s2 := ClassifyPair(s1, v1[0], v1[1]);
    var s3 := ClassifyPair(s2, v2[0], v2[1]);
    ClassifyOne(s3, v3[0]);
    ClassifyAllAppend(Started, v0, v1);
    assert ClassifyAll(Started, v0 + v1) == s2;
    ClassifyAllAppend(Started, v0 + v1, v2);
    assert ClassifyAll(Started, v0 + v1 + v2) == s3;
    ClassifyAllAppend(Started, v0 + v1 + v2, v3);
    FourStages(g);
  }

  /** The four stages of a generation, applied in order to a page that has just started, end at its finished view. */
  lemma FourStages(g: Generation)
    ensures Apply(Apply(Apply(Apply(Started, Identity(Str(g.title), Str(g.description))), IconReady(Str(g.iconBase64))),
                        PromptsReady(ValueToJson(PStrList(g.prompts)))), Created(Str(g.chatbotId)))
            == Finished(g)
  {
  }

  /** An object followed by one the page ignores leaves the page as the first object alone does. */
  lemma ClassifyPair(view: View, v: Json, c: Json) returns (r: View)
    requires !v.Null? && !c.Null? && StageOf(c).Ignored?
    ensures NoneNull([v, c]) && r == Apply(view, StageOf(v)) && ClassifyAll(view, [v, c]) == r
  {
    r := Apply(view, StageOf(v));
    assert [v, c][1..] == [c];
    assert [c][1..] == [];
    assert ClassifyAll(r, [c]) == ClassifyAll(Apply(r, StageOf(c)), []);
  }

  lemma ClassifyOne(view: View, v: Json)
    requires !v.Null?
    ensures NoneNull([v]) && ClassifyAll(view, [v]) == Apply(view, StageOf(v))
  {
    assert [v][1..] == [];
  }

  /** A one-member object read back: its key gives the value, any other key gives `undefined`. */
  lemma PropOne(k: string, v: PyValue, key: string)
    ensures Prop(ToJson([PyItem(k, v)]), key) == if key == k then Some(ValueToJson(v)) else None
  {
    var m := ToJson([PyItem(k, v)]).members;
    assert m[0] == Member(k, ValueToJson(v));
    assert m[..0] == [];
  }

  /** A two-member object read back, with distinct keys. */
  lemma PropTwo(k0: string, v0: PyValue, k1: string, v1: PyValue, key: string)
    requires k0 != k1
    ensures Prop(ToJson([PyItem(k0, v0), PyItem(k1, v1)]), key)
            == if key == k1 then Some(ValueToJson(v1)) else if key == k0 then Some(ValueToJson(v0)) else None
  {
    var m := ToJson([PyItem(k0, v0), PyItem(k1, v1)]).members;
    assert m[0] == Member(k0, ValueToJson(v0));
    assert m[1] == Member(k1, ValueToJson(v1));
    assert m[..1] == [m[0]];
    assert m[..1][..0] == [];
  }

  lemma PayloadIgnored(h: nat)
    ensures !ToJson(CreditsPayload(h)).Null? && StageOf(ToJson(CreditsPayload(h))) == Ignored
  {
    PropOne("consumed_credits", PFloat(h), "title");
    PropOne("consumed_credits", PFloat(h), "icon");
    PropOne("consumed_credits", PFloat(h), "suggested_prompts");
    PropOne("consumed_credits", PFloat(h), "chatbot_id");
  }

  lemma IdentityStage(g: Generation)
    requires g.title != "" && g.description != ""
    ensures StageOf(ToJson(IdentityItems(g))) == Identity(Str(g.title), Str(g.description))
  {
    PropTwo("title", PStr(g.title), "description", PStr(g.description), "title");
    PropTwo("title", PStr(g.title), "description", PStr(g.description), "description");
  }

  lemma IconStage(g: Generation)
    requires g.iconBase64 != ""
    ensures StageOf(ToJson(IconItems(g))) == IconReady(Str(g.iconBase64))
  {
    PropOne("icon", PStr(g.iconBase64), "title");
    PropOne("icon", PStr(g.iconBase64), "icon");
  }

  lemma PromptsStage(g: Generation)
    ensures StageOf(ToJson(PromptsItems(g))) == PromptsReady(ValueToJson(PStrList(g.prompts)))
  {
    PropOne("suggested_prompts", PStrList(g.prompts), "title");
    PropOne("suggested_prompts", PStrList(g.prompts), "icon");
    PropOne("suggested_prompts", PStrList(g.prompts), "suggested_prompts");
  }

  lemma IdStage(g: Generation)
    requires g.chatbotId != ""
    ensures StageOf(ToJson(IdItems(g))) == Created(Str(g.chatbotId))
  {
    PropOne("chatbot_id", PStr(g.chatbotId), "title");
    PropOne("chatbot_id", PStr(g.chatbotId), "icon");
    PropOne("chatbot_id", PStr(g.chatbotId), "suggested_prompts");
    PropOne("chatbot_id", PStr(g.chatbotId), "chatbot_id");
  }
}

=== FILE: creation_scanner.dfy ===
/**
 * The brace scanner the chatbot-creation page runs over its text buffer after
 * every read (frontend/src/pages/CreateChatbot.tsx). From `startIndex` it
 * looks for the next `}`, hands the text up to and including it to
 * `JSON.parse`, and on a usable value jumps past that `}`; on a syntax error,
 * or on a `null` whose property read throws, it moves forward one character.
 * The scan knows nothing of JSON strings: a `}` inside a string value ends a
 * candidate like any other.
 */
module CreationScanner {
  import opened Wrappers
  import opened Strings
  import opened Json
  import opened PyJson

  /** The values the scan accepted, in order, and the text from the final `startIndex` on. */
  datatype ScanResult = ScanResult(values: seq<Json>, rest: string)

  predicate NoneNull(values: seq<Json>) {
    forall i :: 0 <= i < |values| ==> !values[i].Null?
  }

  /** The value the loop body accepts for a candidate span, if any. */
  function Accept(parse: Parser, span: string): Option<Json> {
    var data := parse(span);
    if data.Some? && !data.value.Null? then data else None
  }

  /**
   * The inner `while` loop of one read, over the text from `startIndex` on;
   * `rest` is what `buffer.substring(startIndex)` keeps once the loop ends,
   * always a suffix of the text.
   */
  function Scan(parse: Parser, text: string): (r: ScanResult)
    ensures NoneNull(r.values)
    decreases |text|
  {
    match IndexOfCharFrom(text, '}', 0)
    case None => ScanResult([], text)
    case Some(e) =>
      match Accept(parse, text[..e + 1])
      case Some(data) =>
        var after := Scan(parse, text[e + 1..]);
        ScanResult([data] + after.values, after.rest)
      case None =>
        Scan(parse, text[1..])
  }

  /**
   * `r` is what the buffer keeps of `text`: a suffix of it, holding no `}`,
   * all of `text` exactly when `text` has no `}`, and otherwise starting
   * right after a `}`.
   */
  predicate KeptTail(text: string, r: string) {
    && |r| <= |text| && r == text[|text| - |r|..]
    && Lacks(r, '}')
    && (r == text <==> Lacks(text, '}'))
    && (|r| < |text| ==> text[|text| - |r| - 1] == '}')
  }

  lemma KeptTailAfterBrace(text: string, i: nat, r: string)
    requires 1 <= i <= |text| && (text[i - 1] == '}' || |r| < |text| - i)
    requires KeptTail(text[i..], r)
    ensures KeptTail(text, r)
  {
    assert r == text[|text| - |r|..];
    if |r| == |text| - i {
      assert text[|text| - |r| - 1] == text[i - 1];
    } else {
      assert text[|text| - |r| - 1] == text[i..][|text| - i - |r| - 1];
    }
  }

  lemma KeptTailEmpty(text: string)
    requires Lacks(text, '}')
    ensures KeptTail(text, text)
  {
  }

  /**
   * What the buffer keeps is a suffix of the text: the text after its last
   * `}` when it holds one, and all of it otherwise.
   */
  lemma {:induction false} ScanRest(parse: Parser, text: string)
    ensures KeptTail(text, Scan(parse, text).rest)
    decreases |text|
  {
    match IndexOfCharFrom(text, '}', 0)
    case None =>
      KeptTailEmpty(text);
    case Some(e) =>
      match Accept(parse, text[..e + 1])
      case Some(data) =>
        ScanRest(parse, text[e + 1..]);
        KeptTailAfterBrace(text, e + 1, Scan(parse, text[e + 1..]).rest);
      case None =>
        ScanRest(parse, text[1..]);
        var r := Scan(parse, text[1..]).rest;
        assert forall k :: 1 <= k < |text| ==> text[k] == text[1..][k - 1];
        KeptTailAfterBrace(text, 1, r);
  }

  /** Two scans one after the other: the values of both, and what the second one leaves. */
  function Then(a: ScanResult, b: ScanResult): ScanResult {
    ScanResult(a.values + b.values, b.rest)
  }

  lemma EmptyAppend<T>(a: seq<T>)
    ensures [] + a == a
  {
  }

  /** `IndexOfCharFrom` is pinned down by its first occurrence. */
  lemma IndexOfCharFromIs(s: string, c: char, from: nat, i: nat)
    requires from <= i < |s| && s[i] == c
    requires forall k :: from <= k < i ==> s[k] != c
    ensures IndexOfCharFrom(s, c, from) == Some(i)
  {
  }

  /** The first `}` of `x` is the first `}` of `x + y`, and the candidate span is the same. */
  lemma SameSpanInPrefix(parse: Parser, x: string, y: string, e: nat)
    requires IndexOfCharFrom(x, '}', 0) == Some(e)
    ensures IndexOfCharFrom(x + y, '}', 0) == Some(e)
    ensures Accept(parse, (x + y)[..e + 1]) == Accept(parse, x[..e + 1])
    ensures (x + y)[e + 1..] == x[e + 1..] + y
    ensures (x + y)[1..] == x[1..] + y
  {
    IndexOfCharFromIs(x + y, '}', 0, e);
    assert (x + y)[..e + 1] == x[..e + 1];
  }

  lemma ScanEnds(parse: Parser, text: string)
    requires IndexOfCharFrom(text, '}', 0).None?
    ensures Scan(parse, text) == ScanResult([], text)
  {
  }

  lemma ScanAccepts(parse: Parser, text: string, e: nat, data: Json)
    requires IndexOfCharFrom(text, '}', 0) == Some(e) && Accept(parse, text[..e + 1]) == Some(data)
    ensures Scan(parse, text) == ScanResult([data] + Scan(parse, text[e + 1..]).values, Scan(parse, text[e + 1..]).rest)
  {
  }

  lemma ScanRejects(parse: Parser, text: string, e: nat)
    requires IndexOfCharFrom(text, '}', 0) == Some(e) && Accept(parse, text[..e + 1]).None?
    ensures Scan(parse, text) == Scan(parse, text[1..])
  {
  }

  /**
   * Scanning `x + y` does what the scan of `x` does, then scans what the
   * scan of `x` left followed by `y`. This is what makes keeping the
   * unscanned tail between reads equivalent to scanning the whole stream.
   */
  lemma {:induction false} ScanPrefix(parse: Parser, x: string, y: string)
    ensures Scan(parse, x + y) == Then(Scan(parse, x), Scan(parse, Scan(parse, x).rest + y))
    decreases |x|
  {
    match IndexOfCharFrom(x, '}', 0)
    case None =>
      ScanEnds(parse, x);
      EmptyAppend(Scan(parse, x + y).values);
    case Some(e) =>
      SameSpanInPrefix(parse, x, y, e);
      match Accept(parse, x[..e + 1])
      case Some(data) =>
        ScanPrefix(parse, x[e + 1..], y);
        ScanAccepts(parse, x, e, data);
        ScanAccepts(parse, x + y, e, data);
        var a := Scan(parse, x[e + 1..]);
        AppendAssoc([data], a.values, Scan(parse, a.rest + y).values);
      case None =>
        ScanPrefix(parse, x[1..], y);
        ScanRejects(parse, x, e);
        ScanRejects(parse, x + y, e);
  }

  /** Text holding no `}` is left as it is: no value, and `startIndex` unchanged. */
  lemma ScanWithoutBrace(parse: Parser, text: string)
    requires forall k :: 0 <= k < |text| ==> text[k] != '}'
    ensures Scan(parse, text) == ScanResult([], text)
  {
  }

  /**
   * What the scan does with `P + Dumps(d) + R` when the parser reads the
   * output of `json.dumps` back and only accepts objects: the candidates
   * starting inside `P` fail until only JSON whitespace separates the scan
   * from the object, which is then accepted whole, and the scan goes on in
   * `R`. This holds as long as neither `P` nor the members of the object
   * contain a brace.
   */
  lemma {:induction false} SegmentScan(parse: Parser, pre: string, d: seq<PyItem>, rest: string)
    requires AcceptsDumps(parse) && ObjectsOnlyFromBrace(parse)
    requires BraceFree(pre) && DictBraceFree(d)
    ensures Scan(parse, pre + Dumps(d) + rest) == ScanResult([ToJson(d)] + Scan(parse, rest).values, Scan(parse, rest).rest)
    decreases |pre|
  {
    var obj := Dumps(d);
    DumpsClosesOnce(d);
    FirstBraceOfSegment(pre, obj, rest);
    if AllJsonWs(pre) {
      assert parse(pre + obj) == Some(ToJson(d));
      SegmentAccept(parse, pre, obj, rest, ToJson(d));
    } else {
      NoBraceLead(pre, obj);
      assert (pre + obj)[|pre + obj| - 1] == '}';
      assert parse(pre + obj).None?;
      SegmentReject(parse, pre, obj, rest);
      SegmentScan(parse, pre[1..], d, rest);
    }
  }

  lemma SegmentAccept(parse: Parser, pre: string, obj: string, rest: string, v: Json)
    requires 0 < |obj| && IndexOfCharFrom(pre + obj + rest, '}', 0) == Some(|pre| + |obj| - 1)
    requires Accept(parse, pre + obj) == Some(v)
    ensures Scan(parse, pre + obj + rest) == ScanResult([v] + Scan(parse, rest).values, Scan(parse, rest).rest)
  {
    var text := pre + obj + rest;
    var e := |pre| + |obj| - 1;
    assert text[..e + 1] == pre + obj;
    assert text[e + 1..] == rest;
    ScanAccepts(parse, text, e, v);
  }

  lemma SegmentReject(parse: Parser, pre: string, obj: string, rest: string)
    requires 0 < |pre| && 0 < |obj| && IndexOfCharFrom(pre + obj + rest, '}', 0) == Some(|pre| + |obj| - 1)
    requires Accept(parse, pre + obj).None?
    ensures Scan(parse, pre + obj + rest) == Scan(parse, pre[1..] + obj + rest)
  {
    SegmentSlices(pre, obj, rest);
    ScanRejects(parse, pre + obj + rest, |pre| + |obj| - 1);
  }

  lemma SegmentSlices(pre: string, obj: string, rest: string)
    requires 0 < |pre|
    ensures (pre + obj + rest)[..|pre| + |obj|] == pre + obj
    ensures (pre + obj + rest)[1..] == pre[1..] + obj + rest
  {
  }

  /** The only `}` of `json.dumps` output with brace-free members is its last character. */
  lemma DumpsClosesOnce(d: seq<PyItem>)
    requires DictBraceFree(d)
    ensures forall k :: 0 <= k < |Dumps(d)| - 1 ==> Dumps(d)[k] != '}'
  {
    var body := DumpsBody(d);
    assert Dumps(d) == "{" + body + "}";
    WrappedClosesOnce(body);
  }

  lemma WrappedClosesOnce(body: string)
    requires Lacks(body, '}')
    ensures forall k :: 0 <= k < |"{" + body + "}"| - 1 ==> ("{" + body + "}")[k] != '}'
  {
    var w := "{" + body + "}";
    forall k | 0 <= k < |w| - 1 ensures w[k] != '}' {
      if 0 < k {
        assert w[k] == body[k - 1];
      }
    }
  }

  lemma FirstBraceOfSegment(pre: string, obj: string, rest: string)
    requires BraceFree(pre) && 0 < |obj| && obj[|obj| - 1] == '}'
    requires forall k :: 0 <= k < |obj| - 1 ==> obj[k] != '}'
    ensures IndexOfCharFrom(pre + obj + rest, '}', 0) == Some(|pre| + |obj| - 1)
  {
    var text := pre + obj + rest;
    forall k | 0 <= k < |pre| + |obj| - 1 ensures text[k] != '}' {
      if k < |pre| {
        assert text[k] == pre[k];
      } else {
        assert text[k] == obj[k - |pre|];
      }
    }
    IndexOfCharFromIs(text, '}', 0, |pre| + |obj| - 1);
  }

  /**
   * One piece of a stream: a JSON object written by `json.dumps`, with
   * brace-free text before and after it.
   */
  datatype Piece = Piece(head: string, d: seq<PyItem>, after: string)

  predicate PieceBraceFree(p: Piece) {
    BraceFree(p.head) && DictBraceFree(p.d) && BraceFree(p.after)
  }

  function PieceText(p: Piece): string {
    p.head + Dumps(p.d) + p.after
  }

  function PieceTexts(ps: seq<Piece>): (r: seq<string>)
    ensures |r| == |ps|
    ensures forall k :: 0 <= k < |ps| ==> r[k] == PieceText(ps[k])
  {
    seq(|ps|, k requires 0 <= k < |ps| => PieceText(ps[k]))
  }

  /** The objects of the pieces as `JSON.parse` reads them back. */
  function PieceValues(ps: seq<Piece>): (r: seq<Json>)
    ensures |r| == |ps|
    ensures forall k :: 0 <= k < |ps| ==> r[k] == ToJson(ps[k].d)
    decreases |ps|
  {
    if |ps| == 0 then [] else [ToJson(ps[0].d)] + PieceValues(ps[1..])
  }

  lemma RegroupPiece(pre: string, h: string, o: string, a: string, c: string)
    ensures pre + ((h + o + a) + c) == (pre + h) + o + (a + c)
  {
  }

  /**
   * A stream made of brace-free pieces scans to exactly their objects, in
   * order, whatever brace-free text comes first, and leaves the text after
   * the last object. This is the case in which the scanner recovers every
   * object the server wrote.
   */
  lemma {:induction false} ScanPieces(parse: Parser, pre: string, ps: seq<Piece>)
    requires AcceptsDumps(parse) && ObjectsOnlyFromBrace(parse)
    requires BraceFree(pre) && forall k :: 0 <= k < |ps| ==> PieceBraceFree(ps[k])
    ensures Scan(parse, pre + Concat(PieceTexts(ps))) == ScanResult(PieceValues(ps), LastAfter(pre, ps))
    decreases |ps|
  {
    if |ps| == 0 {
      assert pre + Concat(PieceTexts(ps)) == pre;
      ScanWithoutBrace(parse, pre);
    } else {
      PiecesBraceFreeTail(ps);
      ScanPieces(parse, ps[0].after, ps[1..]);
      PieceTextsCons(ps);
      ScanOnePiece(parse, pre, ps[0], Concat(PieceTexts(ps[1..])));
      PiecesCons(pre, ps);
    }
  }

  /** The text the scan keeps after the pieces: the text after the last object, or `pre` when there is none. */
  function LastAfter(pre: string, ps: seq<Piece>): string {
    if |ps| == 0 then pre else ps[|ps| - 1].after
  }

  lemma PiecesBraceFreeTail(ps: seq<Piece>)
    requires 0 < |ps| && forall k :: 0 <= k < |ps| ==> PieceBraceFree(ps[k])
    ensures PieceBraceFree(ps[0]) && BraceFree(ps[0].after)
    ensures forall k :: 0 <= k < |ps[1..]| ==> PieceBraceFree(ps[1..][k])
  {
  }

  /** The first object and the rest make up the objects and the kept text of all the pieces. */
  lemma PiecesCons(pre: string, ps: seq<Piece>)
    requires 0 < |ps|
    ensures [ToJson(ps[0].d)] + PieceValues(ps[1..]) == PieceValues(ps)
    ensures LastAfter(ps[0].after, ps[1..]) == LastAfter(pre, ps)
  {
    if 1 < |ps| {
      assert ps[1..][|ps| - 2] == ps[|ps| - 1];
    }
  }

  lemma PieceTextsCons(ps: seq<Piece>)
    requires 0 < |ps|
    ensures Concat(PieceTexts(ps)) == PieceText(ps[0]) + Concat(PieceTexts(ps[1..]))
  {
    assert PieceTexts(ps) == [PieceText(ps[0])] + PieceTexts(ps[1..]);
    ConcatCons(PieceText(ps[0]), PieceTexts(ps[1..]));
  }

  /** Brace-free text, then a piece: its object is accepted and the scan goes on after the object. */
  lemma ScanOnePiece(parse: Parser, pre: string, p: Piece, c: string)
    requires AcceptsDumps(parse) && ObjectsOnlyFromBrace(parse)
    requires BraceFree(pre) && PieceBraceFree(p)
    ensures Scan(parse, pre + (PieceText(p) + c))
            == ScanResult([ToJson(p.d)] + Scan(parse, p.after + c).values, Scan(parse, p.after + c).rest)
  {
    RegroupPiece(pre, p.head, Dumps(p.d), p.after, c);
    LacksAppend(pre, p.head, '{');
    LacksAppend(pre, p.head, '}');
    SegmentScan(parse, pre + p.head, p.d, p.after + c);
  }
}

=== FILE: creation_server.dfy ===
/**
 * The server side of chatbot creation (backend/routers/create_chatbot.py):
 * the page total of the uploaded documents, and the stream that generates
 * the chatbot. The generation calls, the pricing of usage and the clock are
 * outside the model; what they return is given as a `Generation`.
 */
module CreationServer {
  import opened Wrappers
  import opened Strings
  import opened PyJson
  import opened Sse
  import opened CreationScanner

  /** An uploaded PDF once read: its file name and page count. */
  datatype Document = Document(filename: string, pages: nat)

  function Sum(pages: seq<nat>): nat
    decreases |pages|
  {
    if |pages| == 0 then 0 else Sum(pages[..|pages| - 1]) + pages[|pages| - 1]
  }

  function PagesOf(docs: seq<Document>): (r: seq<nat>)
    ensures |r| == |docs| && forall k :: 0 <= k < |docs| ==> r[k] == docs[k].pages
  {
    seq(|docs|, k requires 0 <= k < |docs| => docs[k].pages)
  }

  /**
   * The upload loop of the create and estimation endpoints: every document
   * is kept, in upload order, and `total_pages` is the sum of their page
   * counts.
   */
  method CollectDocuments(names: seq<string>, pageCounts: seq<nat>) returns (docs: seq<Document>, total: nat)
    requires |names| == |pageCounts|
    ensures |docs| == |names|
    ensures forall k :: 0 <= k < |docs| ==> docs[k] == Document(names[k], pageCounts[k])
    ensures total == Sum(pageCounts)
  {
    docs := [];
    total := 0;
    var i := 0;
    while i < |names|
      invariant 0 <= i <= |names|
      invariant |docs| == i
      invariant forall k :: 0 <= k < i ==> docs[k] == Document(names[k], pageCounts[k])
      invariant total == Sum(pageCounts[..i])
    {
      assert pageCounts[..i + 1][..i] == pageCounts[..i];
      docs := docs + [Document(names[i], pageCounts[i])];
      total := total + pageCounts[i];
      i := i + 1;
    }
    assert pageCounts[..i] == pageCounts;
  }

  /** One billed generation step: the usage quantity the model reported, the credits it cost in hundredths, and the clock in seconds. */
  datatype Bill = Bill(usage: nat, hundredths: nat, stamp: int)

  /** What the generation steps returned, and who asked. */
  datatype Generation = Generation(
    chatbotId: string,
    email: string,
    title: string,
    description: string,
    iconBytes: string,
    iconBase64: string,
    prompts: seq<string>,
    titleBill: Bill,
    iconBill: Bill,
    promptsBill: Bill)

  /** The row written by `create_chatbot`. */
  datatype ChatbotRecord = ChatbotRecord(
    id: string,
    createdBy: string,
    title: string,
    description: string,
    icon: string,
    access: string,
    prompts: seq<string>)

  /** What the stream does, in order: text sent to the client, usage stored, the chatbot persisted. */
  datatype Event =
    | Yield(text: string)
    | StoreUsage(user: string, qty: nat)
    | Persist(record: ChatbotRecord)

  /** The four objects the stream sends, each as one line of `json.dumps` output. */
  function IdentityItems(g: Generation): seq<PyItem> {
    [PyItem("title", PStr(g.title)), PyItem("description", PStr(g.description))]
  }

  function IconItems(g: Generation): seq<PyItem> {
    [PyItem("icon", PStr(g.iconBase64))]
  }

  function PromptsItems(g: Generation): seq<PyItem> {
    [PyItem("suggested_prompts", PStrList(g.prompts))]
  }

  function IdItems(g: Generation): seq<PyItem> {
    [PyItem("chatbot_id", PStr(g.chatbotId))]
  }

  function Line(d: seq<PyItem>): string {
    Dumps(d) + "\n"
  }

  function Frame(b: Bill): string {
    CreditFrame(b.stamp, b.hundredths)
  }

  function Record(g: Generation): ChatbotRecord {
    ChatbotRecord(g.chatbotId, g.email, g.title, g.description, g.iconBytes, "private", g.prompts)
  }

  /**
   * The order of `create_chatbot_stream`, over the texts it sends: an
   * object line, then for each of the first three steps the usage stored and
   * its credit event, and the chatbot stored before the id line.
   */
  function Schedule(email: string, lines: seq<string>, bills: seq<Bill>, frames: seq<string>, rec: ChatbotRecord): (r: seq<Event>)
    requires |lines| == 4 && |bills| == 3 && |frames| == 3
    ensures |r| == 11
  {
    StepEvents(email, lines[0], bills[0], frames[0]) + StepEvents(email, lines[1], bills[1], frames[1])
    + StepEvents(email, lines[2], bills[2], frames[2]) + [Persist(rec), Yield(lines[3])]
  }

  /** One generation step: its object line, the usage stored, and the credit event for it. */
  function StepEvents(email: string, line: string, bill: Bill, frame: string): seq<Event> {
    [Yield(line), StoreUsage(email, BilledQty(bill.usage)), Yield(frame)]
  }

  function Objects(g: Generation): seq<seq<PyItem>> {
    [IdentityItems(g), IconItems(g), PromptsItems(g), IdItems(g)]
  }

  function Bills(g: Generation): seq<Bill> {
    [g.titleBill, g.iconBill, g.promptsBill]
  }

  function LinesOf(objs: seq<seq<PyItem>>): (r: seq<string>)
    ensures |r| == |objs| && forall k :: 0 <= k < |objs| ==> r[k] == Line(objs[k])
  {
    seq(|objs|, k requires 0 <= k < |objs| => Line(objs[k]))
  }

  function FramesOf(bills: seq<Bill>): (r: seq<string>)
    ensures |r| == |bills| && forall k :: 0 <= k < |bills| ==> r[k] == Frame(bills[k])
  {
    seq(|bills|, k requires 0 <= k < |bills| => Frame(bills[k]))
  }

  /** `create_chatbot_stream`: what it yields, bills and stores, in order. */
  function CreationEvents(g: Generation): seq<Event> {
    Schedule(g.email, LinesOf(Objects(g)), Bills(g), FramesOf(Bills(g)), Record(g))
  }

  /** The texts sent, in order. */
  function Yields(events: seq<Event>): (r: seq<string>)
    ensures |r| <= |events|
    decreases |events|
  {
    if |events| == 0 then []
    else (if events[0].Yield? then [events[0].text] else []) + Yields(events[1..])
  }

  lemma {:induction false} YieldsAppend(a: seq<Event>, b: seq<Event>)
    ensures Yields(a + b) == Yields(a) + Yields(b)
    decreases |a|
  {
    if |a| == 0 {
      assert a + b == b;
    } else {
      assert (a + b)[0] == a[0];
      assert (a + b)[1..] == a[1..] + b;
      YieldsAppend(a[1..], b);
    }
  }

  /** The stream as the pieces the client's scanner sees: each object with the brace-free text around it. */
  function CreationPieces(g: Generation): seq<Piece> {
    StreamPieces(Objects(g), Bills(g))
  }

  function StreamPieces(objs: seq<seq<PyItem>>, bills: seq<Bill>): (r: seq<Piece>)
    requires |objs| == 4 && |bills| == 3
    ensures |r| == 7
  {
    [LinePieceOf(objs[0]), FramePieceOf(bills[0])] + [LinePieceOf(objs[1]), FramePieceOf(bills[1])]
    + [LinePieceOf(objs[2]), FramePieceOf(bills[2])] + [LinePieceOf(objs[3])]
  }

  function LinePieceOf(d: seq<PyItem>): Piece {
    Piece("", d, "\n")
  }

  function FramePieceOf(b: Bill): Piece {
    Piece(FrameHead(b.stamp), CreditsPayload(b.hundredths), "\n\n")
  }

  /** The schedule sends its lines and frames interleaved, seven texts in all. */
  lemma ScheduleYields(email: string, lines: seq<string>, bills: seq<Bill>, frames: seq<string>, rec: ChatbotRecord)
    requires |lines| == 4 && |bills| == 3 && |frames| == 3
    ensures Yields(Schedule(email, lines, bills, frames, rec))
            == [lines[0], frames[0]] + [lines[1], frames[1]] + [lines[2], frames[2]] + [lines[3]]
  {
    var s0, s1, s2 := StepEvents(email, lines[0], bills[0], frames[0]), StepEvents(email, lines[1], bills[1], frames[1]), StepEvents(email, lines[2], bills[2], frames[2]);
    var last := [Persist(rec), Yield(lines[3])];
    YieldsAppend(s0 + s1 + s2, last);
    YieldsAppend(s0 + s1, s2);
    YieldsAppend(s0, s1);
    StepYields(email, lines[0], bills[0], frames[0]);
    StepYields(email, lines[1], bills[1], frames[1]);
    StepYields(email, lines[2], bills[2], frames[2]);
    assert last[1..][1..] == [];
    assert Yields(last) == [lines[3]];
  }

  lemma StepYields(email: string, line: string, bill: Bill, frame: string)
    ensures Yields(StepEvents(email, line, bill, frame)) == [line, frame]
  {
    var e := StepEvents(email, line, bill, frame);
    assert e[1..][1..][1..] == [];
    assert Yields(e[1..][1..]) == [frame];
    assert Yields(e[1..]) == [frame];
  }

  /**
   * The stream yields exactly seven texts: the title and description, a
   * credit event, the icon, a credit event, the prompts, a credit event,
   * and the chatbot id; each object on its own line.
   */
  lemma SevenYields(g: Generation)
    ensures Yields(CreationEvents(g)) == PieceTexts(CreationPieces(g))
    ensures |Yields(CreationEvents(g))| == 7
  {
    var objs, bills := Objects(g), Bills(g);
    var lines, frames := LinesOf(objs), FramesOf(bills);
    ScheduleYields(g.email, lines, bills, frames, Record(g));
    var p0, p1, p2 := [LinePieceOf(objs[0]), FramePieceOf(bills[0])], [LinePieceOf(objs[1]), FramePieceOf(bills[1])], [LinePieceOf(objs[2]), FramePieceOf(bills[2])];
    var p3 := [LinePieceOf(objs[3])];
    PieceTextsAppend(p0 + p1 + p2, p3);
    PieceTextsAppend(p0 + p1, p2);
    PieceTextsAppend(p0, p1);
    PairTexts(objs[0], bills[0]);
    PairTexts(objs[1], bills[1]);
    PairTexts(objs[2], bills[2]);
    OneText(LinePieceOf(objs[3]));
    LinePiece(objs[3]);
  }

  lemma PieceTextsAppend(a: seq<Piece>, b: seq<Piece>)
    ensures PieceTexts(a + b) == PieceTexts(a) + PieceTexts(b)
  {
  }

  lemma PairTexts(o: seq<PyItem>, b: Bill)
    ensures PieceTexts([LinePieceOf(o), FramePieceOf(b)]) == [Line(o), Frame(b)]
  {
    TwoTexts(LinePieceOf(o), FramePieceOf(b));
    LinePiece(o);
    FramePiece(b);
  }

  lemma TwoTexts(a: Piece, b: Piece)
    ensures PieceTexts([a, b]) == [PieceText(a), PieceText(b)]
  {
  }

  lemma OneText(a: Piece)
    ensures PieceTexts([a]) == [PieceText(a)]
  {
  }

  lemma LinePiece(d: seq<PyItem>)
    ensures PieceText(LinePieceOf(d)) == Line(d)
  {
    assert "" + Dumps(d) == Dumps(d);
  }

  lemma FramePiece(b: Bill)
    ensures Frame(b) == PieceText(FramePieceOf(b))
  {
    CreditFrameParts(b.stamp, b.hundredths);
  }

  /** Every usage stored is immediately followed by the credit event for that step, billed at four times the reported usage. */
  lemma BilledThenFramed(email: string, lines: seq<string>, bills: seq<Bill>, frames: seq<string>, rec: ChatbotRecord, i: nat)
    requires |lines| == 4 && |bills| == 3 && |frames| == 3
    requires i < 11 && Schedule(email, lines, bills, frames, rec)[i].StoreUsage?
    ensures i + 1 < 11
    ensures Schedule(email, lines, bills, frames, rec)[i] == StoreUsage(email, 4 * bills[i / 3].usage)
    ensures Schedule(email, lines, bills, frames, rec)[i + 1] == Yield(frames[i / 3])
  {
  }

  /**
   * The chatbot is stored, private and with the title, description and
   * prompts that were streamed, before its id is sent, which is the last
   * thing the stream does.
   */
  lemma PersistBeforeId(g: Generation)
    ensures var e := CreationEvents(g);
            |e| == 11 && e[9] == Persist(Record(g)) && e[10] == Yield(Line(IdItems(g)))
            && (forall k :: 0 <= k < |e| && k != 9 ==> !e[k].Persist?)
    ensures Record(g).access == "private"
    ensures Record(g).title == g.title && Record(g).description == g.description && Record(g).prompts == g.prompts
  {
    var lines := LinesOf(Objects(g));
    assert lines[3] == Line(IdItems(g));
    ScheduleShape(g.email, lines, Bills(g), FramesOf(Bills(g)), Record(g));
  }

  lemma ScheduleShape(email: string, lines: seq<string>, bills: seq<Bill>, frames: seq<string>, rec: ChatbotRecord)
    requires |lines| == 4 && |bills| == 3 && |frames| == 3
    ensures var e := Schedule(email, lines, bills, frames, rec);
            e[9] == Persist(rec) && e[10] == Yield(lines[3]) && forall k :: 0 <= k < |e| && k != 9 ==> !e[k].Persist?
  {
  }
}

=== FILE: credits.dfy ===
/**
 * The credit ledger of the client (frontend/src/components/auth/UserContext.tsx)
 * and its display (frontend/src/components/ui/CreditsDisplay.tsx). A dollar
 * amount is worth a thousand credits; the remaining credits are the floor of
 * the period's amount minus the floor of what was consumed, both in credits.
 * Amounts are exact reals here: the floating-point rounding of the products
 * is not modelled. The two requests are parameters: what each returned, or
 * how it failed.
 */
module Credits {
  import opened Wrappers
  import opened Strings

  /** The part of the user record the ledger reads. */
  datatype User = User(email: string, periodDollarAmount: real)

  /** How an axios request failed: an HTTP status with the server's `detail`, no response at all, or an error that is not an axios error. */
  datatype Failure = HttpFailure(status: nat, detail: string) | NoResponse | OtherError

  /** What a request gave back. */
  datatype Fetched<T> = Got(value: T) | Rejected(failure: Failure)

  /** `consumed_price` in the credits reply: absent (`undefined`), `null`, or a number. */
  datatype Price = Absent | NullPrice | Price(amount: real)

  /** The ledger's state. */
  datatype Ledger = Ledger(user: Option<User>, remaining: Option<int>, loading: bool, error: Option<string>)

  const SessionExpired := "Session expired. Please log in again."
  const FetchFailed := "Failed to fetch user data"

  /** `Math.floor(1000 * amount)` when the amount is truthy, else 0. */
  function TotalCredits(amount: real): (r: int)
    ensures r as real <= 1000.0 * amount < r as real + 1.0
  {
    if amount == 0.0 then 0 else (1000.0 * amount).Floor
  }

  /** `Math.floor(price * 1000)`, where `null * 1000` is 0. */
  function ConsumedCredits(p: Price): (r: int)
    requires !p.Absent?
    ensures p.NullPrice? ==> r == 0
    ensures p.Price? ==> r as real <= 1000.0 * p.amount < r as real + 1.0
  {
    if p.NullPrice? then 0 else (p.amount * 1000.0).Floor
  }

  /** The total of a user record that may be missing (`userResponse.data?.period_dollar_amount`). */
  function TotalOf(user: Option<User>): (r: int)
    ensures user.None? ==> r == 0
    ensures user.Some? ==> r == TotalCredits(user.value.periodDollarAmount)
  {
    match user
    case None => 0
    case Some(u) => TotalCredits(u.periodDollarAmount)
  }

  /** The message set when a request throws. */
  function ErrorMessage(f: Failure): (r: string)
    ensures r == SessionExpired <==> f.HttpFailure? && (f.status == 401 || f.detail == SessionExpired)
    ensures f.HttpFailure? && f.status != 401 && f.detail != "" ==> r == f.detail
    ensures !f.HttpFailure? ==> r == FetchFailed
  {
    match f
    case HttpFailure(status, detail) =>
      if status == 401 then SessionExpired else if detail != "" then detail else FetchFailed
    case NoResponse => FetchFailed
    case OtherError => FetchFailed
  }

  predicate Unauthorized<T>(r: Fetched<T>) {
    r.Rejected? && r.failure.HttpFailure? && r.failure.status == 401
  }

  /** A request that throws past its own handler: it failed, and not with a 401. */
  predicate Throws<T>(r: Fetched<T>) {
    r.Rejected? && !Unauthorized(r)
  }

  /**
   * `fetchUserData` as written. Without a token everything is cleared and
   * nothing is asked. A 401 on either request clears the user and the
   * credits in its handler and the request then reads as empty data (the
   * credits one as a `null` price); any other failure makes the whole fetch
   * fail with its message, the first failure winning when both fail. After
   * both requests, a user record replaces the user and a price that is
   * present, `null` included, sets the remaining credits.
   */
  function FetchUserData(st: Ledger, token: string, user: Fetched<User>, credits: Fetched<Price>, userFailsFirst: bool): (r: Ledger)
    ensures !r.loading
    ensures token == "" ==> r == Ledger(None, None, false, None)
    ensures token != "" && (Throws(user) || Throws(credits)) ==> r.user.None? && r.remaining.None? && r.error.Some?
    ensures token != "" && !Throws(user) && !Throws(credits) ==> r.error.None?
  {
    if token == "" then Ledger(None, None, false, None)
    else if Throws(user) && (userFailsFirst || !Throws(credits)) then
      Ledger(None, None, false, Some(ErrorMessage(user.failure)))
    else if Throws(credits) then
      Ledger(None, None, false, Some(ErrorMessage(credits.failure)))
    else
      var cleared := if Unauthorized(user) || Unauthorized(credits) then st.(user := None, remaining := None) else st;
      var data := if user.Got? then Some(user.value) else None;
      var price := if credits.Got? then credits.value else NullPrice;
      Ledger(if data.Some? then data else cleared.user,
             if price.Absent? then cleared.remaining else Some(TotalOf(data) - ConsumedCredits(price)),
             false, None)
  }

  /** Both requests answered: the remaining credits are the difference of the two floors, not clamped. */
  lemma RemainingFormula(st: Ledger, token: string, u: User, p: real, userFailsFirst: bool)
    requires token != ""
    ensures var r := FetchUserData(st, token, Got(u), Got(Price(p)), userFailsFirst);
            && r.user == Some(u)
            && r.remaining == Some(TotalCredits(u.periodDollarAmount) - ConsumedCredits(Price(p)))
            && (r.remaining.value < 0 <==> TotalCredits(u.periodDollarAmount) < ConsumedCredits(Price(p)))
  {
  }

  /** A period amount of 2.5 dollars with 1.237 consumed leaves 1263 credits. */
  lemma RemainingExample(st: Ledger)
    ensures FetchUserData(st, "t", Got(User("a@b.co", 2.5)), Got(Price(1.237)), true).remaining == Some(1263)
  {
    assert (1000.0 * 2.5).Floor == 2500;
    assert (1.237 * 1000.0).Floor == 1237;
  }

  /** Consuming more than the period's amount leaves a negative balance. */
  lemma OverdrawnIsNegative(st: Ledger)
    ensures FetchUserData(st, "t", Got(User("a@b.co", 1.0)), Got(Price(1.5)), true).remaining == Some(-500)
  {
    assert (1000.0 * 1.0).Floor == 1000;
    assert (1.5 * 1000.0).Floor == 1500;
  }

  /** A credits reply without `consumed_price` leaves the remaining credits as they were. */
  lemma AbsentPriceKeepsRemaining(st: Ledger, token: string, u: User, userFailsFirst: bool)
    requires token != ""
    ensures FetchUserData(st, token, Got(u), Got(Absent), userFailsFirst).remaining == st.remaining
  {
  }

  /** When both requests throw, the one that fails first decides the message. */
  lemma FirstFailureWins(st: Ledger, token: string, fu: Failure, fc: Failure, userFailsFirst: bool)
    requires token != "" && Throws(Fetched<User>.Rejected(fu)) && Throws(Fetched<Price>.Rejected(fc))
    ensures FetchUserData(st, token, Rejected(fu), Rejected(fc), userFailsFirst).error
            == Some(ErrorMessage(if userFailsFirst then fu else fc))
  {
  }

  /**
   * The 401 branch of the outer handler is never reached: each request
   * handles its own 401, so the session-expired message appears only when
   * the server sends it as a detail.
   */
  lemma SessionExpiredNeverShown(st: Ledger, token: string, user: Fetched<User>, credits: Fetched<Price>, userFailsFirst: bool)
    ensures FetchUserData(st, token, user, credits, userFailsFirst).error == Some(SessionExpired)
            ==> (user.Rejected? && user.failure.HttpFailure? && user.failure.detail == SessionExpired)
                || (credits.Rejected? && credits.failure.HttpFailure? && credits.failure.detail == SessionExpired)
  {
  }

  /** `updateCredits`: nothing without a user; otherwise the remaining credits follow from the user's amount and the price consumed. */
  function UpdateCredits(st: Ledger, consumedPrice: real): (r: Ledger)
    ensures st.user.None? ==> r == st
    ensures st.user.Some? ==> r == st.(remaining := Some(TotalCredits(st.user.value.periodDollarAmount) - ConsumedCredits(Price(consumedPrice))))
  {
    if st.user.None? then st
    else st.(remaining := Some(TotalOf(st.user) - ConsumedCredits(Price(consumedPrice))))
  }

  /** A fetch and a later update with the same price agree on the balance. */
  lemma UpdateAgreesWithFetch(st: Ledger, token: string, u: User, p: real, userFailsFirst: bool)
    requires token != ""
    ensures var fetched := FetchUserData(st, token, Got(u), Got(Price(p)), userFailsFirst);
            UpdateCredits(fetched, p) == fetched
  {
  }

  /**
   * `fetchUserData` as its 401 handlers mean it: a 401 on either request
   * ends with no user and no credits. It differs from the code as written
   * only when a 401 occurs.
   */
  function FetchUserDataIntended(st: Ledger, token: string, user: Fetched<User>, credits: Fetched<Price>, userFailsFirst: bool): (r: Ledger)
    ensures token != "" && !Throws(user) && !Throws(credits) && (Unauthorized(user) || Unauthorized(credits))
            ==> r == Ledger(None, None, false, None)
    ensures !(Unauthorized(user) || Unauthorized(credits)) ==> r == FetchUserData(st, token, user, credits, userFailsFirst)
  {
    var r := FetchUserData(st, token, user, credits, userFailsFirst);
    if token != "" && !Throws(user) && !Throws(credits) && (Unauthorized(user) || Unauthorized(credits)) then
      Ledger(None, None, false, None)
    else r
  }

  /**
   * As written, a 401 on the credits request alone leaves the user signed in
   * with the whole period's credits: the `null` price its handler returns is
   * still "present", and `null * 1000` is 0.
   */
  lemma CreditsUnauthorizedShowsFullBalance(st: Ledger)
    ensures var u := User("a@b.co", 2.5);
            var written := FetchUserData(st, "t", Got(u), Rejected(HttpFailure(401, "")), true);
            var intended := FetchUserDataIntended(st, "t", Got(u), Rejected(HttpFailure(401, "")), true);
            && written.user == Some(u) && written.remaining == Some(2500)
            && intended.user.None? && intended.remaining.None?
  {
    assert (1000.0 * 2.5).Floor == 2500;
  }

  /**
   * With the intended reading, an expired session never shows a balance,
   * and a fetch that ends with a balance had the user's record.
   */
  lemma IntendedBalanceNeedsUser(st: Ledger, token: string, user: Fetched<User>, credits: Fetched<Price>, userFailsFirst: bool)
    requires token != ""
    ensures var r := FetchUserDataIntended(st, token, user, credits, userFailsFirst);
            (Unauthorized(user) || Unauthorized(credits)) ==> r.remaining.None? && r.user.None?
    ensures var r := FetchUserDataIntended(st, token, user, credits, userFailsFirst);
            r.remaining.Some? && r.remaining != st.remaining ==> user.Got? && r.user == Some(user.value)
  {
  }

  /** CreditsDisplay's label: the floor of the remaining credits over the total, or a loading text. */
  function Label(remaining: Option<int>, amount: real): (r: string)
    ensures remaining.None? <==> r == "Loading..."
    ensures remaining.Some? ==> StartsWith(r, IntToString(remaining.value) + " / ")
  {
    match remaining
    case None => "Loading..."
    case Some(n) =>
      var r := IntToString(n) + " / " + IntToString(TotalCredits(amount));
      assert r[..|IntToString(n) + " / "|] == IntToString(n) + " / ";
      assert r[|IntToString(n)| + 1] == '/';
      r
  }

  /** Whether the progress bar is drawn. */
  predicate ShowsProgress(remaining: Option<int>) {
    remaining.Some?
  }

  /** The label can be read back: it determines the remaining credits and the total. */
  lemma LabelReadsBack(a: int, b: int, amountA: real, amountB: real)
    ensures Label(Some(a), amountA) == Label(Some(b), amountB) <==> a == b && TotalCredits(amountA) == TotalCredits(amountB)
  {
    if Label(Some(a), amountA) == Label(Some(b), amountB) {
      NoSpaceInNumber(a);
      NoSpaceInNumber(b);
      SplitBeforeSpace(IntToString(a), IntToString(b), " / ", IntToString(TotalCredits(amountA)), IntToString(TotalCredits(amountB)));
      IntToStringInjective(a, b);
      IntToStringInjective(TotalCredits(amountA), TotalCredits(amountB));
    }
  }

  lemma NoSpaceInNumber(i: int)
    ensures forall k :: 0 <= k < |IntToString(i)| ==> IntToString(i)[k] != ' '
  {
    var r := IntToString(i);
    if i < 0 {
      assert forall k :: 1 <= k < |r| ==> r[k] == r[1..][k - 1];
    }
  }

  lemma IntToStringInjective(a: int, b: int)
    requires IntToString(a) == IntToString(b)
    ensures a == b
  {
    var r := IntToString(a);
    if a < 0 && b < 0 {
      assert DigitsValue(r[1..]) == -a == -b;
    }
  }

  /** The balance a page shows: the label of the ledger's remaining credits against the signed-in user's amount. */
  lemma ShownBalance(st: Ledger, token: string, u: User, p: real, userFailsFirst: bool)
    requires token != ""
    ensures var r := FetchUserData(st, token, Got(u), Got(Price(p)), userFailsFirst);
            Label(r.remaining, u.periodDollarAmount)
            == IntToString(TotalCredits(u.periodDollarAmount) - ConsumedCredits(Price(p))) + " / " + IntToString(TotalCredits(u.periodDollarAmount))
  {
    RemainingFormula(st, token, u, p, userFailsFirst);
  }
}

=== FILE: dashboard.dfy ===
/**
 * The two columns of frontend/src/components/dashboard/ChatbotsSection.tsx:
 * the user's chatbots split by their access into private and public ones.
 */
module Dashboard {
  import opened Strings

  const PublicAccess := "public"

  /** The part of a chatbot the dashboard reads. */
  datatype Chatbot = Chatbot(id: string, title: string, access: string)

  /** A card in a column. */
  datatype Card = CreateCard | EmptyPublicCard | ChatbotCard(id: string)

  predicate IsPublic(c: Chatbot) {
    c.access == PublicAccess
  }

  /** `chatbots.filter(chatbot => chatbot.access !== "public")`. */
  function Private(chatbots: seq<Chatbot>): (r: seq<Chatbot>)
    ensures forall c :: c in r <==> c in chatbots && !IsPublic(c)
    decreases |chatbots|
  {
    if |chatbots| == 0 then []
    else (if IsPublic(chatbots[0]) then [] else [chatbots[0]]) + Private(chatbots[1..])
  }

  /** `chatbots.filter(chatbot => chatbot.access === "public")`. */
  function Public(chatbots: seq<Chatbot>): (r: seq<Chatbot>)
    ensures forall c :: c in r <==> c in chatbots && IsPublic(c)
    decreases |chatbots|
  {
    if |chatbots| == 0 then []
    else (if IsPublic(chatbots[0]) then [chatbots[0]] else []) + Public(chatbots[1..])
  }

  /** Every chatbot lands in exactly one column: the two lists together hold each chatbot as often as the input does. */
  lemma {:induction false} Partition(chatbots: seq<Chatbot>)
    ensures multiset(Private(chatbots)) + multiset(Public(chatbots)) == multiset(chatbots)
    ensures |Private(chatbots)| + |Public(chatbots)| == |chatbots|
    decreases |chatbots|
  {
    if |chatbots| != 0 {
      var t := chatbots[1..];
      Partition(t);
      assert chatbots == [chatbots[0]] + t;
      SortHead(chatbots[0], IsPublic(chatbots[0]), Private(t), Public(t), t);
      if IsPublic(chatbots[0]) {
        assert Private(chatbots) == Private(t) && Public(chatbots) == [chatbots[0]] + Public(t);
      } else {
        assert Private(chatbots) == [chatbots[0]] + Private(t) && Public(chatbots) == Public(t);
      }
    }
  }

  /** The private filter keeps the order of the input. */
  lemma {:induction false} PrivateKeepsOrder(a: seq<Chatbot>, b: seq<Chatbot>)
    ensures Private(a + b) == Private(a) + Private(b)
    decreases |a|
  {
    if |a| == 0 {
      assert a + b == b;
    } else {
      var head := if IsPublic(a[0]) then [] else [a[0]];
      assert (a + b)[1..] == a[1..] + b;
      PrivateKeepsOrder(a[1..], b);
      assert Private(a + b) == head + (Private(a[1..]) + Private(b));
      AppendAssoc(head, Private(a[1..]), Private(b));
    }
  }

  /** The public filter keeps the order of the input. */
  lemma {:induction false} PublicKeepsOrder(a: seq<Chatbot>, b: seq<Chatbot>)
    ensures Public(a + b) == Public(a) + Public(b)
    decreases |a|
  {
    if |a| == 0 {
      assert a + b == b;
    } else {
      var head := if IsPublic(a[0]) then [a[0]] else [];
      assert (a + b)[1..] == a[1..] + b;
      PublicKeepsOrder(a[1..], b);
      assert Public(a + b) == head + (Public(a[1..]) + Public(b));
      AppendAssoc(head, Public(a[1..]), Public(b));
    }
  }

  /** A chatbot waiting for public approval is still private. */
  lemma PendingIsPrivate(c: Chatbot)
    requires c.access == "pending_public_request"
    ensures Private([c]) == [c] && Public([c]) == []
  {
  }

  function Cards(chatbots: seq<Chatbot>): (r: seq<Card>)
    ensures |r| == |chatbots| && forall k :: 0 <= k < |r| ==> r[k] == ChatbotCard(chatbots[k].id)
  {
    seq(|chatbots|, k requires 0 <= k < |chatbots| => ChatbotCard(chatbots[k].id))
  }

  /** The private column always starts with the card that creates a chatbot. */
  function PrivateColumn(chatbots: seq<Chatbot>): (r: seq<Card>)
    ensures |r| == 1 + |Private(chatbots)| && r[0] == CreateCard
    ensures r[1..] == Cards(Private(chatbots))
  {
    [CreateCard] + Cards(Private(chatbots))
  }

  /** The public column shows the empty-state card when there is no public chatbot. */
  function PublicColumn(chatbots: seq<Chatbot>): (r: seq<Card>)
    ensures |Public(chatbots)| == 0 <==> r == [EmptyPublicCard]
    ensures 0 < |Public(chatbots)| ==> r == Cards(Public(chatbots))
  {
    var p := Public(chatbots);
    if |p| == 0 then [EmptyPublicCard]
    else
      assert Cards(p)[0] != EmptyPublicCard;
      Cards(p)
  }

  /** Each chatbot has exactly one card, in the column its access decides. */
  lemma OneCardEach(chatbots: seq<Chatbot>, c: Chatbot)
    requires c in chatbots
    ensures ChatbotCard(c.id) in PrivateColumn(chatbots) || ChatbotCard(c.id) in PublicColumn(chatbots)
    ensures IsPublic(c) ==> ChatbotCard(c.id) in PublicColumn(chatbots)
    ensures !IsPublic(c) ==> ChatbotCard(c.id) in PrivateColumn(chatbots)
  {
    if IsPublic(c) {
      var p := Public(chatbots);
      var k :| 0 <= k < |p| && p[k] == c;
      assert PublicColumn(chatbots)[k] == ChatbotCard(c.id);
    } else {
      var p := Private(chatbots);
      var k :| 0 <= k < |p| && p[k] == c;
      assert PrivateColumn(chatbots)[k + 1] == ChatbotCard(c.id);
    }
  }
}

=== FILE: document_selector.dfy ===
/**
 * The document picker of frontend/src/components/chat/DocumentSelector.tsx:
 * the label of its button, and the two footer buttons that select every
 * document or none.
 */
module DocumentSelector {
  import opened Strings

  datatype Document = Document(id: string, filename: string)

  const AllLabel := "Available Documents"

  /** The button's label: only the two counts matter, never which documents are chosen. */
  function Label(selected: nat, total: nat): (r: string)
    ensures selected == total <==> r == AllLabel
    ensures selected != total ==> StartsWith(r, NatToString(selected) + " of ")
  {
    if selected == total then AllLabel
    else
      var r := NatToString(selected) + " of " + NatToString(total) + " Documents";
      assert IsDigit(r[0]) && !IsDigit(AllLabel[0]);
      r
  }

  lemma NoSpaceInNat(n: nat)
    ensures forall k :: 0 <= k < |NatToString(n)| ==> NatToString(n)[k] != ' '
  {
  }

  /** A partial selection's label gives back both counts. */
  lemma LabelReadsBack(selectedA: nat, totalA: nat, selectedB: nat, totalB: nat)
    requires selectedA != totalA && selectedB != totalB
    requires Label(selectedA, totalA) == Label(selectedB, totalB)
    ensures selectedA == selectedB && totalA == totalB
  {
    var suffix := " Documents";
    var x := NatToString(totalA) + suffix;
    var y := NatToString(totalB) + suffix;
    NoSpaceInNat(selectedA);
    NoSpaceInNat(selectedB);
    AppendAssoc(NatToString(selectedA) + " of ", NatToString(totalA), suffix);
    AppendAssoc(NatToString(selectedB) + " of ", NatToString(totalB), suffix);
    SplitBeforeSpace(NatToString(selectedA), NatToString(selectedB), " of ", x, y);
    NatToStringInjective(selectedA, selectedB);
    assert |NatToString(totalA)| == |NatToString(totalB)|;
    assert NatToString(totalA) == x[..|NatToString(totalA)|];
    assert NatToString(totalB) == y[..|NatToString(totalB)|];
    NatToStringInjective(totalA, totalB);
  }

  function Ids(documents: seq<Document>): (r: seq<string>)
    ensures |r| == |documents| && forall k :: 0 <= k < |r| ==> r[k] == documents[k].id
  {
    seq(|documents|, k requires 0 <= k < |documents| => documents[k].id)
  }

  /** "Select All": every document's id, in the list's order. */
  function SelectAll(documents: seq<Document>): (r: seq<string>)
    ensures |r| == |documents| && forall k :: 0 <= k < |r| ==> r[k] == documents[k].id
    ensures forall d :: d in documents ==> d.id in r
    ensures forall id :: id in r ==> exists d :: d in documents && d.id == id
  {
    var r := Ids(documents);
    assert forall d :: d in documents ==> d.id in r by {
      forall d | d in documents ensures d.id in r {
        var k :| 0 <= k < |documents| && documents[k] == d;
        assert r[k] == d.id;
      }
    }
    r
  }

  /** "Clear All": nothing selected. */
  function ClearAll(documents: seq<Document>): (r: seq<string>)
    ensures forall id :: id !in r
  {
    []
  }

  /** After "Select All" the button reads "Available Documents"; after "Clear All" it counts none, unless there are no documents. */
  lemma FooterLabels(documents: seq<Document>)
    ensures Label(|SelectAll(documents)|, |documents|) == AllLabel
    ensures 0 < |documents| ==> Label(|ClearAll(documents)|, |documents|) == "0 of " + NatToString(|documents|) + " Documents"
    ensures |documents| == 0 ==> Label(|ClearAll(documents)|, |documents|) == AllLabel
  {
  }
}

=== FILE: file_uploader.dfy ===
/**
 * The upload card of frontend/src/components/create-chatbot/FileUploader.tsx:
 * the limit warnings above the drop zone, the size shown for each file, and
 * the create button. The list itself and its guards are CreationClient's.
 */
module FileUploader {
  import opened Wrappers
  import opened Strings
  import opened Json
  import opened CreationScanner
  import opened CreationClient

  const MiB := 1024 * 1024

  /** The warning box: empty when hidden, otherwise one line per limit exceeded, the file count first. */
  function Warnings(fileCount: nat, totalPages: int): (r: seq<string>)
    ensures r == [] <==> fileCount <= MaxFiles && totalPages <= MaxPages
    ensures |r| == (if fileCount > MaxFiles then 1 else 0) + (if totalPages > MaxPages then 1 else 0)
    ensures fileCount > MaxFiles ==> r[0] == ExcessFilesMessage(fileCount - MaxFiles)
    ensures totalPages > MaxPages ==> r[|r| - 1] == PagesMessage(totalPages)
  {
    var files := if fileCount > MaxFiles then [ExcessFilesMessage(fileCount - MaxFiles)] else [];
    var pages := if totalPages > MaxPages then [PagesMessage(totalPages)] else [];
    files + pages
  }

  function ExcessFilesMessage(excess: int): string {
    "Maximum 20 documents allowed. Please remove " + IntToString(excess) + " document(s)."
  }

  function PagesMessage(totalPages: int): string {
    "Maximum 200 pages allowed. Current total: " + IntToString(totalPages) + " pages. Please remove some documents."
  }

  /** The excess the message asks to remove is exactly what clears it. */
  lemma RemovingExcessClears(fileCount: nat, totalPages: int)
    requires fileCount > MaxFiles && totalPages <= MaxPages
    ensures Warnings(fileCount, totalPages) == [ExcessFilesMessage(fileCount - MaxFiles)]
    ensures Warnings(fileCount - (fileCount - MaxFiles), totalPages) == []
    ensures Warnings(fileCount - (fileCount - MaxFiles) + 1, totalPages) != []
  {
  }

  /** A list built by drops and picks from at most 20 files never shows the count warning. */
  lemma NoCountWarningAfterAdding(files: seq<Upload>, added: seq<Upload>, totalPages: int)
    requires |files| <= MaxFiles
    ensures var w := Warnings(|HandleNewFiles(files, added).files|, totalPages);
            w == [] || w == [PagesMessage(totalPages)]
  {
  }

  /** A page warning still leaves the create button on, and pressing it is refused for the pages. */
  lemma PagesWarningThenRefused(parse: Parser, files: seq<Upload>, credits: int, totalPages: int, response: CreateResponse)
    requires 0 < |files| && 0 < credits && totalPages > MaxPages
    ensures PagesMessage(totalPages) in Warnings(|files|, totalPages)
    ensures CreateButton(|files|).enabled
    ensures HandleCreateChatbot(parse, files, Some(credits), totalPages, response) == Refused(TooManyPages)
  {
    var w := Warnings(|files|, totalPages);
    assert w[|w| - 1] == PagesMessage(totalPages);
  }

  /** `Math.ceil(file.size / (1024 * 1024))`: whole mebibytes, rounded up. */
  function SizeMb(size: nat): (r: nat)
    ensures size <= r * MiB < size + MiB
    ensures r == 0 <==> size == 0
  {
    (size + MiB - 1) / MiB
  }

  /** One byte over a whole number of mebibytes shows one more. */
  lemma SizeMbSteps(n: nat)
    ensures SizeMb(n * MiB) == n
    ensures SizeMb(n * MiB + 1) == n + 1
  {
  }

  datatype Button = Button(enabled: bool, caption: string, checkIcon: bool)

  /** The create button: enabled, labelled and marked only by whether there is a file; the limits do not disable it. */
  function CreateButton(fileCount: nat): (r: Button)
    ensures r.enabled <==> fileCount > 0
    ensures r.checkIcon == r.enabled
    ensures r.caption == (if r.enabled then "Create Chat Bot" else "Upload Documents to Continue")
  {
    if fileCount > 0 then Button(true, "Create Chat Bot", true)
    else Button(false, "Upload Documents to Continue", false)
  }

  /** The card takes no input while a chatbot is being created or once it is. */
  function Interactive(creating: bool, complete: bool): (r: bool)
    ensures r <==> !creating && !complete
  {
    !(creating || complete)
  }

  /**
   * The card after a create request: an unbroken stream leaves it locked
   * whatever it carried, either still creating or complete; after an error
   * status it takes input again, and after a broken stream it does exactly
   * when no chatbot id had arrived.
   */
  lemma CardAfterCreate(parse: Parser, files: seq<Upload>, remainingCredits: Option<int>, totalPages: int, response: CreateResponse)
    ensures var r := HandleCreateChatbot(parse, files, remainingCredits, totalPages, response);
            r.Ran? && response.NotOk? ==> Interactive(r.view.creating, r.view.complete)
    ensures var r := HandleCreateChatbot(parse, files, remainingCredits, totalPages, response);
            r.Ran? && response.Streamed? && !response.broken ==> !Interactive(r.view.creating, r.view.complete)
    ensures var r := HandleCreateChatbot(parse, files, remainingCredits, totalPages, response);
            r.Ran? && response.Streamed? && response.broken ==>
              var values := Scan(parse, Concat(response.chunks)).values;
              (Interactive(r.view.creating, r.view.complete) <==> forall k :: 0 <= k < |values| ==> !StageOf(values[k]).Created?)
  {
    var r := HandleCreateChatbot(parse, files, remainingCredits, totalPages, response);
    if r.Ran? && response.Streamed? {
      var values := Scan(parse, Concat(response.chunks)).values;
      var v := ClassifyAll(Started, values);
      CompleteIffId(Started, values);
      assert r.view.complete == v.complete by {
        assert r.view.(creating := true).complete == v.(creating := true).complete;
      }
      if !response.broken {
        assert r.view == v;
      } else {
        assert !r.view.creating;
      }
    }
  }
}

=== FILE: json.dfy ===
/**
 * Parsed JSON values as the client sees them after `JSON.parse`, with
 * JavaScript's property reads and truthiness. The parser itself is a
 * parameter of every operation that calls it; the facts the model assumes
 * about it are the ghost predicates at the end of this module.
 */
module Json {
  import opened Wrappers
  import opened Strings

  datatype Json =
    | Null
    | Bool(b: bool)
    | Num(n: real)
    | Str(s: string)
    | Arr(items: seq<Json>)
    | Obj(members: seq<Member>)

  datatype Member = Member(key: string, value: Json)

  /** The value an object built by `JSON.parse` holds under `key`: the last member with that key wins. */
  function Lookup(members: seq<Member>, key: string): (r: Option<Json>)
    ensures r.None? <==> forall i :: 0 <= i < |members| ==> members[i].key != key
    ensures r.Some? ==> exists i :: 0 <= i < |members| && members[i].key == key && members[i].value == r.value
                                    && forall j :: i < j < |members| ==> members[j].key != key
    decreases |members|
  {
    if |members| == 0 then None
    else
      var last := members[|members| - 1];
      if last.key == key then Some(last.value)
      else
        var r := Lookup(members[..|members| - 1], key);
        LookupPastLast(members, key, r);
        r
  }

  /** A key the last member does not carry is found exactly where it is found without that member. */
  lemma LookupPastLast(members: seq<Member>, key: string, r: Option<Json>)
    requires 0 < |members| && members[|members| - 1].key != key
    requires var init := members[..|members| - 1];
             && (r.None? <==> forall i :: 0 <= i < |init| ==> init[i].key != key)
             && (r.Some? ==> exists i :: 0 <= i < |init| && init[i].key == key && init[i].value == r.value
                                         && forall j :: i < j < |init| ==> init[j].key != key)
    ensures r.None? <==> forall i :: 0 <= i < |members| ==> members[i].key != key
    ensures r.Some? ==> exists i :: 0 <= i < |members| && members[i].key == key && members[i].value == r.value
                                    && forall j :: i < j < |members| ==> members[j].key != key
  {
    var init := members[..|members| - 1];
    assert forall i :: 0 <= i < |init| ==> init[i] == members[i];
    if r.Some? {
      var i :| 0 <= i < |init| && init[i].key == key && init[i].value == r.value
               && forall j :: i < j < |init| ==> init[j].key != key;
      assert members[i].key == key && members[i].value == r.value;
    }
  }

  /** A one-member object: its key gives the value, any other key nothing. */
  lemma LookupOne(k: string, v: Json, key: string)
    ensures Lookup([Member(k, v)], key) == if key == k then Some(v) else None
  {
    assert [Member(k, v)][..0] == [];
  }

  /** A two-member object: the later member wins on a shared key. */
  lemma LookupTwo(k0: string, v0: Json, k1: string, v1: Json, key: string)
    ensures Lookup([Member(k0, v0), Member(k1, v1)], key) == if key == k1 then Some(v1) else if key == k0 then Some(v0) else None
  {
    assert [Member(k0, v0), Member(k1, v1)][..1] == [Member(k0, v0)];
    LookupOne(k0, v0, key);
  }

  /** `v.key` for a parsed value other than `null` (reading a property of `null` throws); `None` is `undefined`. */
  function Prop(v: Json, key: string): Option<Json>
    requires !v.Null?
  {
    if v.Obj? then Lookup(v.members, key) else None
  }

  /** JavaScript truthiness of a property read: `undefined`, `null`, `false`, `0` and `""` are falsy. */
  predicate Truthy(o: Option<Json>) {
    match o
    case None => false
    case Some(v) =>
      match v
      case Null => false
      case Bool(b) => b
      case Num(n) => n != 0.0
      case Str(s) => s != ""
      case Arr(_) => true
      case Obj(_) => true
  }

  /** `JSON.parse` as a partial function: `None` is a thrown `SyntaxError`. */
  type Parser = string -> Option<Json>

  /** Insignificant whitespace of RFC 8259, section 2. */
  predicate IsJsonWs(c: char) {
    c == ' ' || c == '\t' || c == '\n' || c == '\r'
  }

  predicate AllJsonWs(s: string) {
    forall i :: 0 <= i < |s| ==> IsJsonWs(s[i])
  }

  /** After leading JSON whitespace, the first character of `s` is `{`. */
  predicate LeadsWithBrace(s: string)
    decreases |s|
  {
    0 < |s| && (s[0] == '{' || (IsJsonWs(s[0]) && LeadsWithBrace(s[1..])))
  }

  /**
   * A text that ends in `}` and parses is an object, so after leading
   * whitespace it opens with `{` (RFC 8259, sections 2 and 4). In particular
   * a text starting with `event:` never parses.
   */
  ghost predicate ObjectsOnlyFromBrace(parse: Parser) {
    forall s :: parse(s).Some? && 0 < |s| && s[|s| - 1] == '}' ==> LeadsWithBrace(s)
  }

  /** A prefix holding something other than whitespace and no `{` cannot be skipped on the way to a `{`. */
  lemma {:induction false} NoBraceLead(x: string, y: string)
    requires !AllJsonWs(x) && Lacks(x, '{')
    ensures !LeadsWithBrace(x + y)
    decreases |x|
  {
    assert 0 < |x|;
    assert (x + y)[0] == x[0];
    if IsJsonWs(x[0]) {
      assert (x + y)[1..] == x[1..] + y;
      assert !AllJsonWs(x[1..]) by {
        var i :| 0 <= i < |x| && !IsJsonWs(x[i]);
        assert x[1..][i - 1] == x[i];
      }
      NoBraceLead(x[1..], y);
    }
  }
}

/**
 * Python's `json.dumps` for the dictionaries the server streams: string,
 * list-of-string and two-decimal float values, default separators `", "` and
 * `": "`, and `ensure_ascii` escaping.
 */
module PyJson {
  import opened Wrappers
  import opened Strings
  import opened Json

  datatype PyValue =
    | PStr(s: string)
    | PStrList(items: seq<string>)
      /** A float produced by `round(x, 2)`, held as a whole number of hundredths. */
    | PFloat(hundredths: nat)

  datatype PyItem = PyItem(key: string, value: PyValue)

  function HexDigit(n: nat): (c: char)
    requires n < 16
    ensures IsDigit(c) || 'a' <= c <= 'f'
  {
    "0123456789abcdef"[n]
  }

  /** Four lower-case hex digits, as in `'\\u{0:04x}'`. */
  function Hex4(n: nat): (r: string)
    requires n < 0x10000
    ensures |r| == 4 && BraceFree(r) && Lacks(r, '\n') && Lacks(r, '"')
  {
    [HexDigit(n / 0x1000), HexDigit(n / 0x100 % 16), HexDigit(n / 16 % 16), HexDigit(n % 16)]
  }

  /** The escape `json.dumps` writes for one character (`ensure_ascii=True`). */
  function EscapeChar(c: char): (r: string)
    ensures BraceFree(r) <==> c != '{' && c != '}'
    ensures Lacks(r, '\n')
  {
    if c == '"' then "\\\""
    else if c == '\\' then "\\\\"
    else if c == '\n' then "\\n"
    else if c == '\r' then "\\r"
    else if c == '\t' then "\\t"
    else if c == '\U{8}' then "\\b"
    else if c == '\U{C}' then "\\f"
    else if ' ' <= c <= '~' then
      assert [c][0] == c;
      [c]
    else if (c as int) < 0x10000 then "\\u" + Hex4(c as int)
    else
      var v := (c as int) - 0x10000;
      "\\u" + Hex4(0xD800 + v / 0x400) + "\\u" + Hex4(0xDC00 + v % 0x400)
  }

  /** The body of a JSON string literal for `s`. */
  function Escape(s: string): (r: string)
    ensures Lacks(r, '\n')
    ensures BraceFree(s) ==> BraceFree(r)
    decreases |s|
  {
    if |s| == 0 then ""
    else
      var head := EscapeChar(s[0]);
      var tail := Escape(s[1..]);
      LacksAppend(head, tail, '\n');
      LacksAppend(head, tail, '{');
      LacksAppend(head, tail, '}');
      assert BraceFree(s) ==> BraceFree(s[1..]) && s[0] != '{' && s[0] != '}';
      head + tail
  }

  function DumpsStr(s: string): (r: string)
    ensures Lacks(r, '\n')
    ensures BraceFree(s) ==> BraceFree(r)
  {
    var e := Escape(s);
    LacksAppend("\"", e, '\n');
    LacksAppend("\"" + e, "\"", '\n');
    LacksAppend("\"", e, '{');
    LacksAppend("\"" + e, "\"", '{');
    LacksAppend("\"", e, '}');
    LacksAppend("\"" + e, "\"", '}');
    "\"" + e + "\""
  }

  /** Python's `repr` of a float with at most two decimals, below 10^16: `12.0`, `1.5`, `0.07`. */
  function FloatRepr(hundredths: nat): (r: string)
    ensures BraceFree(r) && Lacks(r, '\n')
  {
    var whole := NatToString(hundredths / 100);
    var frac := hundredths % 100;
    var r := whole + "." + (if frac % 10 == 0 then [DigitChar(frac / 10)] else [DigitChar(frac / 10), DigitChar(frac % 10)]);
    DigitsAreBraceFree(whole);
    r
  }

  predicate StringsBraceFree(items: seq<string>) {
    forall k :: 0 <= k < |items| ==> BraceFree(items[k])
  }

  /** Every key and every string held by the value is free of braces. */
  predicate ValueBraceFree(v: PyValue) {
    match v
    case PStr(s) => BraceFree(s)
    case PStrList(items) => StringsBraceFree(items)
    case PFloat(_) => true
  }

  predicate DictBraceFree(d: seq<PyItem>) {
    forall k :: 0 <= k < |d| ==> BraceFree(d[k].key) && ValueBraceFree(d[k].value)
  }

  function DumpsValue(v: PyValue): (r: string)
    ensures Lacks(r, '\n')
    ensures ValueBraceFree(v) ==> BraceFree(r)
  {
    match v
    case PStr(s) => DumpsStr(s)
    case PFloat(h) => FloatRepr(h)
    case PStrList(items) =>
      var parts := seq(|items|, k requires 0 <= k < |items| => DumpsStr(items[k]));
      var body := Join(parts, ", ");
      JoinLacks(parts, ", ", '\n');
      JoinBraceFreeIf(parts, ValueBraceFree(v));
      LacksAppend("[", body, '\n');
      LacksAppend("[" + body, "]", '\n');
      LacksAppend("[", body, '{');
      LacksAppend("[" + body, "]", '{');
      LacksAppend("[", body, '}');
      LacksAppend("[" + body, "]", '}');
      "[" + body + "]"
  }

  function DumpsItem(item: PyItem): (r: string)
    ensures Lacks(r, '\n')
    ensures BraceFree(item.key) && ValueBraceFree(item.value) ==> BraceFree(r)
  {
    var k := DumpsStr(item.key);
    var v := DumpsValue(item.value);
    LacksAppend(k, ": ", '\n');
    LacksAppend(k + ": ", v, '\n');
    LacksAppend(k, ": ", '{');
    LacksAppend(k + ": ", v, '{');
    LacksAppend(k, ": ", '}');
    LacksAppend(k + ": ", v, '}');
    k + ": " + v
  }

  /** When `cond` guarantees brace-free parts, the comma-joined text is brace-free too. */
  lemma JoinBraceFreeIf(parts: seq<string>, cond: bool)
    requires cond ==> forall k :: 0 <= k < |parts| ==> BraceFree(parts[k])
    ensures cond ==> BraceFree(Join(parts, ", "))
  {
    if cond {
      JoinLacks(parts, ", ", '{');
      JoinLacks(parts, ", ", '}');
    }
  }

  /** The members of the object literal, between its braces. */
  function DumpsBody(d: seq<PyItem>): (r: string)
    ensures Lacks(r, '\n')
    ensures DictBraceFree(d) ==> BraceFree(r)
  {
    var parts := seq(|d|, k requires 0 <= k < |d| => DumpsItem(d[k]));
    JoinLacks(parts, ", ", '\n');
    JoinBraceFreeIf(parts, DictBraceFree(d));
    Join(parts, ", ")
  }

  /** `json.dumps(d)`: one object literal on one line. */
  function Dumps(d: seq<PyItem>): (r: string)
    ensures Lacks(r, '\n')
    ensures 2 <= |r| && r[0] == '{' && r[|r| - 1] == '}'
  {
    var body := DumpsBody(d);
    LacksAppend("{", body, '\n');
    LacksAppend("{" + body, "}", '\n');
    "{" + body + "}"
  }

  /** The value `JSON.parse` builds from `Dumps(d)`. */
  function ToJson(d: seq<PyItem>): (r: Json)
    ensures r.Obj? && |r.members| == |d|
  {
    Obj(seq(|d|, k requires 0 <= k < |d| => Member(d[k].key, ValueToJson(d[k].value))))
  }

  function ValueToJson(v: PyValue): Json {
    match v
    case PStr(s) => Str(s)
    case PStrList(items) => Arr(seq(|items|, k requires 0 <= k < |items| => Str(items[k])))
    case PFloat(h) => Num(h as real / 100.0)
  }

  /**
   * `JSON.parse` reads back what `json.dumps` wrote, after any leading
   * whitespace (RFC 8259, section 2).
   */
  ghost predicate AcceptsDumps(parse: Parser) {
    forall w, d :: AllJsonWs(w) ==> parse(w + Dumps(d)) == Some(ToJson(d))
  }

  /** With no leading whitespace: `JSON.parse(json.dumps(d))` is `d`. */
  lemma DumpsParses(parse: Parser, d: seq<PyItem>)
    requires AcceptsDumps(parse)
    ensures parse(Dumps(d)) == Some(ToJson(d))
  {
    var w := "";
    assert AllJsonWs(w);
    assert w + Dumps(d) == Dumps(d);
  }
}

=== FILE: login.dfy ===
/**
 * The sign-in and sign-up forms of frontend/src/pages/Login.tsx: the checks
 * `validateForm` makes before anything is sent, field edits, and the guard
 * that stops a submit when a check fails.
 */
module Login {
  import opened Wrappers
  import opened Strings

  /** A form's fields; the name fields exist only on the sign-up form. */
  datatype FormData = FormData(email: string, password: string, firstName: Option<string>, lastName: Option<string>)

  /** The message recorded for each field, if any. */
  datatype FormErrors = FormErrors(email: Option<string>, password: Option<string>, firstName: Option<string>, lastName: Option<string>)

  datatype Field = EmailField | PasswordField | FirstNameField | LastNameField

  const EmailRequired := "Email is required"
  const InvalidEmail := "Invalid email address"
  const PasswordRequired := "Password is required"
  const PasswordTooShort := "Password must be at least 8 characters"
  const FirstNameRequired := "First name is required"
  const LastNameRequired := "Last name is required"
  const MinPasswordLength := 8

  predicate IsLetter(c: char) {
    'A' <= c <= 'Z' || 'a' <= c <= 'z'
  }

  /** `[A-Z0-9._%+-]` under the `i` flag. */
  predicate LocalChar(c: char) {
    IsLetter(c) || IsDigit(c) || c == '.' || c == '_' || c == '%' || c == '+' || c == '-'
  }

  /** `[A-Z0-9.-]` under the `i` flag. */
  predicate DomainChar(c: char) {
    IsLetter(c) || IsDigit(c) || c == '.' || c == '-'
  }

  /**
   * One way for `s` to match `^[A-Z0-9._%+-]+@[A-Z0-9.-]+\.[A-Z]{2,}$`:
   * the `@` at `at`, the `.` before the top-level part at `dot`.
   */
  predicate EmailSplit(s: string, at: int, dot: int) {
    && 0 < at && at + 1 < dot && dot + 3 <= |s|
    && s[at] == '@' && s[dot] == '.'
    && (forall k :: 0 <= k < at ==> LocalChar(s[k]))
    && (forall k :: at < k < dot ==> DomainChar(s[k]))
    && (forall k :: dot < k < |s| ==> IsLetter(s[k]))
  }

  /** The pattern's meaning: some split matches. */
  ghost predicate EmailPattern(s: string) {
    exists at, dot :: EmailSplit(s, at, dot)
  }

  /** The last index holding `c`. */
  function LastIndexOfChar(s: string, c: char): (r: Option<nat>)
    ensures r.Some? ==> r.value < |s| && s[r.value] == c && forall k :: r.value < k < |s| ==> s[k] != c
    ensures r.None? ==> forall k :: 0 <= k < |s| ==> s[k] != c
    decreases |s|
  {
    if |s| == 0 then None
    else if s[|s| - 1] == c then Some(|s| - 1)
    else LastIndexOfChar(s[..|s| - 1], c)
  }

  /**
   * The pattern decided directly: neither character class holds `@`, so
   * the `@` is the first one; the top-level part holds letters only, so its
   * dot is the last one.
   */
  function MatchesEmail(s: string): (r: bool)
  {
    match IndexOfCharFrom(s, '@', 0)
    case None => false
    case Some(at) =>
      match LastIndexOfChar(s, '.')
      case None => false
      case Some(dot) =>
        && 0 < at && at + 1 < dot && dot + 3 <= |s|
        && (forall k :: 0 <= k < at ==> LocalChar(s[k]))
        && (forall k :: at < k < dot ==> DomainChar(s[k]))
        && (forall k :: dot < k < |s| ==> IsLetter(s[k]))
  }

  /** The direct decision agrees with the pattern, in both directions. */
  lemma MatchesEmailIsPattern(s: string)
    ensures MatchesEmail(s) <==> EmailPattern(s)
  {
    if MatchesEmail(s) {
      var at := IndexOfCharFrom(s, '@', 0).value;
      var dot := LastIndexOfChar(s, '.').value;
      assert EmailSplit(s, at, dot);
    }
    if EmailPattern(s) {
      var at, dot :| EmailSplit(s, at, dot);
      SplitIsFound(s, at, dot);
    }
  }

  lemma SplitIsFound(s: string, at: int, dot: int)
    requires EmailSplit(s, at, dot)
    ensures IndexOfCharFrom(s, '@', 0) == Some(at)
    ensures LastIndexOfChar(s, '.') == Some(dot)
  {
  }

  /** The message of the email field: required, then the pattern. */
  function EmailError(email: string): (r: Option<string>)
    ensures r.None? <==> email != "" && EmailPattern(email)
    ensures email == "" <==> r == Some(EmailRequired)
  {
    MatchesEmailIsPattern(email);
    if email == "" then Some(EmailRequired)
    else if !MatchesEmail(email) then Some(InvalidEmail)
    else None
  }

  /** The message of the password field: required, then at least eight UTF-16 code units. */
  function PasswordError(password: string): (r: Option<string>)
    ensures r.None? <==> MinPasswordLength <= Utf16Length(password)
    ensures password == "" <==> r == Some(PasswordRequired)
  {
    if password == "" then Some(PasswordRequired)
    else if Utf16Length(password) < MinPasswordLength then Some(PasswordTooShort)
    else None
  }

  /** A name field is checked only when the form has it. */
  function NameError(name: Option<string>, message: string): (r: Option<string>)
    ensures r.Some? <==> name == Some("")
    ensures r.Some? ==> r.value == message
  {
    if name.Some? && name.value == "" then Some(message) else None
  }

  /** `validateForm`: the errors recorded, and whether there are none. */
  function ValidateForm(f: FormData): (r: (bool, FormErrors))
    ensures r.0 <==> r.1 == FormErrors(None, None, None, None)
    ensures r.1.email == EmailError(f.email) && r.1.password == PasswordError(f.password)
    ensures r.1.firstName.Some? <==> f.firstName == Some("")
    ensures r.1.lastName.Some? <==> f.lastName == Some("")
  {
    var e := FormErrors(EmailError(f.email), PasswordError(f.password),
                        NameError(f.firstName, FirstNameRequired), NameError(f.lastName, LastNameRequired));
    (e == FormErrors(None, None, None, None), e)
  }

  /** A form is valid exactly when the email matches, the password is long enough and every name it has is non-empty. */
  lemma ValidIff(f: FormData)
    ensures ValidateForm(f).0
            <==> && EmailPattern(f.email) && f.email != ""
                 && MinPasswordLength <= Utf16Length(f.password)
                 && f.firstName != Some("") && f.lastName != Some("")
  {
  }

  /** The sign-in form has no name fields, so it never reports them. */
  lemma LoginFormNeverNames(email: string, password: string)
    ensures var e := ValidateForm(FormData(email, password, None, None)).1;
            e.firstName.None? && e.lastName.None?
  {
  }

  /** A password of exactly eight characters is long enough. */
  lemma EightIsEnough()
    ensures PasswordError("abcdefgh").None?
    ensures PasswordError("abcdefg") == Some(PasswordTooShort)
  {
    assert Utf16Length("abcdefgh") == 8;
    assert Utf16Length("abcdefg") == 7;
  }

  /** Upper and lower case letters are alike to the pattern. */
  lemma PatternExamples()
    ensures EmailPattern("a.b@x-y.Co")
    ensures !EmailPattern("a@b.c")
    ensures !EmailPattern("@b.co")
  {
    assert EmailSplit("a.b@x-y.Co", 3, 7);
    MatchesEmailIsPattern("a@b.c");
    MatchesEmailIsPattern("@b.co");
    assert IndexOfCharFrom("@b.co", '@', 0) == Some(0);
  }

  /** `handleInputChange(field)(value)`: the field is set, and exists from then on. */
  function HandleInputChange(f: FormData, field: Field, value: string): (r: FormData)
    ensures field == EmailField ==> r == f.(email := value)
    ensures field == PasswordField ==> r == f.(password := value)
    ensures field == FirstNameField ==> r == f.(firstName := Some(value))
    ensures field == LastNameField ==> r == f.(lastName := Some(value))
  {
    match field
    case EmailField => f.(email := value)
    case PasswordField => f.(password := value)
    case FirstNameField => f.(firstName := Some(value))
    case LastNameField => f.(lastName := Some(value))
  }

  /** The value a field reads, if the form has it. */
  function FieldValue(f: FormData, field: Field): Option<string> {
    match field
    case EmailField => Some(f.email)
    case PasswordField => Some(f.password)
    case FirstNameField => f.firstName
    case LastNameField => f.lastName
  }

  /** An edit changes only its field. */
  lemma EditChangesOnlyItsField(f: FormData, field: Field, value: string, other: Field)
    ensures FieldValue(HandleInputChange(f, field, value), field) == Some(value)
    ensures other != field ==> FieldValue(HandleInputChange(f, field, value), other) == FieldValue(f, other)
  {
  }

  /** What a submit sends: the credentials, or nothing when validation fails. */
  function HandleLogin(f: FormData): (r: Option<(string, string)>)
    ensures r.Some? <==> ValidateForm(f).0
    ensures r.Some? ==> r.value == (f.email, f.password)
  {
    if ValidateForm(f).0 then Some((f.email, f.password)) else None
  }

  /**
   * Typing an email and a password and pressing sign in sends exactly what
   * was typed, and does so exactly when both pass their checks and no name
   * field the form has is empty.
   */
  lemma TypedThenLogin(f: FormData, email: string, password: string)
    ensures var typed := HandleInputChange(HandleInputChange(f, EmailField, email), PasswordField, password);
            && (HandleLogin(typed).Some?
                <==> && EmailPattern(email) && email != "" && MinPasswordLength <= Utf16Length(password)
                     && f.firstName != Some("") && f.lastName != Some(""))
            && (HandleLogin(typed).Some? ==> HandleLogin(typed).value == (email, password))
  {
    var typed := HandleInputChange(HandleInputChange(f, EmailField, email), PasswordField, password);
    ValidIff(typed);
  }

  /** A sign-up sends the four fields only when all of them are valid. */
  function HandleSignUp(f: FormData): (r: Option<(string, string, string, string)>)
    requires f.firstName.Some? && f.lastName.Some?
    ensures r.Some? <==> ValidateForm(f).0
    ensures r.Some? ==> r.value == (f.email, f.password, f.firstName.value, f.lastName.value) && r.value.2 != "" && r.value.3 != ""
  {
    if ValidateForm(f).0 then Some((f.email, f.password, f.firstName.value, f.lastName.value)) else None
  }
}

=== FILE: message_list.dfy ===
/**
 * What frontend/src/components/chat/MessageList.tsx draws around each
 * message: the bot header, the document selector, the button that asks for
 * the sources of the last answer, and the button that clears the
 * conversation. Messages are those of the chat page.
 */
module MessageList {
  import opened Wrappers
  import opened Strings
  import opened AskClient

  /** A bot message right after a user message gets the avatar and title. */
  predicate ShowsHeader(messages: seq<Message>, i: nat)
    requires i < |messages|
  {
    !messages[i].isUser && i > 0 && messages[i - 1].isUser
  }

  /**
   * The sources button: on a bot message other than the welcome, whose text
   * cites nothing yet (holds no `[`), with only user messages after it.
   */
  predicate ShowsSourceButton(messages: seq<Message>, i: nat, hasCallback: bool)
    requires i < |messages|
  {
    && !messages[i].isUser
    && hasCallback
    && i > 0
    && !Contains(messages[i].text, "[")
    && forall k :: i < k < |messages| ==> messages[k].isUser
  }

  /** At most one message shows the sources button. */
  lemma AtMostOneSourceButton(messages: seq<Message>, i: nat, j: nat, hasCallback: bool)
    requires i < |messages| && j < |messages|
    requires ShowsSourceButton(messages, i, hasCallback) && ShowsSourceButton(messages, j, hasCallback)
    ensures i == j
  {
  }

  /** The button sits on the last bot message, and on it whenever that message qualifies. */
  lemma SourceButtonOnLastBot(messages: seq<Message>, hasCallback: bool)
    requires 1 < |messages| && !messages[|messages| - 1].isUser
    ensures forall i :: 0 <= i < |messages| - 1 ==> !ShowsSourceButton(messages, i, hasCallback)
    ensures ShowsSourceButton(messages, |messages| - 1, hasCallback)
            <==> hasCallback && !Contains(messages[|messages| - 1].text, "[")
  {
  }

  /** The document selector is on the first message only, when the chatbot has documents. */
  predicate ShowsDocumentSelector(i: nat, documents: Option<nat>) {
    i == 0 && documents.Some? && documents.value > 0
  }

  /** The clear button needs the flag, the callback and more than one message. */
  predicate ShowsClearButton(hasMessages: bool, hasCallback: bool, count: nat) {
    hasMessages && hasCallback && count > 1
  }

  /** Right after a clear only the welcome is left, so the clear button and the sources button are gone. */
  lemma ClearedHidesButtons(c: Chat, title: string, userName: string, hasMessages: bool, hasCallback: bool)
    ensures var m := ClearConversation(c, Some(title), Some(userName)).messages;
            && !ShowsClearButton(hasMessages, hasCallback, |m|)
            && forall i :: 0 <= i < |m| ==> !ShowsSourceButton(m, i, hasCallback) && !ShowsHeader(m, i)
  {
  }

  /** An answer without a citation, after a question, gets the header and the sources button. */
  lemma AnswerGetsButton(before: seq<Message>, answer: string)
    requires 0 < |before| && before[|before| - 1].isUser
    requires !Contains(answer, "[")
    ensures var m := before + [Message(answer, false)];
            ShowsHeader(m, |before|) && ShowsSourceButton(m, |before|, true)
  {
  }
}

=== FILE: password.dfy ===
/**
 * `generate_password` of backend/utils/auth.py. The random choices are
 * parameters: `picks[k]` chooses the k-th character drawn (reduced modulo
 * the size of the set it is drawn from) and `swaps[i]` chooses the partner
 * of position `i` in the final Fisher-Yates shuffle that
 * `random.shuffle` performs.
 */
module Passwords {
  const Specials := "!@#$%&*?"
  const Uppercase := "ABCDEFGHIJKLMNOPQRSTUVWXYZ"
  const Lowercase := "abcdefghijklmnopqrstuvwxyz"
  const Digits := "0123456789"
  const DefaultLength := 12

  /** The four character sets, in the order one character of each is drawn. */
  const Classes: seq<string> := [Specials, Uppercase, Lowercase, Digits]

  /** What the remaining characters are drawn from: the four sets joined in order. */
  const Pool := Specials + Uppercase + Lowercase + Digits

  function Max(a: int, b: int): (r: int)
    ensures r >= a && r >= b && (r == a || r == b)
  {
    if a < b then b else a
  }

  /** `secrets.choice(s)` given the index the random source chose. */
  function Choice(s: string, pick: nat): (c: char)
    requires 0 < |s|
    ensures c in s
  {
    s[pick % |s|]
  }

  /** The characters in the order drawn: one from each set, then from the pool until there are `length`. */
  function Draw(length: int, picks: seq<nat>): (r: string)
    requires Max(length, 4) <= |picks|
    ensures |r| == Max(length, 4)
    ensures forall k :: 0 <= k < 4 ==> r[k] in Classes[k]
    ensures forall k :: 4 <= k < |r| ==> r[k] in Pool
  {
    var first := FirstFour(picks);
    var rest := PoolDraws(Max(length, 4) - 4, picks[4..]);
    FirstFourInClasses(first);
    first + rest
  }

  /** One character of each set, in the order of `Classes`. */
  function FirstFour(picks: seq<nat>): (r: string)
    requires 4 <= |picks|
    ensures |r| == 4 && r[0] in Specials && r[1] in Uppercase && r[2] in Lowercase && r[3] in Digits
  {
    [Choice(Specials, picks[0]), Choice(Uppercase, picks[1]), Choice(Lowercase, picks[2]), Choice(Digits, picks[3])]
  }

  lemma FirstFourInClasses(r: string)
    requires |r| == 4 && r[0] in Specials && r[1] in Uppercase && r[2] in Lowercase && r[3] in Digits
    ensures forall k :: 0 <= k < 4 ==> r[k] in Classes[k]
  {
    forall k | 0 <= k < 4 ensures r[k] in Classes[k] {
      if k == 0 { assert Classes[0] == Specials; }
      else if k == 1 { assert Classes[1] == Uppercase; }
      else if k == 2 { assert Classes[2] == Lowercase; }
      else { assert Classes[3] == Digits; }
    }
  }

  /** `n` characters drawn from the pool. */
  function PoolDraws(n: nat, picks: seq<nat>): (r: string)
    requires n <= |picks|
    ensures |r| == n && forall k :: 0 <= k < n ==> r[k] in Pool
  {
    assert 0 < |Pool|;
    seq(n, k requires 0 <= k < n => Choice(Pool, picks[k]))
  }

  /** Swapping two positions keeps the same characters. */
  lemma SwapKeepsMultiset(s: string, i: nat, j: nat)
    requires i < |s| && j < |s|
    ensures multiset(s[i := s[j]][j := s[i]]) == multiset(s)
  {
  }

  /**
   * `random.shuffle`: for each position from the last down to the second,
   * swap it with a position at or before it.
   */
  method Shuffle(xs: string, swaps: seq<nat>) returns (ys: string)
    requires |xs| <= |swaps|
    ensures |ys| == |xs|
    ensures multiset(ys) == multiset(xs)
  {
    ys := xs;
    var i := |xs|;
    while 1 < i
      invariant 0 <= i <= |xs|
      invariant |ys| == |xs|
      invariant multiset(ys) == multiset(xs)
    {
      i := i - 1;
      var j := swaps[i] % (i + 1);
      SwapKeepsMultiset(ys, i, j);
      ys := ys[i := ys[j]][j := ys[i]];
    }
  }

  /**
   * `generate_password`: the password has `max(length, 4)` characters, all
   * from the pool, and at least one from each set; it is a rearrangement of
   * the characters drawn.
   */
  method GeneratePassword(length: int, picks: seq<nat>, swaps: seq<nat>) returns (password: string, drawn: string)
    requires Max(length, 4) <= |picks| && Max(length, 4) <= |swaps|
    ensures |password| == |drawn| == Max(length, 4)
    ensures multiset(password) == multiset(drawn)
    ensures forall k :: 0 <= k < 4 ==> drawn[k] in Classes[k]
    ensures forall k :: 0 <= k < |password| ==> password[k] in Pool
    ensures forall c :: 0 <= c < 4 ==> exists k :: 0 <= k < |password| && password[k] in Classes[c]
  {
    drawn := Draw(length, picks);
    password := Shuffle(drawn, swaps);
    forall k | 0 <= k < |password|
      ensures password[k] in Pool
    {
      assert password[k] in multiset(drawn);
      var m :| 0 <= m < |drawn| && drawn[m] == password[k];
      if m < 4 {
        InClassInPool(drawn[m], m);
      }
    }
    forall c | 0 <= c < 4
      ensures exists k :: 0 <= k < |password| && password[k] in Classes[c]
    {
      assert drawn[c] in multiset(password);
      var k :| 0 <= k < |password| && password[k] == drawn[c];
    }
  }

  lemma InClassInPool(ch: char, c: nat)
    requires c < 4 && ch in Classes[c]
    ensures ch in Pool
  {
    InOneOfFour(ch, c, Specials, Uppercase, Lowercase, Digits);
  }

  /** An element of one of four sequences is an element of their concatenation. */
  lemma InOneOfFour<T>(x: T, c: nat, a: seq<T>, b: seq<T>, d: seq<T>, e: seq<T>)
    requires c < 4 && x in [a, b, d, e][c]
    ensures x in a + b + d + e
  {
  }

  /** With the default length the password has twelve characters. */
  method DefaultPassword(picks: seq<nat>, swaps: seq<nat>) returns (password: string)
    requires DefaultLength <= |picks| && DefaultLength <= |swaps|
    ensures |password| == 12
  {
    var drawn;
    password, drawn := GeneratePassword(DefaultLength, picks, swaps);
  }
}

=== FILE: settings_tabs.dfy ===
/**
 * The main tab of frontend/src/components/chatbot-settings/MainSettingsTab.tsx:
 * picking an icon and saving the title and description.
 */
module MainSettings {
  import opened Wrappers
  import opened Strings

  /** An image the user picked; only its size is looked at. */
  datatype IconFile = IconFile(name: string, size: nat)

  datatype TabErrors = TabErrors(title: Option<string>, description: Option<string>)

  /** The tab's state; the preview image is left out. */
  datatype MainForm = MainForm(title: string, description: string, icon: Option<IconFile>, errors: TabErrors)

  /** What `onUpdate` receives. */
  datatype Update = Update(title: string, description: string, icon: Option<IconFile>)

  const MaxIconBytes := 2 * 1024 * 1024
  const TitleRequired := "Title is required"
  const DescriptionRequired := "Description is required"
  const IconTooLarge := "Please select an image smaller than 2MB"

  /** `handleIconChange`: the new form and the error toast, if one is shown. */
  function IconChange(f: MainForm, file: Option<IconFile>): (r: (MainForm, Option<string>))
    ensures file.None? ==> r == (f, None)
    ensures file.Some? && file.value.size > MaxIconBytes ==> r == (f, Some(IconTooLarge))
    ensures file.Some? && file.value.size <= MaxIconBytes ==> r == (f.(icon := file), None)
    ensures r.0.title == f.title && r.0.description == f.description && r.0.errors == f.errors
  {
    match file
    case None => (f, None)
    case Some(picked) =>
      if picked.size > MaxIconBytes then (f, Some(IconTooLarge))
      else (f.(icon := Some(picked)), None)
  }

  /** A picked icon is kept exactly when it is at most 2 MiB: the limit itself passes. */
  lemma IconLimit(f: MainForm, name: string)
    ensures IconChange(f, Some(IconFile(name, 2097152))).0.icon == Some(IconFile(name, 2097152))
    ensures IconChange(f, Some(IconFile(name, 2097153))).0 == f
  {
  }

  /** Pick after pick, as the file input hands them over. */
  function PickAll(f: MainForm, picks: seq<Option<IconFile>>): MainForm
    decreases |picks|
  {
    if |picks| == 0 then f else PickAll(IconChange(f, picks[0]).0, picks[1..])
  }

  /** The icon is absent or at most 2 MiB. */
  predicate IconFits(f: MainForm) {
    f.icon.None? || f.icon.value.size <= MaxIconBytes
  }

  /**
   * However many files are picked, no icon over 2 MiB is ever kept: the icon
   * is the one the form started with or one of the picks, and it fits. The
   * title, description and errors are never touched.
   */
  lemma {:induction false} PicksKeepIconFit(f: MainForm, picks: seq<Option<IconFile>>)
    requires IconFits(f)
    ensures var g := PickAll(f, picks);
            && IconFits(g)
            && (g.icon == f.icon || g.icon in picks)
            && g.title == f.title && g.description == f.description && g.errors == f.errors
    decreases |picks|
  {
    if |picks| != 0 {
      var next := IconChange(f, picks[0]).0;
      PicksKeepIconFit(next, picks[1..]);
      assert picks == [picks[0]] + picks[1..];
    }
  }

  /** `handleSubmit`: the new form, and what is handed to `onUpdate`, if anything. */
  function Submit(f: MainForm): (r: (MainForm, Option<Update>))
    ensures r.1.Some? <==> !IsBlank(f.title) && !IsBlank(f.description)
    ensures r.1.Some? ==> r.1.value == Update(f.title, f.description, f.icon) && r.0 == f
    ensures r.1.None? ==> r.0 == f.(errors := r.0.errors)
    ensures r.1.None? ==> (r.0.errors.title.Some? <==> IsBlank(f.title))
                          && (r.0.errors.description.Some? <==> IsBlank(f.description))
  {
    var errors := TabErrors(if IsBlank(f.title) then Some(TitleRequired) else None,
                            if IsBlank(f.description) then Some(DescriptionRequired) else None);
    if errors != TabErrors(None, None) then (f.(errors := errors), None)
    else (f, Some(Update(f.title, f.description, f.icon)))
  }

  /**
   * A saved submit leaves the error messages as they were: after a blank
   * title is reported and then filled in, saving still shows the message.
   */
  lemma StaleTitleError(f: MainForm, title: string)
    requires IsBlank(f.title) && !IsBlank(f.description)
    requires !IsBlank(title)
    ensures var failed := Submit(f).0;
            var saved := Submit(failed.(title := title));
            && failed.errors.title == Some(TitleRequired)
            && saved.1.Some?
            && saved.0.errors.title == Some(TitleRequired)
  {
  }

  /** Whitespace is checked after trimming but sent as typed. */
  lemma SentUntrimmed(f: MainForm)
    requires f.title == " Bot " && f.description == "Docs"
    ensures Submit(f).1 == Some(Update(" Bot ", "Docs", f.icon))
  {
    assert !IsJsSpace(f.title[1]);
    assert !IsJsSpace(f.description[0]);
  }
}

/**
 * The documents tab of frontend/src/components/chatbot-settings/DocumentsTab.tsx:
 * choosing files to add, sending them, and deleting a stored document.
 */
module DocumentsTab {
  import opened Wrappers
  import opened Strings

  datatype UploadFile = UploadFile(name: string, size: nat)

  datatype Document = Document(id: string, filename: string)

  /** How a request ended: a success, an error status with the body's `detail`, or an exception with its message. */
  datatype Response = Ok | HttpError(detail: Option<string>) | Thrown(message: string)

  /** What a delete click leads to. */
  datatype DeleteEffect = Ignored | LoginRedirect | Deleted(filename: string) | DeleteError(message: string)

  const MaxDocumentBytes := 10 * 1024 * 1024
  const UploadFailed := "Failed to upload documents"
  const DeleteFailed := "Failed to delete document"
  const DocumentNotFound := "Document not found"

  predicate Small(f: UploadFile) {
    f.size <= MaxDocumentBytes
  }

  /** The files the size filter keeps, in order. */
  function KeepSmall(files: seq<UploadFile>): (r: seq<UploadFile>)
    ensures forall f :: f in r <==> f in files && Small(f)
    ensures |r| <= |files|
    decreases |files|
  {
    if |files| == 0 then []
    else (if Small(files[0]) then [files[0]] else []) + KeepSmall(files[1..])
  }

  /** The files the size filter drops, in order; each gets a toast. */
  function TooLarge(files: seq<UploadFile>): (r: seq<UploadFile>)
    ensures forall f :: f in r <==> f in files && !Small(f)
    decreases |files|
  {
    if |files| == 0 then []
    else (if Small(files[0]) then [] else [files[0]]) + TooLarge(files[1..])
  }

  /** The filter sends every chosen file one way: kept or reported. */
  lemma {:induction false} FilterPartitions(files: seq<UploadFile>)
    ensures multiset(KeepSmall(files)) + multiset(TooLarge(files)) == multiset(files)
    decreases |files|
  {
    if |files| != 0 {
      var t := files[1..];
      FilterPartitions(t);
      assert files == [files[0]] + t;
      SortHead(files[0], !Small(files[0]), KeepSmall(t), TooLarge(t), t);
      if Small(files[0]) {
        assert KeepSmall(files) == [files[0]] + KeepSmall(t) && TooLarge(files) == TooLarge(t);
      } else {
        assert KeepSmall(files) == KeepSmall(t) && TooLarge(files) == [files[0]] + TooLarge(t);
      }
    }
  }

  /** The size filter keeps the order of the files chosen. */
  lemma {:induction false} KeepSmallAppend(a: seq<UploadFile>, b: seq<UploadFile>)
    ensures KeepSmall(a + b) == KeepSmall(a) + KeepSmall(b)
    decreases |a|
  {
    if |a| == 0 {
      assert a + b == b;
    } else {
      var head := if Small(a[0]) then [a[0]] else [];
      assert (a + b)[1..] == a[1..] + b;
      KeepSmallAppend(a[1..], b);
      assert KeepSmall(a + b) == head + (KeepSmall(a[1..]) + KeepSmall(b));
      AppendAssoc(head, KeepSmall(a[1..]), KeepSmall(b));
    }
  }

  /** The toasts name the files left out in the order they were chosen. */
  lemma {:induction false} TooLargeAppend(a: seq<UploadFile>, b: seq<UploadFile>)
    ensures TooLarge(a + b) == TooLarge(a) + TooLarge(b)
    decreases |a|
  {
    if |a| == 0 {
      assert a + b == b;
    } else {
      var head := if Small(a[0]) then [] else [a[0]];
      assert (a + b)[1..] == a[1..] + b;
      TooLargeAppend(a[1..], b);
      assert TooLarge(a + b) == head + (TooLarge(a[1..]) + TooLarge(b));
      AppendAssoc(head, TooLarge(a[1..]), TooLarge(b));
    }
  }

  function TooLargeMessage(f: UploadFile): string {
    f.name + " is larger than 10MB"
  }

  /**
   * `handleFileChange`: choosing nothing changes nothing; otherwise the
   * selection becomes the small files chosen now, and one toast names each
   * file left out.
   */
  function HandleFileChange(selection: seq<UploadFile>, chosen: seq<UploadFile>): (r: (seq<UploadFile>, seq<string>))
    ensures |chosen| == 0 ==> r == (selection, [])
    ensures |chosen| != 0 ==> forall f :: f in r.0 <==> f in chosen && Small(f)
    ensures |chosen| != 0 ==> r.0 == KeepSmall(chosen)
    ensures |r.1| == |TooLarge(chosen)| && forall k :: 0 <= k < |r.1| ==> r.1[k] == TooLargeMessage(TooLarge(chosen)[k])
  {
    if |chosen| == 0 then (selection, [])
    else
      var big := TooLarge(chosen);
      (KeepSmall(chosen), seq(|big|, k requires 0 <= k < |big| => TooLargeMessage(big[k])))
  }

  /** A choice holding only large files empties the earlier selection. */
  lemma LargeChoiceEmptiesSelection(selection: seq<UploadFile>, chosen: seq<UploadFile>)
    requires 0 < |chosen| && forall k :: 0 <= k < |chosen| ==> !Small(chosen[k])
    ensures HandleFileChange(selection, chosen).0 == []
    ensures |HandleFileChange(selection, chosen).1| == |chosen|
  {
    FilterPartitions(chosen);
    assert multiset(TooLarge(chosen)) == multiset(chosen);
    assert |multiset(TooLarge(chosen))| == |TooLarge(chosen)|;
  }

  /** `errorData.detail || fallback`: an empty or missing detail gives the fallback. */
  function DetailOr(detail: Option<string>, fallback: string): (r: string)
    ensures detail.Some? && detail.value != "" ==> r == detail.value
    ensures detail.None? || detail == Some("") ==> r == fallback
  {
    match detail
    case Some(d) => if d != "" then d else fallback
    case None => fallback
  }

  /** The message an error toast shows for a failed request. */
  function FailureMessage(response: Response, fallback: string): (r: Option<string>)
    ensures response.Ok? <==> r.None?
    ensures response.HttpError? ==> r == Some(DetailOr(response.detail, fallback))
    ensures response.Thrown? ==> r == Some(response.message)
  {
    match response
    case Ok => None
    case HttpError(detail) => Some(DetailOr(detail, fallback))
    case Thrown(message) => Some(message)
  }

  /**
   * `handleUpload`: with nothing selected no request is made; otherwise the
   * selection's files are sent, a success empties the selection and reports
   * how many were sent, and a failure keeps it. Returns the selection, the
   * files sent, and the toast.
   */
  function HandleUpload(selection: seq<UploadFile>, response: Response): (r: (seq<UploadFile>, seq<UploadFile>, Option<string>))
    ensures |selection| == 0 ==> r == (selection, [], None)
    ensures |selection| != 0 ==> r.1 == selection
    ensures |selection| != 0 && response.Ok? ==> r.0 == [] && r.2 == Some(NatToString(|selection|) + " document(s) uploaded successfully")
    ensures |selection| != 0 && !response.Ok? ==> r.0 == selection && r.2 == FailureMessage(response, UploadFailed)
  {
    if |selection| == 0 then (selection, [], None)
    else match response
      case Ok => ([], selection, Some(NatToString(|selection|) + " document(s) uploaded successfully"))
      case _ => (selection, selection, FailureMessage(response, UploadFailed))
  }

  /** A failed upload can be retried with the same files; a successful one cannot be sent twice. */
  lemma UploadRetry(selection: seq<UploadFile>, failure: Response, next: Response)
    requires 0 < |selection| && !failure.Ok?
    ensures HandleUpload(HandleUpload(selection, failure).0, next).1 == selection
    ensures HandleUpload(HandleUpload(selection, Ok).0, next).1 == []
  {
  }

  /** The first document with the id, as `documents.find` returns it. */
  function Find(documents: seq<Document>, id: string): (r: Option<Document>)
    ensures r.Some? ==> r.value in documents && r.value.id == id
    ensures r.None? <==> forall d :: d in documents ==> d.id != id
    ensures r.Some? ==> exists k :: 0 <= k < |documents| && documents[k] == r.value
                                    && forall j :: 0 <= j < k ==> documents[j].id != id
    decreases |documents|
  {
    if |documents| == 0 then None
    else if documents[0].id == id then Some(documents[0])
    else
      var r := Find(documents[1..], id);
      if r.Some? then
        var k :| 0 <= k < |documents[1..]| && documents[1..][k] == r.value
                 && forall j :: 0 <= j < k ==> documents[1..][j].id != id;
        assert documents[k + 1] == r.value;
        assert forall j :: 0 <= j < k + 1 ==> documents[j].id != id by {
          forall j | 0 <= j < k + 1 ensures documents[j].id != id {
            if j > 0 {
              assert documents[j] == documents[1..][j - 1];
            }
          }
        }
        r
      else r
  }

  /** JavaScript truthiness of the pending id. */
  predicate Busy(pending: Option<string>) {
    pending.Some? && pending.value != ""
  }

  /**
   * `handleDelete`: ignored while another delete is pending; otherwise it
   * needs the token and the document, asks the backend to delete the
   * document's file, and always leaves nothing pending. `after` is how the
   * callbacks that follow a successful request end.
   */
  function HandleDelete(pending: Option<string>, id: string, token: Option<string>, documents: seq<Document>,
                        response: Response, after: Response): (r: (Option<string>, DeleteEffect))
    ensures Busy(pending) <==> r.1 == Ignored
    ensures Busy(pending) ==> r.0 == pending
    ensures !Busy(pending) ==> r.0 == None
    ensures r.1.LoginRedirect? <==> !Busy(pending) && (token.None? || token == Some(""))
    ensures r.1.Deleted? ==> Find(documents, id) == Some(Document(id, r.1.filename)) && response.Ok? && after.Ok?
    ensures !Busy(pending) && token.Some? && token.value != "" && Find(documents, id).None? ==> r.1 == DeleteError(DocumentNotFound)
  {
    if Busy(pending) then (pending, Ignored)
    else if token.None? || token.value == "" then (None, LoginRedirect)
    else match Find(documents, id)
      case None => (None, DeleteError(DocumentNotFound))
      case Some(d) =>
        match FailureMessage(response, DeleteFailed)
        case Some(message) => (None, DeleteError(message))
        case None =>
          match after
          case Ok => (None, Deleted(d.filename))
          case _ => (None, DeleteError(FailureMessage(after, "Please try again").value))
  }

  /** Only an empty pending id lets a second delete through while one runs. */
  lemma EmptyIdDoesNotBlock(id: string, token: string, documents: seq<Document>, response: Response, after: Response)
    ensures HandleDelete(Some(""), id, Some(token), documents, response, after).1 != Ignored
    ensures HandleDelete(Some("d1"), id, Some(token), documents, response, after).1 == Ignored
  {
  }

  /** The remove button of a selected file: `filter((_, i) => i !== index)`. */
  function RemoveAt(files: seq<UploadFile>, index: int): (r: seq<UploadFile>)
    ensures 0 <= index < |files| ==> r == files[..index] + files[index + 1..]
    ensures !(0 <= index < |files|) ==> r == files
    decreases |files|
  {
    if |files| == 0 then []
    else
      var rest := RemoveAt(files[1..], index - 1);
      if index == 0 then
        assert files[index + 1..] == files[1..];
        rest
      else
        DropAfterHead(files, index);
        [files[0]] + rest
  }

  /** Removing a selected file removes exactly one occurrence of it. */
  lemma RemoveAtOne(files: seq<UploadFile>, index: int)
    requires 0 <= index < |files|
    ensures multiset(RemoveAt(files, index)) + multiset{files[index]} == multiset(files)
  {
    SplitAround(files, index);
    assert multiset(RemoveAt(files, index)) == multiset(files[..index]) + multiset(files[index + 1..]);
  }

  /** Dropping position `i` of `s` is keeping the head and dropping position `i - 1` of the tail. */
  lemma DropAfterHead<T>(s: seq<T>, i: int)
    ensures 0 < i < |s| ==> [s[0]] + (s[1..][..i - 1] + s[1..][i..]) == s[..i] + s[i + 1..]
  {
    if 0 < i < |s| {
      assert s[..i] == [s[0]] + s[1..][..i - 1];
      assert s[i + 1..] == s[1..][i..];
    }
  }

  lemma SplitAround<T>(s: seq<T>, i: nat)
    requires i < |s|
    ensures multiset(s) == multiset(s[..i]) + multiset{s[i]} + multiset(s[i + 1..])
  {
    assert s == s[..i] + s[i..];
    assert s[i..] == [s[i]] + s[i + 1..];
  }
}

=== FILE: sse.dfy ===
/**
 * The credit notice both server streams emit after billing a model call. It
 * uses the field syntax of server-sent events (WHATWG HTML Living Standard,
 * section 9.2.5 "Parsing an event stream"): an `event:` line, an `id:` line,
 * a `data:` line, then a blank line ending the event.
 */
module Sse {
  import opened Wrappers
  import opened Strings
  import opened Json
  import opened PyJson

  const CreditsEvent := "event: credits"
  const DataPrefix := "data: "

  /** Both streams bill four times the usage the model reported. */
  function BilledQty(usage: nat): nat {
    4 * usage
  }

  /** The payload `{"consumed_credits": x}`, with `x` in hundredths of a credit. */
  function CreditsPayload(hundredths: nat): (d: seq<PyItem>)
    ensures DictBraceFree(d)
  {
    var d := [PyItem("consumed_credits", PFloat(hundredths))];
    assert BraceFree(d[0].key);
    d
  }

  /** The text before the payload: event line, id line (a Unix timestamp), and the data field name. */
  function FrameHead(stamp: int): (r: string)
    ensures BraceFree(r)
    ensures StartsWith(r, CreditsEvent)
  {
    IntToStringBraceFree(stamp);
    HeadWith(IntToString(stamp))
  }

  function HeadWith(id: string): (r: string)
    requires BraceFree(id)
    ensures BraceFree(r)
    ensures StartsWith(r, CreditsEvent)
  {
    var a := CreditsEvent + "\nid: ";
    var b := "\n" + DataPrefix;
    assert BraceFree(a) && BraceFree(b);
    LacksAppend(a, id, '{');
    LacksAppend(a, id, '}');
    LacksAppend(a + id, b, '{');
    LacksAppend(a + id, b, '}');
    assert (a + id + b)[..|CreditsEvent|] == CreditsEvent;
    a + id + b
  }

  /** One credit event as yielded by the server. */
  function CreditFrame(stamp: int, hundredths: nat): (r: string)
    ensures StartsWith(r, CreditsEvent)
    ensures Lines(r) == [CreditsEvent, "id: " + IntToString(stamp), DataPrefix + Dumps(CreditsPayload(hundredths)), "", ""]
  {
    IntToStringBraceFree(stamp);
    FrameWith(IntToString(stamp), Dumps(CreditsPayload(hundredths)))
  }

  /** The event for a given id text and payload text. */
  function FrameWith(id: string, payload: string): (r: string)
    requires Lacks(id, '\n') && Lacks(payload, '\n')
    ensures StartsWith(r, CreditsEvent)
    ensures Lines(r) == [CreditsEvent, "id: " + id, DataPrefix + payload, "", ""]
  {
    var idLine := "id: " + id;
    var data := DataPrefix + payload;
    LacksAppend("id: ", id, '\n');
    LacksAppend(DataPrefix, payload, '\n');
    assert Lacks(CreditsEvent, '\n');
    FiveLines(CreditsEvent, idLine, data);
    var r := CreditsEvent + "\n" + (idLine + "\n" + (data + "\n" + "\n"));
    assert r[..|CreditsEvent|] == CreditsEvent;
    r
  }

  lemma LinesOfNewline()
    ensures Lines("\n") == ["", ""]
  {
    LinesAfterLine("", "");
  }

  lemma LinesStep(a: string, b: string, rest: seq<string>)
    requires Lacks(a, '\n') && Lines(b) == rest
    ensures Lines(a + "\n" + b) == [a] + rest
  {
    LinesAfterLine(a, b);
  }

  /** Three newline-free lines followed by the blank line that ends an event. */
  lemma FiveLines(x0: string, x1: string, x2: string)
    requires Lacks(x0, '\n') && Lacks(x1, '\n') && Lacks(x2, '\n')
    ensures Lines(x0 + "\n" + (x1 + "\n" + (x2 + "\n" + "\n"))) == [x0, x1, x2, "", ""]
  {
    FourLines(x1, x2);
    LinesStep(x0, x1 + "\n" + (x2 + "\n" + "\n"), [x1, x2, "", ""]);
    assert [x0] + [x1, x2, "", ""] == [x0, x1, x2, "", ""];
  }

  lemma FourLines(x1: string, x2: string)
    requires Lacks(x1, '\n') && Lacks(x2, '\n')
    ensures Lines(x1 + "\n" + (x2 + "\n" + "\n")) == [x1, x2, "", ""]
  {
    ThreeLines(x2);
    LinesStep(x1, x2 + "\n" + "\n", [x2, "", ""]);
  }

  lemma ThreeLines(x2: string)
    requires Lacks(x2, '\n')
    ensures Lines(x2 + "\n" + "\n") == [x2, "", ""]
  {
    LinesOfNewline();
    LinesStep(x2, "\n", ["", ""]);
  }

  /** The frame splits around its only closing brace: a brace-free head, the payload object, and a brace-free tail. */
  lemma CreditFrameParts(stamp: int, hundredths: nat)
    ensures CreditFrame(stamp, hundredths) == FrameHead(stamp) + Dumps(CreditsPayload(hundredths)) + "\n\n"
  {
    IntToStringBraceFree(stamp);
    FrameWithParts(IntToString(stamp), Dumps(CreditsPayload(hundredths)));
  }

  lemma FrameWithParts(id: string, payload: string)
    requires BraceFree(id) && Lacks(id, '\n') && Lacks(payload, '\n')
    ensures FrameWith(id, payload) == HeadWith(id) + payload + "\n\n"
  {
  }

  /**
   * How both clients read a credit notice out of a text: the first line
   * starting with `data: `, without that prefix, goes to `JSON.parse`, and
   * `consumed_credits` is read from the result. `None` when there is no such
   * line, when it does not parse, or when it parses to `null` (whose
   * property read throws); otherwise the value shown in the toast, where
   * `Some(None)` is `undefined`.
   */
  function ReadNotice(parse: Parser, text: string): (r: Option<Option<Json>>)
    ensures r.Some? ==> exists k :: 0 <= k < |Lines(text)| && StartsWith(Lines(text)[k], DataPrefix)
  {
    match FirstWithPrefix(Lines(text), DataPrefix)
    case None => None
    case Some(line) =>
      match parse(line[|DataPrefix|..])
      case None => None
      case Some(data) => if data.Null? then None else Some(Prop(data, "consumed_credits"))
  }

  /** The first of five lines that starts with `p`, when only the third does among the first three. */
  lemma FirstOfFive(lines: seq<string>, p: string)
    requires |lines| == 5
    requires !StartsWith(lines[0], p) && !StartsWith(lines[1], p) && StartsWith(lines[2], p)
    ensures FirstWithPrefix(lines, p) == Some(lines[2])
  {
    var r := FirstWithPrefix(lines, p);
    if r.Some? {
      var k :| 0 <= k < |lines| && lines[k] == r.value && forall j :: 0 <= j < k ==> !StartsWith(lines[j], p);
      assert k == 2;
    }
  }

  lemma NotDataLine(s: string)
    requires 0 < |s| && s[0] != 'd'
    ensures !StartsWith(s, DataPrefix)
  {
  }

  /** The object `{"consumed_credits": x}` read back has `x` as a number under that key. */
  lemma PayloadCredits(hundredths: nat)
    ensures Prop(ToJson(CreditsPayload(hundredths)), "consumed_credits") == Some(Num(hundredths as real / 100.0))
  {
    var d := CreditsPayload(hundredths);
    var m := ToJson(d).members;
    assert m[0] == Member("consumed_credits", ValueToJson(PFloat(hundredths)));
    assert m[..0] == [];
  }

  /**
   * A credit event sent by the server, read by itself, gives exactly the
   * billed amount, provided `JSON.parse` reads back what `json.dumps` wrote.
   */
  lemma FrameNotice(parse: Parser, stamp: int, hundredths: nat)
    requires AcceptsDumps(parse)
    ensures ReadNotice(parse, CreditFrame(stamp, hundredths)) == Some(Some(Num(hundredths as real / 100.0)))
  {
    var payload := Dumps(CreditsPayload(hundredths));
    DumpsParses(parse, CreditsPayload(hundredths));
    IntToStringBraceFree(stamp);
    NoticeOfFrame(parse, IntToString(stamp), payload, ToJson(CreditsPayload(hundredths)));
    PayloadCredits(hundredths);
  }

  lemma NoticeOfFrame(parse: Parser, id: string, payload: string, v: Json)
    requires Lacks(id, '\n') && Lacks(payload, '\n')
    requires parse(payload) == Some(v) && !v.Null?
    ensures ReadNotice(parse, FrameWith(id, payload)) == Some(Prop(v, "consumed_credits"))
  {
    var lines := Lines(FrameWith(id, payload));
    NotDataLine(lines[0]);
    NotDataLine(lines[1]);
    assert StartsWith(lines[2], DataPrefix) by {
      assert lines[2] == DataPrefix + payload;
    }
    FirstOfFive(lines, DataPrefix);
    assert lines[2][|DataPrefix|..] == payload;
  }
}

=== FILE: strings.dfy ===
/**
 * The string primitives the client and the server rely on, with JavaScript's
 * meaning: `startsWith`, `includes`, `indexOf`, `split('\n')`, `trim()`
 * emptiness, decimal formatting, and UTF-16 length.
 */
module Strings {
  import opened Wrappers

  /** `s.startsWith(p)`. */
  predicate StartsWith(s: string, p: string) {
    |p| <= |s| && s[..|p|] == p
  }

  /** `p` occurs in `s` starting at index `i`. */
  predicate OccursAt(s: string, p: string, i: int) {
    0 <= i && i + |p| <= |s| && s[i..i + |p|] == p
  }

  lemma OccursShift(s: string, p: string, j: int)
    requires 0 < |s| && 1 <= j
    ensures OccursAt(s, p, j) <==> OccursAt(s[1..], p, j - 1)
  {
    if j + |p| <= |s| {
      var a, b := s[j..j + |p|], s[1..][j - 1..j - 1 + |p|];
      assert |a| == |b|;
      assert forall k :: 0 <= k < |a| ==> a[k] == s[j + k] == b[k];
      assert a == b;
    }
  }

  /** `s.indexOf(p)`: the first index at which `p` occurs, `None` for -1. */
  function IndexOf(s: string, p: string): (r: Option<nat>)
    ensures r.Some? ==> OccursAt(s, p, r.value)
    ensures r.Some? ==> forall j :: 0 <= j < r.value ==> !OccursAt(s, p, j)
    ensures r.None? ==> forall j :: !OccursAt(s, p, j)
    decreases |s|
  {
    if StartsWith(s, p) then Some(0)
    else if |s| == 0 then None
    else
      var rest := IndexOf(s[1..], p);
      forall j | 1 <= j ensures OccursAt(s, p, j) <==> OccursAt(s[1..], p, j - 1) {
        OccursShift(s, p, j);
      }
      match rest
      case None => None
      case Some(i) => Some(i + 1)
  }

  /** A text that starts with `p` after a prefix lacking the first character of `p`: `p` is first found where the text starts. */
  lemma IndexOfAfter(pre: string, x: string, p: string)
    requires 0 < |p| && StartsWith(x, p) && Lacks(pre, p[0])
    ensures IndexOf(pre + x, p) == Some(|pre|)
  {
    var s := pre + x;
    assert s[|pre|..|pre| + |p|] == x[..|p|];
    assert OccursAt(s, p, |pre|);
    forall j | 0 <= j < |pre| ensures !OccursAt(s, p, j) {
      assert s[j] == pre[j] != p[0];
    }
  }

  /** `s.includes(p)`, which is `s.indexOf(p) !== -1`. */
  predicate Contains(s: string, p: string) {
    IndexOf(s, p).Some?
  }

  lemma ContainsAt(s: string, p: string, i: int)
    requires OccursAt(s, p, i)
    ensures Contains(s, p)
  {
  }

  lemma StartsWithContains(s: string, p: string)
    requires StartsWith(s, p)
    ensures Contains(s, p)
  {
    ContainsAt(s, p, 0);
  }

  /** `s.indexOf(c, from)` for a single character: the first index at or after `from` holding `c`. */
  function IndexOfCharFrom(s: string, c: char, from: nat): (r: Option<nat>)
    ensures r.Some? ==> from <= r.value < |s| && s[r.value] == c
    ensures r.Some? ==> forall k :: from <= k < r.value ==> s[k] != c
    ensures r.None? ==> forall k :: from <= k < |s| ==> s[k] != c
    decreases |s| - from
  {
    if |s| <= from then None
    else if s[from] == c then Some(from)
    else IndexOfCharFrom(s, c, from + 1)
  }

  /** `c` does not occur in `s`. */
  predicate Lacks(s: string, c: char) {
    forall i :: 0 <= i < |s| ==> s[i] != c
  }

  /** Neither brace occurs in `s`. */
  predicate BraceFree(s: string) {
    Lacks(s, '{') && Lacks(s, '}')
  }

  lemma LacksAppend(a: string, b: string, c: char)
    ensures Lacks(a + b, c) <==> Lacks(a, c) && Lacks(b, c)
  {
    if Lacks(a, c) && Lacks(b, c) {
      forall i | 0 <= i < |a + b| ensures (a + b)[i] != c {
        if i >= |a| {
          assert (a + b)[i] == b[i - |a|];
        }
      }
    }
    if Lacks(a + b, c) {
      forall i | 0 <= i < |a| ensures a[i] != c {
        assert (a + b)[i] == a[i];
      }
      forall i | 0 <= i < |b| ensures b[i] != c {
        assert (a + b)[|a| + i] == b[i];
      }
    }
  }

  /** Python's `sep.join(parts)`. */
  function Join(parts: seq<string>, sep: string): string
    decreases |parts|
  {
    if |parts| == 0 then ""
    else if |parts| == 1 then parts[0]
    else parts[0] + sep + Join(parts[1..], sep)
  }

  lemma {:induction false} JoinLacks(parts: seq<string>, sep: string, c: char)
    requires forall k :: 0 <= k < |parts| ==> Lacks(parts[k], c)
    requires Lacks(sep, c)
    ensures Lacks(Join(parts, sep), c)
    decreases |parts|
  {
    if |parts| > 1 {
      JoinLacks(parts[1..], sep, c);
      LacksAppend(parts[0], sep, c);
      LacksAppend(parts[0] + sep, Join(parts[1..], sep), c);
    }
  }

  /** The concatenation of all parts in order. */
  function Concat(parts: seq<string>): string
    decreases |parts|
  {
    if |parts| == 0 then "" else parts[0] + Concat(parts[1..])
  }

  lemma ConcatCons(x: string, rest: seq<string>)
    ensures Concat([x] + rest) == x + Concat(rest)
  {
    assert ([x] + rest)[1..] == rest;
  }

  /** Appending is associative; stated once so that crowded proofs need not rediscover it. */
  lemma AppendAssoc<T>(a: seq<T>, b: seq<T>, c: seq<T>)
    ensures a + b + c == a + (b + c)
  {
  }

  /** Putting one more element in front of one of two lists that together hold `t`. */
  lemma SortHead<T>(x: T, toSecond: bool, first: seq<T>, second: seq<T>, t: seq<T>)
    requires multiset(first) + multiset(second) == multiset(t)
    ensures var a := if toSecond then first else [x] + first;
            var b := if toSecond then [x] + second else second;
            multiset(a) + multiset(b) == multiset([x] + t) && |a| + |b| == 1 + |first| + |second|
  {
  }

  lemma {:induction false} ConcatAppend(a: seq<string>, b: seq<string>)
    ensures Concat(a + b) == Concat(a) + Concat(b)
    decreases |a|
  {
    if |a| == 0 {
      assert a + b == b;
    } else {
      assert (a + b)[1..] == a[1..] + b;
      ConcatAppend(a[1..], b);
    }
  }

  /** `s.split('\n')`: always at least one line, no line holds a newline, and joining them back with newlines gives `s`. */
  function Lines(s: string): (r: seq<string>)
    ensures 1 <= |r|
    ensures forall k :: 0 <= k < |r| ==> Lacks(r[k], '\n')
    ensures Join(r, "\n") == s
    decreases |s|
  {
    match IndexOfCharFrom(s, '\n', 0)
    case None => [s]
    case Some(i) =>
      var rest := Lines(s[i + 1..]);
      assert s == s[..i] + "\n" + s[i + 1..];
      [s[..i]] + rest
  }

  lemma LinesAfterLine(a: string, b: string)
    requires Lacks(a, '\n')
    ensures Lines(a + "\n" + b) == [a] + Lines(b)
  {
    var s := a + "\n" + b;
    assert s[|a|] == '\n';
    assert s[..|a|] == a;
    assert s[|a| + 1..] == b;
  }

  /** `lines.find(line => line.startsWith(p))`. */
  function FirstWithPrefix(lines: seq<string>, p: string): (r: Option<string>)
    ensures r.Some? ==> StartsWith(r.value, p)
    ensures r.Some? ==> exists k :: 0 <= k < |lines| && lines[k] == r.value && forall j :: 0 <= j < k ==> !StartsWith(lines[j], p)
    ensures r.None? ==> forall k :: 0 <= k < |lines| ==> !StartsWith(lines[k], p)
    decreases |lines|
  {
    if |lines| == 0 then None
    else if StartsWith(lines[0], p) then Some(lines[0])
    else
      var rest := FirstWithPrefix(lines[1..], p);
      if rest.Some? then
        ghost var k :| 0 <= k < |lines[1..]| && lines[1..][k] == rest.value && forall j :: 0 <= j < k ==> !StartsWith(lines[1..][j], p);
        assert lines[k + 1] == rest.value;
        rest
      else
        rest
  }

  /** The characters JavaScript's `trim()` removes: WhiteSpace and LineTerminator of ECMA-262. */
  predicate IsJsSpace(c: char) {
    || c == '\t' || c == '\n' || c == '\U{B}' || c == '\U{C}' || c == '\r' || c == ' '
    || c == '\U{A0}' || c == '\U{1680}' || ('\U{2000}' <= c <= '\U{200A}')
    || c == '\U{2028}' || c == '\U{2029}' || c == '\U{202F}' || c == '\U{205F}'
    || c == '\U{3000}' || c == '\U{FEFF}'
  }

  /** `!s.trim()`: the string is empty once trimmed. */
  predicate IsBlank(s: string) {
    forall i :: 0 <= i < |s| ==> IsJsSpace(s[i])
  }

  /** `s.length` in JavaScript: the number of UTF-16 code units. */
  function Utf16Length(s: string): (r: nat)
    ensures |s| <= r <= 2 * |s|
    ensures r == 0 <==> |s| == 0
    decreases |s|
  {
    if |s| == 0 then 0
    else (if s[0] as int > 0xFFFF then 2 else 1) + Utf16Length(s[1..])
  }

  predicate IsDigit(c: char) {
    '0' <= c <= '9'
  }

  predicate AllDigits(s: string) {
    forall i :: 0 <= i < |s| ==> IsDigit(s[i])
  }

  function DigitChar(d: nat): (c: char)
    requires d < 10
    ensures IsDigit(c) && (c as int) - ('0' as int) == d
  {
    (('0' as int) + d) as char
  }

  /** The value of a run of decimal digits. */
  function DigitsValue(s: string): nat
    requires AllDigits(s)
    decreases |s|
  {
    if |s| == 0 then 0
    else DigitsValue(s[..|s| - 1]) * 10 + ((s[|s| - 1] as int) - ('0' as int))
  }

  /** Decimal text of a natural number, as `String(n)` and Python's `str(n)` write it. */
  function NatToString(n: nat): (r: string)
    ensures 1 <= |r| && AllDigits(r)
    ensures DigitsValue(r) == n
    ensures r[0] == '0' ==> n == 0
    decreases n
  {
    if n < 10 then [DigitChar(n)]
    else
      var high := NatToString(n / 10);
      var r := high + [DigitChar(n % 10)];
      assert r[..|r| - 1] == high;
      r
  }

  lemma NatToStringInjective(m: nat, n: nat)
    requires NatToString(m) == NatToString(n)
    ensures m == n
  {
  }

  /** Decimal text of an integer, with a leading `-` when negative. */
  function IntToString(i: int): (r: string)
    ensures 1 <= |r|
    ensures i >= 0 ==> AllDigits(r) && DigitsValue(r) == i
    ensures i < 0 ==> r[0] == '-' && AllDigits(r[1..]) && DigitsValue(r[1..]) == -i
  {
    if i < 0 then
      var digits := NatToString(-i);
      assert ("-" + digits)[1..] == digits;
      "-" + digits
    else NatToString(i)
  }

  /** Two texts without a space, each followed by the same separator that starts with a space, are told apart by where the first space falls. */
  lemma SplitBeforeSpace(s: string, t: string, sep: string, x: string, y: string)
    requires forall k :: 0 <= k < |s| ==> s[k] != ' '
    requires forall k :: 0 <= k < |t| ==> t[k] != ' '
    requires 0 < |sep| && sep[0] == ' '
    requires s + sep + x == t + sep + y
    ensures s == t && x == y
  {
    var l := s + sep + x;
    assert forall k :: 0 <= k < |s| ==> l[k] == s[k];
    assert forall k :: 0 <= k < |t| ==> l[k] == t[k];
    assert l[|s|] == ' ' && l[|t|] == ' ';
    assert s == l[..|s|] && t == l[..|t|];
    assert x == l[|s| + |sep|..] && y == l[|t| + |sep|..];
  }

  lemma DigitsAreBraceFree(s: string)
    requires AllDigits(s)
    ensures BraceFree(s) && Lacks(s, '\n')
  {
  }

  lemma IntToStringBraceFree(i: int)
    ensures BraceFree(IntToString(i)) && Lacks(IntToString(i), '\n')
  {
    var r := IntToString(i);
    if i < 0 {
      DigitsAreBraceFree(r[1..]);
      assert forall k :: 1 <= k < |r| ==> r[k] == r[1..][k - 1];
    }
  }
}

=== FILE: typewriter.dfy ===
/**
 * The typing effect of frontend/src/components/ui/TypeWriter.tsx: each tick
 * shows one more character of the text, and once all of it is shown every
 * tick reports completion. Texts are sequences of UTF-16 code units, as
 * `slice` and `length` count them; the timer is left out, only its ticks
 * remain.
 */
module TypeWriter {
  /** One tick of `typeNextChar`: the text shown next, and whether `onComplete` fired. */
  function Tick(text: string, shown: string): (r: (string, bool))
    ensures r.1 <==> |shown| == |text|
    ensures r.1 ==> r.0 == shown
    ensures !r.1 ==> |r.0| == (if |shown| + 1 < |text| then |shown| + 1 else |text|) && r.0 == text[..|r.0|]
  {
    if |shown| == |text| then (shown, true)
    else (text[..if |shown| + 1 < |text| then |shown| + 1 else |text|], false)
  }

  /**
   * What is shown after `n` ticks. The effect that starts the timer first
   * shows nothing, both when the text changes and when it turns visible or
   * invisible, so every run of ticks starts from the empty text.
   */
  function Typed(text: string, n: nat): string
    decreases n
  {
    if n == 0 then "" else Tick(text, Typed(text, n - 1)).0
  }

  /** After `n` ticks the first `min(n, |text|)` characters are shown. */
  lemma {:induction false} TypedIsPrefix(text: string, n: nat)
    ensures var shown := Typed(text, n);
            && |shown| == (if n < |text| then n else |text|)
            && shown == text[..|shown|]
    decreases n
  {
    if n != 0 {
      TypedIsPrefix(text, n - 1);
    }
  }

  /** After as many ticks as the text is long, the whole text is shown and stays so; from then on every tick completes. */
  lemma Completes(text: string, n: nat)
    requires |text| <= n
    ensures Typed(text, n) == text
    ensures Tick(text, Typed(text, n)) == (text, true)
  {
    TypedIsPrefix(text, n);
    assert text[..|text|] == text;
  }

  /** Completion is not reported before the text is fully shown. */
  lemma NoEarlyCompletion(text: string, n: nat)
    requires n < |text|
    ensures !Tick(text, Typed(text, n)).1
  {
    TypedIsPrefix(text, n);
  }
}

=== FILE: wrappers.dfy ===
/** Option and Result values used across the model in place of `null` and of exceptions. */
module Wrappers {

  /** A value that may be absent: `null`/`undefined` in the client, `None` in the server. */
  datatype Option<+T> = None | Some(value: T)

  /** The outcome of an operation that either succeeds or raises an error. */
  datatype Result<+T, +E> = Success(value: T) | Failure(error: E)
}
